=== FILE: README.md ===
# inbound_parser routing engine, modelled in Dafny

inbound_parser receives the mails SendGrid posts to it, and the monitoring
events other systems send it, and turns them into Jira Service Desk requests
and comments. This project models the part of it that decides what happens
to one mail or event:

- loading and validating the configuration of Jira installations and service
  desks;
- parsing the SendGrid form into an email;
- finding the service desk or installation a mail is addressed to, and the
  request its subject refers to;
- the sender checks (malware, own addresses, spam, auto replies) and the
  routing that follows;
- creating requests and comments, and enrolling participants, through the
  Jira actor;
- the reply mails and the critical-error mail;
- turning events into requests;
- replaying dumped mails and events at start-up;
- the periodic maintenance.

Jira, the mail server, the MIME and JSON decoders, the file system and the
database are not modelled. They are the parameters of the model:

- The Jira server is a `Server` record of functions. Each function answers
  one call, given the calls made before it.
- Every call the engine makes is appended to a `Trace`. An operation returns
  a `Step`: its result together with the trace it produced.
- Contracts talk about that trace. They say which calls a path may make,
  that dropped mails make none, that at most the configured number of
  participants is added, and that a reply mail is the last call when there
  is one.

The modules follow the Go packages:

| module | Go source |
|---|---|
| `Model` | the records of global_structs |
| `Topology` | config/helper.go |
| `ConfigLoad` | config/config_parser.go |
| `MailParse` | email/parse.go |
| `MailText` | email/helper.go |
| `AddressLists` | the allow and deny lists of handler/prepare_handler.go |
| `SubjectKeys` | the issue-key regexp of handler/prepare_handler.go |
| `Prepare` | the rest of handler/prepare_handler.go |
| `JiraActor` | jira_actor/create.go and jira_actor/get.go |
| `EmailToJira` | handler/email_to_jira.go |
| `Handler` | handler/handler.go |
| `Events` | the event shapes of handler/handler.go |
| `Logging` | logging/logging.go |
| `Maintenance` | config/maintenance.go |
| `Replay` | email_loader/dump_loader.go |
| `Numbers` | strconv, which names the dump and log files |
| `Effects` | the calls themselves and facts about traces |
| `Text` | the strings functions the Go code uses |
| `Seqs` | shared sequence helpers |
| `Wrappers` | shared result and option types |

## Model

| member | source | states |
|---|---|---|
| Topology.DeskFromMail | src/config/helper.go:9-20 | The result is the first desk, in installation-then-desk order, that lists the address. There is no result exactly when no desk lists it. |
| Topology.DeskFromId | src/config/helper.go:22-31 | The result is the first desk with the Jira id that is not reserved for event requests. There is no result exactly when no such desk exists. |
| Topology.InstallFromMail | src/config/helper.go:34-43 | The result is the first installation that lists the address. There is no result exactly when no installation lists it. |
| Topology.AddressLookupsAgree | src/config/helper.go:9-43 | Two configurations with the same address lists answer both address lookups the same way. So the fields the loader derives cannot change routing. |
| AddressLists.ListedIn | src/handler/prepare_handler.go:39-55 | True exactly when some listed address equals the address, either as written or after lower-casing both. Lower-casing folds the capitals of ASCII, Latin-1, basic Greek and basic Cyrillic. |
| AddressLists.ListedInIgnoresCase | src/handler/prepare_handler.go:41 | Lower-casing the queried address never changes the answer. |
| AddressLists.ListedInFoldsUmlaut | src/handler/prepare_handler.go:41 | A listed "ÄB@x.de" matches the sender "äb@x.de": case is ignored beyond ASCII too. |
| AddressLists.NotToReplyTo | src/handler/prepare_handler.go:39-46 | True exactly when the sender is on the do-not-reply list, with case ignored as ListedIn ignores it. |
| AddressLists.Whitelisted | src/handler/prepare_handler.go:48-55 | True exactly when the sender is on the whitelist, with case ignored as ListedIn ignores it. |
| ConfigLoad.DeskReplyAddress | src/config/config_parser.go:60-64 | The reply address exists exactly when the desk or its installation has an address. It is the desk's first address when the desk has one, otherwise the installation's first, and always carries the desk's reply name. |
| ConfigLoad.DeskEmailClash | src/config/config_parser.go:49-59 | There is no clash exactly when every address of the desk leads back to that desk and to no installation. |
| ConfigLoad.InstallEmailClash | src/config/config_parser.go:103-114 | There is no clash exactly when every address of the installation leads to no desk and back to that installation. |
| ConfigLoad.FinishDesk | src/config/config_parser.go:34-77 | The desk is accepted exactly when the layout rules hold: an event-only desk sets none of the mail fields; any other desk has an address of its own or through its installation, its addresses are unique, and the creation template exists when mails are sent. The loaded desk differs from the input only in the derived fields. |
| ConfigLoad.ValidateServiceDesk | src/config/config_parser.go:17-79 | The desk is accepted exactly when it has a project key whose desk id Jira finds, a request type that Jira finds, and the layout rules hold. The loaded desk carries those ids. |
| ConfigLoad.CollectFrom | src/config/config_parser.go:125-128 | The loop over a list: it succeeds exactly when every element does, with one result per element, in order. Otherwise it fails with the first error. |
| ConfigLoad.ValidateDesks | src/config/config_parser.go:125-128 | An installation's desks load exactly when each one passes ValidateServiceDesk, and each loaded desk is that desk. |
| ConfigLoad.ValidateJiraInstall | src/config/config_parser.go:81-129 | The installation is accepted exactly when it has a token and a URL, its addresses are unique, its rejection template parses when it has addresses, and all its desks are accepted. The loaded installation has a reply address made from its first address. |
| ConfigLoad.ValidateInstalls | src/config/config_parser.go:163-167 | The installations load exactly when each one passes ValidateJiraInstall, and each loaded installation is that one. |
| ConfigLoad.EventDesksIn | src/config/config_parser.go:184-193 | Lists exactly the desks of one installation, from a given position on, that create event requests, in desk order. |
| ConfigLoad.EventDesksFrom | src/config/config_parser.go:184-193 | Lists exactly the event desks from a given installation on, in installation-then-desk order. |
| ConfigLoad.EventDesks | src/config/config_parser.go:184-193 | Lists exactly the desks that create event requests, in configuration order. |
| ConfigLoad.PickEventDesk | src/config/config_parser.go:182-198 | The loop starts from the sink already set, which is normally none. It fails on a flagged desk once a sink is set, and at the end when there is no sink. So, with no preset sink, a sink is chosen exactly when exactly one desk is flagged, and it is that desk. |
| ConfigLoad.CheckSettings | src/config/config_parser.go:131-160 | No error exactly when the global settings hold. Both critical-mail addresses are set or neither is. Dumping or parsing is on. ClamAV has a scan directory when it is used. The dump directory exists. The spam limit is positive. Port and domain are set when dumping. |
| ConfigLoad.ValidateConfig | src/config/config_parser.go:131-199 | The configuration is accepted exactly when the settings hold and the following hold too. When parsing (and not in debug mode), every installation loads and the participant cap is set. Mail sending has a host and a port. Event handling has exactly one sink. The loaded configuration differs from the input only in the loaded installations and the chosen sink. |
| ConfigLoad.LoadKeepsAddressing | src/config/config_parser.go:131-199 | Loading changes no address list, no desk position and no event flag. |
| ConfigLoad.LoadedAddressesUnique | src/config/config_parser.go:49-114 | After loading, every desk address resolves to its own desk and to no installation, and every installation address resolves to its own installation and to no desk. |
| ConfigLoad.LoadedOwnersDistinct | src/config/config_parser.go:49-114 | After loading, no address belongs to two desks, to a desk and an installation, or to two installations. |
| ConfigLoad.EventSinkUnique | src/config/config_parser.go:182-198 | After loading with event handling on, the sink is a desk that creates event requests, and it is the only such desk. |
| ConfigLoad.LoadedEventOnly | src/config/config_parser.go:36-44 | A loaded desk is event-only exactly when it creates event requests and neither it nor its installation has an address. Such a desk has no postfix and no reply marker. |
| ConfigLoad.LoadedReplyAddressRoutesBack | src/config/config_parser.go:60-64 | Every mail desk has a reply address with the desk's reply name. A mail sent to that address is routed back to the same desk, or, when the desk has no address of its own, to its installation. |
| Text.TrimSpace | src/email/parse.go:201 | The result is the text with its white space cut from both ends. It keeps what had no such edge. |
| Text.TrimSpaceInfix | src/jira_actor/create.go:35 | The trimmed text is a contiguous piece of the input, and everything cut off around it is white space. |
| Text.Lower | src/handler/prepare_handler.go:41 | Lower-casing keeps the length and lower-cases each character on its own, with LowerChar. |
| Text.LowerChar | src/handler/prepare_handler.go:41 | Each capital of ASCII, Latin-1 (except the multiplication sign) and basic Greek becomes the character 32 code points above it, and each basic Cyrillic capital the one 32 or 80 above it (U+0400..U+040F by 80), as in Unicode's lower-case mapping. Every other character is kept, and the result is never a capital. |
| Text.LowerCharPairs | src/handler/prepare_handler.go:41 | A to a, Ä to ä, Ω to ω, Ѐ (U+0400) to ѐ (U+0450) and Я to я: the lower-case partners of capitals from each block. |
| Text.LowerIdempotent | src/handler/email_to_jira.go:155 | Lower-casing twice is lower-casing once. |
| Text.CutBefore | src/handler/email_to_jira.go:30 | The result is the longest prefix that does not contain the separator. Either it is the whole text, or the separator follows it. |
| Text.TrimSuffix | src/email/helper.go:33 | The result is a prefix of the text. When the text ends with the suffix, the result followed by the suffix is the text. Otherwise the text is kept. |
| Text.ReplaceAllChars | src/logging/logging.go:51-52 | Every character of the result comes from the text or from the replacement. A one-character pattern that is not in the replacement is gone from the result. |
| SubjectKeys.MatchIsKey | src/handler/prepare_handler.go:17 | Every match of `[A-Z]+-\d+` is capitals, a dash and digits. |
| SubjectKeys.KeysAreKeys | src/handler/prepare_handler.go:17-18 | Every candidate key found in a subject has the key form and is a piece of the subject. |
| SubjectKeys.SkipRun | src/handler/prepare_handler.go:18 | A run of capitals that no dash and digit follow yields no match, and scanning resumes after it. |
| SubjectKeys.TakeMatch | src/handler/prepare_handler.go:18 | A maximal run of capitals, a dash and a maximal run of digits is one match. The scan resumes after it, so matches do not overlap. |
| SubjectKeys.ScanKeys | src/handler/prepare_handler.go:17-18 | The loop finds exactly the matches the recursive definition of FindAllString gives. |
| SubjectKeys.KeysExample | src/handler/prepare_handler.go:18 | "aB-1C-2" yields "B-1" and then "C-2". |
| SubjectKeys.NoDigitsExample | src/handler/prepare_handler.go:17 | "AB-x" yields no key. |
| Prepare.FirstDeskIndex | src/handler/prepare_handler.go:75-80 | The position of the first recipient that some desk owns, with every earlier recipient owned by none. |
| Prepare.FirstInstallIndex | src/handler/prepare_handler.go:84-90 | The position of the first recipient that some installation owns, with every earlier recipient owned by none. |
| Prepare.Recipients | src/handler/prepare_handler.go:75-95 | A desk is found exactly when some To, Cc or Bcc address belongs to a desk, and the installation is then that desk's. No installation is found exactly when no recipient belongs to a desk or an installation. Which installation is chosen without a desk is stated by RecipientInstallIsFirst. |
| Prepare.RecipientDeskIsFirst | src/handler/prepare_handler.go:75-80 | The desk found is the desk of the first recipient, in To, Cc, Bcc order, that some desk owns. |
| Prepare.RecipientInstallIsFirst | src/handler/prepare_handler.go:84-90 | When no recipient belongs to a desk, the installation is that of the first recipient in To, Cc, Bcc order that an installation owns. |
| Prepare.FetchedSplit | src/handler/prepare_handler.go:20-35 | The keys fetched over two stretches of a trace are the keys of the first stretch followed by those of the second. |
| Prepare.FetchOne | src/handler/prepare_handler.go:21 | Fetching one request looks up exactly that key and makes no Jira change. |
| Prepare.RequestFromKeys | src/handler/prepare_handler.go:20-36 | Never an error, and nothing is changed. Keys are fetched in order, and no other key. A found request belongs to a mail desk with that id. No result means every key was fetched and passed over: it found no request, or one whose desk id is unknown. |
| Prepare.RequestFromSubject | src/handler/prepare_handler.go:16-37 | Never an error, and nothing is changed. The subject's candidate keys are fetched in order. A found request belongs to a mail desk with that id. No result means every candidate was tried. |
| Prepare.FirstRegisteredWins | src/handler/prepare_handler.go:20-36 | A found request is the fetch of some key: every key before it was passed over, its request has a registered desk, and the scan stops right after that fetch. |
| Prepare.SubjectFirstRegisteredWins | src/handler/prepare_handler.go:16-37 | For the subject's keys in order: the result is the first key whose request has a registered desk, and no result means every key was passed over. |
| Prepare.NoKeysNoFetch | src/handler/prepare_handler.go:20-36 | A subject without a key makes no call and references no request. |
| Prepare.Addressees | src/handler/prepare_handler.go:97-118 | For an addressed mail, the first call looks up the sender. A failed user lookup is returned as the error, after the lookup's own calls. Otherwise the sender's user is ResolveUser's answer, and the request and its desk are those of the subject scan (RequestFromSubject) that follows. The calls create no request or comment, add no participant and send no mail; a customer may be created. Comments are suppressed exactly when the request's status is on that desk's list. |
| Prepare.PrepareHandling | src/handler/prepare_handler.go:57-119 | A parse error is returned at once. The flags are the sender's list memberships. An unaddressed mail makes no call and carries no installation, user or request. The desk and installation are the recipient scan's, and request, request desk and suppression agree. The user lookup and its error are pinned by PreparedLookups. |
| Prepare.PreparedLookups | src/handler/prepare_handler.go:97-118 | For a parsed mail addressed to an installation, preparation fails exactly when ResolveUser for the sender fails, with its error and trace. Otherwise the sender's user is ResolveUser's answer and the request is the subject scan's, run after the lookup. |
| MailParse.IsAutoReply | src/email/parse.go:24-39 | A mail is an auto reply exactly when Auto-Submitted is set to anything but "no", X-Autoreply or X-Autorespond is set, or Precedence is "auto_reply". |
| MailParse.GuessExtension | src/email/parse.go:80-103 | The extension is never empty. The sniffed type wins, with a dot in front. Otherwise the first extension the MIME table registers for the content type is used as it is (the table's extensions start with a dot), and without one ".unknown". |
| MailParse.ConstructFilename | src/email/parse.go:80-103 | A part with a non-blank file name keeps it. Otherwise a non-blank Content-ID is always the stem, and "unnamed_file" only when the Content-ID is blank too; the guessed extension follows. The name is never empty. |
| MailParse.ContentIdNamesFile | src/email/parse.go:85-88 | An inline PNG with a blank file name and Content-ID "img1" is uploaded as "img1.png". |
| MailParse.PartFiles | src/email/parse.go:105-123 | There is one file per part, in order, each named by ConstructFilename. |
| MailParse.GetFiles | src/email/parse.go:105-123 | There is one file per inline part, attachment and other part, in that order. Each file carries the part's bytes and a non-empty name. |
| MailParse.Body | src/email/parse.go:201 | The body is the text cut to 32767 characters and then trimmed. It is a contiguous piece of that prefix, with no white space at either end. |
| MailParse.MergeFrom | src/email/parse.go:178-184 | The header From's name and address are kept where present. The envelope From fills in each part that is empty. |
| MailParse.FormSenders | src/email/parse.go:134-177 | A parsed form has a spam score that parses as a float and an envelope with at least one recipient, the first of which parses as an address. A header From that does not parse becomes the empty address. |
| MailParse.FromEnvelope | src/email/parse.go:189-277 | The To list is the form's list with the envelope recipient appended. From is the merged address, and both original senders are kept. Cc and Bcc are the parsed header lists, or empty when the header is absent. Subject, sender IP and spam score are the form's. Files, body and auto-reply flag come from the MIME envelope, and the malware flag is the scan of those files. Reply-To is the first Reply-To address, if any. The date falls back to now when it does not parse. |
| MailParse.GetParsedEmail | src/email/parse.go:125-278 | A parsed email has at most 32767 body characters and at least one recipient. Its spam score is the form's parsed score. Its Cc and Bcc (empty when absent), subject, sender IP, files, body, auto-reply flag, malware flag, Reply-To and date are those of the form and the MIME envelope read from it. |
| MailParse.ParseFailsIffHard | src/email/parse.go:125-278 | Parsing fails exactly on an unreadable form, a spam score or envelope that does not parse, an envelope without a parsable first recipient, an unreadable MIME body, a malformed Cc, Bcc or Reply-To header, or a failing malware scan. An unparsable To list, header From, envelope From or Date never rejects a mail. |
| MailParse.SendersFailIff | src/email/parse.go:144-177 | The form half fails exactly on the spam score, the envelope or its first recipient. |
| MailParse.EnvelopeFailIff | src/email/parse.go:204-244 | The MIME half fails exactly on a malformed Cc, Bcc or Reply-To header or a failing malware scan. |
| MailParse.ParsedRecipients | src/email/parse.go:136-140 | The last recipient is the envelope's first recipient. The ones before it are the form's To list, or none when that list does not parse. |
| MailParse.ParsedSender | src/email/parse.go:144-184 | A fully named header From is the sender. A header From that does not parse leaves the sender as the envelope From. |
| MailText.FormatAddr | src/email/helper.go:12-14 | Formats an address as `name <address>`. The result is three characters longer than name and address together and ends in '>'. |
| MailText.FormatAddrRoundTrip | src/email/helper.go:12-14 | An address without '<' is read back from its rendering. |
| MailText.ParseAddrRenders | src/email/helper.go:12-14 | Whatever reads as a rendering is the rendering of what it reads as. |
| MailText.SplitLines | src/email/helper.go:18 | Splitting at line feeds gives at least one piece, and no piece holds a line feed. |
| MailText.SplitLinesJoin | src/email/helper.go:18 | Joining the pieces with line feeds gives the text back. |
| MailText.UnquoteQuoteLines | src/email/helper.go:18-20 | The quoted lines, each "> " + line + "\n", read back as the lines. |
| MailText.QuotedBodyRecoversText | src/email/helper.go:16-22 | The quoted body starts with the long date and the sender. The mail's text body can be read back out of the rest. |
| MailText.TerminatedIsJoinPlusSep | src/email/helper.go:30-32 | Appending ", " after every address is joining with ", " and then adding one more. |
| MailText.ListLineJoins | src/email/helper.go:29-34 | Trimming the last ", " leaves exactly the addresses joined by ", ", with nothing lost when the list is empty. |
| MailText.FormatAll | src/email/helper.go:30-32 | Formats each address in order. |
| MailText.StatsHeadIsSections | src/email/helper.go:24-57 | The head of the statistics block is the At, To and From lines, then a Reply To line exactly when there is a Reply-To, then a Cc line and a Bcc line exactly when those lists are non-empty. |
| MailText.StatsTextIsSections | src/email/helper.go:24-63 | The statistics block is its head, then the Subject, Spam Score, Envelope From and Header From lines. That is seven lines plus the optional ones. |
| Effects.AddsSplit | src/handler/email_to_jira.go:66 | Participant additions over two stretches of a trace add up. |
| Effects.AddedUsersJoin | src/handler/email_to_jira.go:66 | The users added over two stretches of a trace are those of the first followed by those of the second. |
| Effects.QuietAddsNone | src/handler/email_to_jira.go:39 | A stretch without actions adds no participant. |
| Effects.CreatesJoin | src/handler/handler.go:138-148 | The request creations of two stretches are those of the first followed by those of the second. |
| Effects.CreatesFollowPlan | src/handler/handler.go:138-148 | A creation followed by a prefix of the remaining plan is a prefix of the plan, and the whole plan when the rest completed. |
| Effects.NoMailJoin | src/handler/handler.go:131-150 | Two stretches without mail make one. |
| JiraActor.UncleanIsControlNotSpace | src/jira_actor/create.go:25 | The dropped runes are exactly the control characters that are not white space. |
| JiraActor.CleanUnicode | src/jira_actor/create.go:23-30 | No dropped rune survives, and a text without one is unchanged. |
| JiraActor.CleanUnicodeAppend | src/jira_actor/create.go:23-30 | Cleaning works character by character: cleaning two texts joined is joining them cleaned. |
| JiraActor.CapLength | src/jira_actor/create.go:33-40 | The result is at most n long and holds no dropped rune. It is a prefix of the cleaned and trimmed text, or of "<blank>" when that text is empty and empty is not allowed, as long as n allows. |
| JiraActor.CapLengthKeepsShortText | src/jira_actor/create.go:33-40 | A non-blank cleaned text within the limit passes unchanged. |
| JiraActor.Scrub | src/jira_actor/create.go:99 | No forbidden file-name character is left. A name without one is unchanged. |
| JiraActor.ScrubIdempotent | src/jira_actor/create.go:99 | Scrubbing a scrubbed name changes nothing. |
| JiraActor.TempFileName | src/jira_actor/create.go:98-99 | An uploaded file's name is at most 50 characters, with no forbidden or control character. |
| JiraActor.StripCommas | src/jira_actor/create.go:202 | No comma is left. A name without a comma is unchanged. |
| JiraActor.CustomerName | src/jira_actor/create.go:197-203 | A customer's full name is at most 60 characters and has no comma. An empty full name is replaced by the email address, capped the same way. |
| JiraActor.CustomerNameKeepsPlainName | src/jira_actor/create.go:197-203 | A short, plain full name is sent as it is, trimmed. |
| JiraActor.CustomerNameFallsBackToEmail | src/jira_actor/create.go:197-203 | Without a full name, a short address without commas is sent as the name, cleaned and trimmed. |
| JiraActor.SelectUser | src/jira_actor/get.go:33-50 | The result is the first user with the exact address and display name. Otherwise it is the first user with the exact address, otherwise "". Any user returned has the exact address. |
| JiraActor.SelectUserLoop | src/jira_actor/get.go:34-50 | The loop with its early return computes that same choice. |
| JiraActor.GetJiraUsername | src/jira_actor/get.go:25-51 | One user search. It errs exactly when the search does, and otherwise gives the SelectUser choice among the results. |
| JiraActor.GetRequest | src/jira_actor/get.go:54-102 | Never an error. A request is returned exactly when both the issue and the desk request are found, and the desk request is not looked up when the issue is not found. The fields come from the desk request and the assignee from the issue, or "" when the issue has none. |
| JiraActor.CreateRequest | src/jira_actor/create.go:43-72 | One creation, with summary and description capped to 255 and 32767 characters. When it fails for a named reporter and anonymity may be tried, one more creation follows without a reporter. The result is the last creation's. |
| JiraActor.UploadOne | src/jira_actor/create.go:92-138 | One upload. It succeeds exactly when Jira returns exactly one temporary id, which is the result. |
| JiraActor.AttachCalls | src/jira_actor/create.go:77-83 | One upload per file, in order, to the desk. |
| JiraActor.UploadAll | src/jira_actor/create.go:76-83 | Uploads run in order. Success uploads everything and gives one id per file. A failure stops the uploads there. |
| JiraActor.CreateComment | src/jira_actor/create.go:74-89 | The files are uploaded first. A failed upload fails the comment without posting it. Otherwise one comment is posted, with the capped body (which may be empty) and one attachment id per file. |
| JiraActor.AddParticipant | src/jira_actor/create.go:173-195 | One addition of the user to the issue. It succeeds exactly when Jira accepts it. |
| JiraActor.CreateCustomer | src/jira_actor/create.go:197-226 | One customer creation under the cleaned name. It succeeds exactly when Jira accepts it. |
| JiraActor.RequestTypeFromPage | src/jira_actor/get.go:104-136 | A page that is not the last is an error. On the last page the result is the id of the first type with the name, and it is an error exactly when there is none. |
| JiraActor.DeskIdFromPage | src/jira_actor/get.go:173-182 | The first entry with the project key is found exactly when one exists. Otherwise the search ends exactly on the last page or a page reporting limit 0. |
| EmailToJira.CreateSummary | src/handler/email_to_jira.go:17-25 | The summary holds no line feed. |
| EmailToJira.SummaryOfPlainSubject | src/handler/email_to_jira.go:17-25 | Without a postfix, a one-line subject with no edge white space is the summary. |
| EmailToJira.SummaryWithPostfix | src/handler/email_to_jira.go:19-21 | With a postfix, the summary is the subject, " --- " and the postfix. |
| EmailToJira.Message | src/handler/email_to_jira.go:28-31 | The message is a prefix of the body that does not contain the reply marker. It ends where the first marker starts, and it is the whole body when there is no marker. |
| EmailToJira.CreateDescription | src/handler/email_to_jira.go:27-34 | The description is "Received via mail", a blank line, the statistics block, a blank line and the message. |
| EmailToJira.Refind | src/handler/email_to_jira.go:179-187 | One search after a creation. Success names a user, because not finding the new customer is an error. |
| EmailToJira.CreateAndFind | src/handler/email_to_jira.go:173-187 | The customer is created and then searched for. A failed creation is ignored and gives no user, exactly then. |
| EmailToJira.CreateRung | src/handler/email_to_jira.go:163-187 | Without an admin token, or for an address not to reply to, nothing is called and there is no user. Every call is a search for, or the allowed creation of, this sender. |
| EmailToJira.ResolveUser | src/handler/email_to_jira.go:144-188 | Starts with a search for the address as it is. It makes at most four calls, each a search for the address as is or lower-cased, or the creation of its customer, and that only where allowed. Its value on each rung is stated by ResolveExactHit, ResolveSearchError, ResolveLowerHit, ResolveUnknownWithoutCreation, ResolveCreateFails and ResolveCreated. |
| EmailToJira.ResolveExactHit | src/handler/email_to_jira.go:146-152 | A user found by the first search is the answer, with no further call. |
| EmailToJira.ResolveSearchError | src/handler/email_to_jira.go:146-149 | An error of the first search is the answer. |
| EmailToJira.ResolveLowerHit | src/handler/email_to_jira.go:154-161 | When the search for the address as it is finds nobody, and the lower-cased search fails or finds a user, that second answer is the result. |
| EmailToJira.ResolveCreateFails | src/handler/email_to_jira.go:163-178 | When both searches find nobody, creation is allowed, and creating the customer fails, the result is no user, after exactly the two searches and the creation. |
| EmailToJira.ResolveCreated | src/handler/email_to_jira.go:163-187 | When both searches find nobody and the customer is created, the address is searched again once. An empty answer is the error that the user was not found, and any other answer is the result. |
| EmailToJira.ResolveUnknownWithoutCreation | src/handler/email_to_jira.go:155-171 | When neither search finds a user and creation is not allowed, the result is no user after exactly the two searches. |
| EmailToJira.UserCallsQuiet | src/handler/email_to_jira.go:144-188 | Resolving a user creates no request or comment, adds no participant and sends no mail. |
| EmailToJira.AddUser | src/handler/email_to_jira.go:55-67 | A blank user, the reporter or the assignee makes no call. Anyone else is added with one call, and that counts exactly when Jira accepts it. |
| EmailToJira.EnrolOne | src/handler/email_to_jira.go:43-67 | An address of the parser's own is skipped without a call. Otherwise, every call is an enrolment call for this address and at most one participant is added. |
| EmailToJira.Enrol | src/handler/email_to_jira.go:37-70 | Every call is an enrolment call: a search or the allowed creation for a foreign addressee, or the addition of someone who is not the reporter or assignee. Additions never pass the cap. The count returned is the number added. Which users are added, and where a failure stops it, is stated by EnrolAddsEligible and EnrolStopsAtFailure. |
| EmailToJira.EnrolOwnOnly | src/handler/email_to_jira.go:43-50 | Addressees that are all the parser's own make no call. |
| EmailToJira.EnrolFirstCall | src/handler/email_to_jira.go:38-51 | Below the cap, the first call searches for the first foreign addressee. |
| EmailToJira.EnrolStopsAtFailure | src/handler/email_to_jira.go:51-65 | A failed enrolment failed at some addressee: the calls before it concern only the earlier addressees, the error is that addressee's, and no call follows it. |
| EmailToJira.EnrolOneCooperative | src/handler/email_to_jira.go:43-67 | When Jira resolves and accepts, one addressee is added exactly when it is foreign and its user is neither blank, the reporter nor the assignee, and then it is the one user added. |
| EmailToJira.EnrolAddsEligible | src/handler/email_to_jira.go:37-70 | When Jira resolves and accepts, enrolment succeeds and adds exactly the eligible users, in addressee order, as many as fit under the cap: min(cap - added, eligible) of them. |
| EmailToJira.AddAddressees | src/handler/email_to_jira.go:36-71 | Enrolment runs over Cc, To, Bcc, counting from zero, with at most max_participants additions. Its outcome is stated by AddresseesCooperative and AddresseesStopAtFailure. |
| EmailToJira.AddresseesCooperative | src/handler/email_to_jira.go:36-71 | When Jira resolves and accepts, the users added are exactly the first min(max_participants, eligible) eligible users of Cc, To and Bcc, in that order, and the result is success. |
| EmailToJira.AddresseesStopAtFailure | src/handler/email_to_jira.go:36-71 | An error is the first failing addressee's, and no addressee after it is looked up or added. |
| EmailToJira.AddresseesStartWithCc | src/handler/email_to_jira.go:38 | The Cc list comes first: a foreign first Cc address is the first one looked up. |
| EmailToJira.CreateAllowed | src/jira_actor/create.go:43-72 | A request creation for the policy's desk is allowed and adds no one. |
| EmailToJira.CommentAllowed | src/jira_actor/create.go:74-89 | A comment with the policy's body on the policy's key, with its uploads, is allowed and adds no one. |
| EmailToJira.AttachToNew | src/handler/email_to_jira.go:83-86 | Files are attached with an empty comment. Without files there is no call, and an upload failure is ignored. |
| EmailToJira.AfterCreate | src/handler/email_to_jira.go:83-93 | After creation, every call is allowed for this mail's request and at most max_participants are added. The addressees it enrols are stated by AfterCreateCooperative. |
| EmailToJira.AfterCreateCooperative | src/handler/email_to_jira.go:83-93 | When every addressee resolves and every addition is acknowledged, the step after creation succeeds and adds exactly the first min(max_participants, eligible) eligible addressees in Cc, To, Bcc order, skipping own addresses, blank users and the reporter. |
| EmailToJira.RequestFromEmail | src/handler/email_to_jira.go:73-94 | The first call creates the request on the desk, with the capped summary and description, for the reporter. Every later call is allowed and at most max_participants are added. The flow after creation is stated by RequestFromEmailFlow. |
| EmailToJira.RequestFromEmailFlow | src/handler/email_to_jira.go:73-94 | A failed creation is the result, with no further call. Otherwise the attachments are uploaded, the addressees enrolled with no assignee, an enrolment error is the result, and else the result is GetRequest of the new key. |
| EmailToJira.OpenRequestCooperative | src/handler/email_to_jira.go:73-94 | When creation returns a key and every addressee resolves and is added, the result is Ok and the users added are exactly the first min(max_participants, eligible) eligible addressees in order. |
| EmailToJira.RequestFromEmailCooperative | src/handler/email_to_jira.go:73-94 | The same for the summary and description built from the mail. |
| EmailToJira.EventAfterCreate | src/handler/email_to_jira.go:111-115 | After an event request is created, only the upload, the attachment comment and the fetch may follow. No one is added. |
| EmailToJira.RequestFromEvent | src/handler/email_to_jira.go:96-116 | The first call creates the request on the event desk, as the configured event user, never anonymous. What follows creates nothing more, adds no one and sends no mail. The error and the fetched result are stated by RequestFromEventFlow. |
| EmailToJira.RequestFromEventFlow | src/handler/email_to_jira.go:96-116 | A failed creation is the result, with no further call. Otherwise the result is GetRequest of the new key after the attachments. |
| EmailToJira.EventRestQuiet | src/handler/email_to_jira.go:111-115 | After an event request is created, no other request is created and no mail is sent. |
| EmailToJira.AfterComment | src/handler/email_to_jira.go:128-141 | After the comment, every call is allowed on the request's key, and at most max_participants plus the commenter are added. Who is added is stated by CommentWithCooperative. |
| EmailToJira.CommentWith | src/handler/email_to_jira.go:118-142 | The first call posts the comment, or uploads the first file when there are files. Nobody is added unless the comment succeeded. The error paths are stated by CommentFromEmailFlow. |
| EmailToJira.CommentFromEmail | src/handler/email_to_jira.go:118-142 | The comment's body is the description. The first call is the comment or its first upload. Every call is allowed on the request, and at most max_participants plus the commenter are added. |
| EmailToJira.CommentFromEmailFlow | src/handler/email_to_jira.go:118-142 | A failed comment is the result, with no further call. Otherwise the commenter is added unless blank, the reporter or the assignee; a failed addition is the result, and else the result is the enrolment of the addressees for the request's reporter and assignee. |
| EmailToJira.CommentWithCooperative | src/handler/email_to_jira.go:118-142 | When the comment is posted and every addressee resolves and is added, the result is Ok and the users added are the commenter (unless blank, the reporter or the assignee), then the first min(max_participants, eligible) eligible addressees in order. |
| EmailToJira.CommentFromEmailCooperative | src/handler/email_to_jira.go:118-142 | The same with the description built from the mail as the comment. |
| Handler.Decide | src/handler/handler.go:34-79 | The mail is dropped or routed as Route says. Only an unseen auto reply with a referenced request from a sender not on the whitelist enlarges the noticed set, by its sender. No drop for malware, own addresses, spam or auto replies changes that set. |
| Handler.MalwareAndLoopsDrop | src/handler/handler.go:34-50 | Malware and mail from a desk's or an installation's own address are dropped, and nothing is noticed. |
| Handler.SpamDrops | src/handler/handler.go:57-61 | A sender not on the whitelist with a spam score at or above the limit is dropped. |
| Handler.WhitelistBypasses | src/handler/handler.go:52-53 | A whitelisted sender skips the spam and auto-reply checks. |
| Handler.AutoReplyDedup | src/handler/handler.go:63-78 | An auto reply from a sender already noticed is dropped. So is one that references no request. Otherwise its sender is noticed and the mail routed. |
| Handler.RouteCases | src/handler/handler.go:81-124 | An unaddressed mail is dropped. A mail with only an installation gets the wrong-address reply. A mail with a desk and no request opens one. A referenced request is commented on, unless its status is not to be commented. |
| Handler.ReplyMail | src/email/send_mail.go:33-46 | A reply is sent only when the template renders. Its body is the rendering, a line feed and the quoted mail, and it goes to the sender. |
| Handler.WrongAddressMail | src/email/send_mail.go:68-84 | At most one mail, and none when sending is off. It comes from the installation's reply address, with the rejection subject, a space and the mail's subject. |
| Handler.RequestCreatedMailAsWritten | src/email/send_mail.go:48-66 | As written: no mail when sending is off. It fails exactly when sending is on and the request is nil. |
| Handler.RequestCreatedMail | src/email/send_mail.go:48-66 | At most one mail, and none when sending is off or there is no request. It comes from the desk's reply address, with the issue key, a space and the mail's subject. |
| Handler.NilRequestFinding | src/email/send_mail.go:62 | With sending on and no request fetched, the code as written fails where the corrected version sends nothing. |
| Handler.RequestCreatedMailAgrees | src/email/send_mail.go:48-66 | Whenever there is a request, the two versions agree. |
| Handler.PolicySendsNoMail | src/handler/handler.go:125 | No request or comment path sends mail. |
| Handler.OpenAndConfirm | src/handler/handler.go:96-112 | A request is created first. A mail is sent only to a sender without a Jira user who may be replied to, and then as the last call. OpenAndConfirmFlow ties it to RequestFromEmail. |
| Handler.OpenAndConfirmFlow | src/handler/handler.go:96-112 | A failed RequestFromEmail is the result. Otherwise the result is Ok, and the confirmation mail for the new request is sent exactly when the sender has no Jira user and may be replied to. |
| Handler.Execute | src/handler/handler.go:81-124 | A drop makes no call. The wrong-address path makes at most its one mail. A comment makes only allowed calls. Mail is the last call, and only on the wrong-address path or on a new request for an unknown sender who may be replied to. ExecuteFollowsDecision gives the exact path per decision. |
| Handler.ExecuteFollowsDecision | src/handler/handler.go:81-124 | A wrong-address decision sends exactly the wrong-address mail and succeeds, a new request is OpenAndConfirm on that desk, and a comment is CommentFromEmail on the referenced request with the sender's user. |
| Handler.HandlePrepared | src/handler/handler.go:34-128 | A dropped mail makes no call and succeeds. Mail, if any, is the last call and only where Execute allows it. The noticed set only grows. HandlePreparedFollowsDecide ties it to Decide and Execute. |
| Handler.HandlePreparedFollowsDecide | src/handler/handler.go:34-128 | The decision and the noticed set are Decide's, and the result and calls are those of Execute on that decision. |
| Handler.HandleEmail | src/handler/handler.go:17-129 | A preparation error keeps the noticed set and creates no request or comment, adds no participant and sends no mail; a customer may be created. A dropped mail does the same. Mail is the last call and only on the wrong-address path or on a new request for an unknown sender who may be replied to. HandleEmailFlow ties it to PrepareHandling and HandlePrepared. |
| Handler.HandleEmailFlow | src/handler/handler.go:17-129 | A parse error and a preparation error are the result, with no decision. Otherwise the handling is HandlePrepared on the prepared parameters. |
| Handler.DroppedMailIsQuiet | src/handler/handler.go:34-61 | For malware, mail from own addresses, and spam from a sender not on the whitelist, the handling creates no request or comment, adds no participant and sends no mail; a customer may be created. The noticed set is kept. |
| Handler.UnaddressedMakesNoCall | src/handler/handler.go:81-85 | A mail addressed to nothing known makes no call at all. |
| Events.SendgridShape | src/handler/handler.go:178-196 | A SendGrid event is one that decodes with an address and an event type. Its summary is "Sendgrid: ", the type, a space and the address, and its description is the raw event. |
| Events.GitHubShape | src/handler/handler.go:199-218 | A GitHub monitor event is one of type github_monitor with a body. Its summary is "GitHub Monitor: " and the summary field. |
| Events.DecodeFiles | src/handler/handler.go:244-251 | Decoding succeeds exactly when every file decodes, and keeps names and order. |
| Events.CveShape | src/handler/handler.go:221-254 | A CVE event is one of type cve_scanner with a body whose files all decode. Its summary is "Jira CVE: " and the subject, and its files are the decoded files, with names and order kept. |
| Events.SysdigShape | src/handler/handler.go:257-272 | A Sysdig event is any event with a body. Its summary is "Sysdig: " and the summary field. |
| Events.GetEvent | src/handler/handler.go:152-175 | The first fitting shape decides: Sendgrid gets its label, the type, a space and the address with the raw event; GitHub and Sysdig their label and summary with the event body; CVE its label and subject with the body and the decoded files. An event that fits no shape becomes "Unknown Event Type" with the raw event and no files. |
| Events.SummaryNamesShape | src/handler/handler.go:152-175 | The summary tells which shape the event fitted. |
| Events.GitHubBeforeSysdig | src/handler/handler.go:158-172 | Every GitHub event also fits the Sysdig shape, and the order makes it a GitHub one. |
| Events.BadCveFileFallsThrough | src/handler/handler.go:246-248 | A CVE event with an undecodable file is not a CVE event. It becomes a Sysdig event when it has an event body, and unknown otherwise. |
| Events.EventStretch | src/handler/email_to_jira.go:96-116 | One event makes exactly one request creation and no mail. |
| Events.CreateAll | src/handler/handler.go:138-148 | The creations made are a prefix of one creation per event, in order, and all of them on success. A failure stops the loop after at least one creation. No one is added and no mail is sent. |
| Events.HandleEvent | src/handler/handler.go:131-150 | An undecodable batch makes no call. Otherwise, one request per event in order, stopping at the first failure, with no participant and no mail. |
| Logging.TrimLeft | src/logging/logging.go:50 | Removes exactly the leading line breaks. |
| Logging.TrimRight | src/logging/logging.go:50 | Removes exactly the trailing line breaks. |
| Logging.TrimBreaksIgnoresEdges | src/logging/logging.go:50 | Line breaks around a message do not reach the trimmed message. |
| Logging.Logf | src/logging/logging.go:49-55 | The logged line holds no CR or LF, and a message without one is logged unchanged. |
| Logging.LogfIdempotent | src/logging/logging.go:49-55 | Logging a logged line changes nothing. |
| Logging.LogfIgnoresEdges | src/logging/logging.go:50 | Breaks around a message give the same line. |
| Logging.Loge | src/logging/logging.go:62-83 | The corrected Loge, which logs the error verbatim. A mail is sent exactly when a critical address is configured. It is the only call, goes to that address from the critical sender, has subject "inbound_parser Error at " and the time, and its body is the logged line, "\nTraceback:\n" and the stack. |
| Logging.LogeNoMail | src/logging/logging.go:57-60 | The corrected LogeNoMail: the error is logged as one line, unchanged when it has no line break, and no mail is sent. |
| Logging.Sprintf0 | src/logging/logging.go:50 | fmt.Sprintf with a format and no operands: a format without '%' is copied unchanged. |
| Logging.EscapedPrintsItself | src/logging/logging.go:50 | A format with every '%' doubled prints the text itself. |
| Logging.PercentInErrorText | src/logging/logging.go:50 | "a%40b.de" as a format becomes "a%!b(MISSING).de". |
| Logging.LogeAsWritten | src/logging/logging.go:62-83 | Loge as written, with the error as the format: it agrees with the corrected Loge on errors without '%'. |
| Logging.LogeNoMailAsWritten | src/logging/logging.go:57-60 | LogeNoMail as written: one line, and equal to the corrected LogeNoMail on errors without '%'. |
| Logging.ErrorAsFormatFinding | src/logging/logging.go:57-64 | The error "a%40b.de" is logged as "a%!b(MISSING).de" as written and verbatim when corrected, and the critical mails' bodies differ. |
| Numbers.Digits | src/logging/logging.go:37 | Decimal digits without a leading zero. |
| Numbers.DigitsRoundTrip | src/logging/logging.go:37 | The digits read back as the number. |
| Numbers.Itoa | src/logging/logging.go:37 | strconv.Itoa writes only digits and a sign. |
| Numbers.Atoi | src/config/maintenance.go:22 | strconv.Atoi: a value is always within 64 bits. |
| Numbers.AtoiItoa | src/config/maintenance.go:22-27 | Every 64-bit number reads back from its text. |
| Numbers.AtoiRejectsLetters | src/config/maintenance.go:22-26 | A text with a letter after the first position is not a number. |
| Maintenance.Timestamp | src/config/maintenance.go:15-28 | A name that does not read as a number is dated now. |
| Maintenance.StripMailDump | src/config/maintenance.go:16-21 | Stripping a mail dump's name leaves its number. |
| Maintenance.StripEventDump | src/config/maintenance.go:16-21 | Stripping an event dump's name leaves its number. |
| Maintenance.StripLog | src/config/maintenance.go:16-21 | Stripping a log's name leaves its number. |
| Maintenance.TimestampOfOwnFiles | src/config/maintenance.go:15-28 | The mail dumps, event dumps and logs the parser names after a time are dated by that time. |
| Maintenance.OldFiles | src/config/maintenance.go:31-53 | A file is deleted exactly when keep days is not 0 and it is dated before the cutoff. Nothing is deleted when keep days is 0. |
| Maintenance.UndatedKept | src/config/maintenance.go:22-26 | A file whose name is not a date is never deleted, with keep days positive. |
| Maintenance.MailDumpRetention | src/config/maintenance.go:36-50 | A mail dump is deleted exactly when it is present and older than the cutoff. |
| Maintenance.Removals | src/config/maintenance.go:44-46 | Each file is removed by its path in the dump directory. |
| Maintenance.Maintain | src/config/maintenance.go:64-70 | Exactly the expired files are removed, then the noticed set is emptied, then the log rotates to a file named after now. |
| Replay.MailStep | src/email_loader/dump_loader.go:53-69 | A dump is unreadable exactly when reading fails. It is done exactly when it is read and handled, and only then marked handled. The noticed set is the handler's. |
| Replay.ReplayMails | src/email_loader/dump_loader.go:53-69 | Every unhandled mail is visited, in order, whatever fails. A visit is unreadable exactly when reading failed, and every Done mail is marked. No flag is cleared, and only handled ones are newly marked. ReplayMailsCooperative gives the outcome when every mail succeeds. |
| Replay.EventStep | src/email_loader/dump_loader.go:75-92 | An event is unreadable exactly when reading fails. It is done exactly when read and handled, and only then marked. |
| Replay.ReplayEvents | src/email_loader/dump_loader.go:71-92 | Events are visited in order, and the first failed handling ends the replay. Each visit is Done exactly when the event was read and handleEvent succeeded on it, and then marked. No flag is cleared, and only handled events are newly marked. |
| Replay.LoadUnhandledDumps | src/email_loader/dump_loader.go:47-94 | Given rows that are exactly the unhandled entries of each table, once each: all of them are visited for mails, then the events up to the first failure. A failed query counts as no rows. A visit is unreadable exactly when reading failed, an event visit is Done exactly when the event was read and handled, every Done dump is marked in its table, neither table loses a flag, and only handled dumps are newly marked. |
| Replay.UnhandledMailVisited | src/email_loader/dump_loader.go:47-69 | Every mail the table records unhandled is visited, among the mail visits. |
| Replay.UnhandledEventVisited | src/email_loader/dump_loader.go:71-92 | Every event the table records unhandled is visited, unless the event loop ended at a failed handling. |
| Replay.ReplayMailsCooperative | src/email_loader/dump_loader.go:53-69 | When every mail can be read and handled, every visit is Done and every mail is marked handled. |
| Replay.ReplayEventsCooperative | src/email_loader/dump_loader.go:71-92 | When every event can be read and handled, every event is visited, every visit is Done and every event is marked handled. |
| Replay.LoadUnhandledCooperative | src/email_loader/dump_loader.go:47-94 | When both queries answer and every dump they name can be read and handled, every mail and every event of the two tables ends marked handled. |
| Replay.MailDumps | src/email_loader/dump_loader.go:25-27 | Exactly the listed names ending in ".dump". |
| Replay.ReloadAll | src/email_loader/dump_loader.go:25-44 | Dumps are handled in order. All succeed, or the first one that cannot be read or handled ends the program, and that last one is unreadable exactly when reading failed. ReloadAllCooperative gives success when every dump can be read and handled. |
| Replay.ReloadAllCooperative | src/email_loader/dump_loader.go:25-44 | When every mail dump can be read and handled, reloading succeeds. |
| Replay.LoadAllRequestDumps | src/email_loader/dump_loader.go:18-45 | An unreadable directory ends the program before any dump. Only ".dump" files are handled, and on success all of them. |

## Left out

- The debug-parse-only branch of HandleEmail (src/handler/handler.go:23-32) prints JSON and is not modelled. The model treats that flag only where config loading reads it.
- The MIME reader (enmime), the SendGrid form decoder, JSON decoding, address parsing, `ParseFloat`, the content sniffer and the malware scan are parameters of `MailParse.Libraries`. Their results are inputs.
- Go's index panics at src/email/parse.go:134-168 on missing form fields, and on an envelope without recipients, are modelled as errors (`NoRecipient`), not as crashes.
- getEvents (src/handler/prepare_handler.go:121-140) splits a JSON batch into events. It is a parameter: `Events.HandleEvent` takes the decoded batch or its error.
- Event JSON decoding is modelled as fields plus a `decodes` flag. Base64 decoding is a parameter.
- YAML loading and the template parsing of the loader are left out. GetCfg is only a caller. `ConfigLoad.LoadEnv` stands for the file system checks, the template parsing and the Jira lookups of ids and request types.
- Template rendering is a parameter (`Handler.Templates`).
- JiraActor.GetRequest: a failure to build the HTTP request (src/jira_actor/get.go:67-70) is not modelled. The Go client only fails there on a malformed URL, so the model never returns an error.
- JiraActor.DeskIdFromPage: only one page of GetServiceDeskId is modelled. The paging loop and its start/limit arithmetic are left to the Jira lookup parameter of config loading.
- Go's `log.Fatal` in config loading and in the replay of all dumps is modelled as an error result. The process exit itself is not modelled.
- JiraActor.CapLength and MailParse.Body count characters. The Go code slices bytes, so a cut inside a multi-byte UTF-8 character is not modelled.
- EmailToJira.CreateSummary: the contract only says the summary has no line feed. The exact text is stated by SummaryOfPlainSubject and SummaryWithPostfix, and only for subjects without line feeds or edge white space.
- Numbers.Atoi: the contract only bounds the value. That it inverts Itoa is stated by AtoiItoa, and that it rejects letters by AtoiRejectsLetters.
- Maintenance.Timestamp: for names that do not read as a number, the contract only says "now". Its value for dated names is stated by TimestampOfOwnFiles for the names the parser writes.
- Maintenance: AddDate's calendar arithmetic is taken as whole days of 86,400,000,000 microseconds. Daylight-saving shifts are not modelled.
- The current time, the stack trace and the rendered dates are parameters, never read from a clock.
- Logging.Loge: the log output itself and a failing SMTP dial (logged and ignored) are not modelled. The mail is the one call.
- Send errors of the reply mails are not modelled. Both reply senders ignore them (src/email/send_mail.go:64, src/email/send_mail.go:82).
- The replay's reading and handling are parameters (`Replay.Env`). The SQLite tables are maps from dump name to handled flag. The database layer (src/db/database.go) is not part of this model.
- The `Loge` calls made during replay are not modelled.
- Directory listing order is taken as given. Go's ReadDir sorts by name, and the model uses the listing it is given.
- dumper.go (the HTTP server that writes dumps), main.go and licenses.go are not part of this model. Only the dump and log name formats are used, by Maintenance.
- The spam score is a `real`, and its `%f` rendering is a parameter (`Email.spamText`).
- filepath.Join's path cleaning is not modelled. Paths are the directory, "/" and the name.
- Text.Lower and Text.LowerChar: only the capitals of ASCII, Latin-1, basic Greek and basic Cyrillic are lowered. Go's strings.ToLower also lowers other scripts and special cases such as U+0130; such characters are kept unchanged here.
- AddressLists.ListedIn: case is ignored only as Text.Lower folds it, so two addresses that differ in a capital outside those blocks do not match here, while Go would match them.
- AddressLists.NotToReplyTo: the same folding limit as AddressLists.ListedIn.
- AddressLists.Whitelisted: the same folding limit as AddressLists.ListedIn.
- EmailToJira.ResolveUser: the lower-cased second search uses Text.Lower, with the same folding limit.
- Handler.OpenAndConfirm: it composes the corrected RequestCreatedMail. When the fetch after creation fails, Go panics at src/email/send_mail.go:62 (called from src/handler/handler.go:107). Even RequestCreatedMailAsWritten renders that panic as the error NilRequest rather than a crash (see Findings).
- Handler.HandleEmail: the same panic is not modelled; a new request whose fetch fails is handled without a confirmation mail.
- MailParse.GetParsedEmail: a hard MIME read error (src/email/parse.go:189-199) is returned as an error. Go ranges over env.Errors at :192 before it checks err, so it would dereference the nil envelope instead.
- Maintenance.Maintain: log.Fatal on a failed ReadDir or Remove (src/config/maintenance.go:38-41, 46-49) is not modelled. Go exits there before the noticed set is cleared and the log rotated; the model takes the listing and removals as given.
- Logging.Sprintf0: a '*' width or precision and an explicit '[n]' operand index are read as the verb here, where Go writes its BADWIDTH, BADPREC or BADINDEX markers. Error texts with such directives are not modelled exactly by the as-written members.
- EmailToJira.ResolveCreated: the error after an empty search following a creation is the constant text "user not found". Go's message also names the formatted address (src/handler/email_to_jira.go:185).
- Replay.LoadUnhandledDumps: that the rows are exactly the unhandled entries, once each, is a requirement. It stands for the contract of the database queries, which are not part of this model.

## Findings

| source | as written | input that shows it | evidently intended | confidence | as-written member | corrected member |
|---|---|---|---|---|---|---|
| src/email/send_mail.go:62 | Called from src/handler/handler.go:107 after a request is created for an unknown sender, SendRequestCreatedEmail reads `request.IssueKey`. The request comes from GetRequest, which returns nil when the fetch after creation fails. | send_emails on, sender without a Jira user and not on the do-not-reply list, creation succeeds, the issue fetch that follows fails | no confirmation mail (or an error) when the new request cannot be fetched, instead of a nil dereference | not executed | Handler.RequestCreatedMailAsWritten (exhibited by Handler.NilRequestFinding) | Handler.RequestCreatedMail (agreement shown by Handler.RequestCreatedMailAgrees) |
| src/logging/logging.go:59 | LogeNoMail and Loge (line 64) pass `err.Error()` to Logf as its format string, so fmt reads every '%' in the error text as a directive with no operand. | an error text that quotes a query-escaped address, such as `a%40b.de` | the error logged and mailed verbatim, e.g. `Logf("%s", err.Error())` | not executed | Logging.LogeNoMailAsWritten and Logging.LogeAsWritten (exhibited by Logging.ErrorAsFormatFinding) | Logging.LogeNoMail and Logging.Loge (agreement on texts without '%' shown by the as-written members' contracts) |

=== FILE: address_lists.dfy ===
/** The two address lists of the configuration the handler consults for the
    sender: addresses never to answer, and addresses exempt from the spam
    and auto-reply checks (notToReplyTo and whitelisted in
    handler/prepare_handler.go). */
module AddressLists {
  import opened Text
  import opened Model

  /** Two addresses are the same when they are equal or equal once
      lower-cased. */
  predicate SameAddress(listed: string, addr: string) {
    listed == addr || Lower(listed) == Lower(addr)
  }

  /** The scan both functions share: true at the first listed address that
      is the same as addr. */
  function ListedIn(list: seq<string>, addr: string): (r: bool)
    ensures r <==> exists k :: 0 <= k < |list| && SameAddress(list[k], addr)
  {
    if list == [] then false
    else if list[0] == addr || Lower(list[0]) == Lower(addr) then true
    else
      var rest := ListedIn(list[1..], addr);
      assert rest <==> exists k :: 1 <= k < |list| && SameAddress(list[k], addr) by {
        forall k | 1 <= k < |list|
          ensures list[k] == list[1..][k - 1]
        {
        }
      }
      rest
  }

  /** Membership does not depend on the case of the queried address. */
  lemma ListedInIgnoresCase(list: seq<string>, addr: string)
    ensures ListedIn(list, addr) == ListedIn(list, Lower(addr))
  {
    LowerIdempotent(addr);
    if ListedIn(list, addr) {
      var k :| 0 <= k < |list| && SameAddress(list[k], addr);
      assert SameAddress(list[k], Lower(addr));
    }
    if ListedIn(list, Lower(addr)) {
      var k :| 0 <= k < |list| && SameAddress(list[k], Lower(addr));
      assert SameAddress(list[k], addr);
    }
  }

  /** Case is ignored beyond ASCII too: "ÄB@x.de" on a list covers
      "äb@x.de". */
  lemma ListedInFoldsUmlaut()
    ensures ListedIn(["\U{C4}B@x.de"], "\U{E4}b@x.de")
  {
    assert Lower("\U{C4}B@x.de") == Lower("\U{E4}b@x.de");
  }

  function NotToReplyTo(cfg: Config, addr: string): (r: bool)
    ensures r <==> exists k :: 0 <= k < |cfg.dontReplyToEmails| && SameAddress(cfg.dontReplyToEmails[k], addr)
  {
    ListedIn(cfg.dontReplyToEmails, addr)
  }

  function Whitelisted(cfg: Config, addr: string): (r: bool)
    ensures r <==> exists k :: 0 <= k < |cfg.emailWhitelist| && SameAddress(cfg.emailWhitelist[k], addr)
  {
    ListedIn(cfg.emailWhitelist, addr)
  }
}

=== FILE: config_load.dfy ===
/** Load-time validation of the configuration (config/config_parser.go):
    the field rules, the address-uniqueness rules that make every address of
    the topology belong to exactly one desk or installation, the event sink,
    and the fields the loader derives.

    What validation needs from outside (the file system, the Jira client
    constructor, the two Jira lookups that resolve a desk's ids) is a LoadEnv
    of oracle functions. Every failed check is fatal in the parser
    (log.Fatal); here it is an Err. */
module ConfigLoad {
  import opened Wrappers
  import opened Model
  import opened Topology

  datatype LoadEnv = LoadEnv(
    /** os.Stat(path) succeeds and names a directory */
    isDir: string -> bool,
    /** GetJiraClient(url, token) succeeds */
    clientOk: (string, string) -> bool,
    /** GetServiceDeskId(projectKey) against the installation with this URL */
    serviceDeskId: (string, string) -> Result<string>,
    /** GetRequestTypeId(typeName, serviceDeskId) against that installation */
    requestTypeId: (string, string, string) -> Result<string>,
    /** the path names a regular file that parses as a template */
    templateLoads: string -> bool)

  /** A desk reserved for event requests: create_event_requests is set and
      neither the desk nor its installation has an address. */
  predicate EventOnly(cfg: Config, d: DeskRef)
    requires ValidDesk(cfg, d)
  {
    DeskAt(cfg, d).createEventRequests && |cfg.installs[d.install].emails| == 0 && |DeskAt(cfg, d).emails| == 0
  }

  /** The reply address of a desk: its own first address, else its
      installation's first address. */
  function DeskReplyAddress(srd: ServiceDesk, inst: JiraInstall): (r: Option<Address>)
    ensures r.Some? <==> |srd.emails| > 0 || |inst.emails| > 0
    ensures |srd.emails| > 0 ==> r == Some(Address(srd.replyEmailName, srd.emails[0]))
    ensures |srd.emails| == 0 && |inst.emails| > 0 ==> r == Some(Address(srd.replyEmailName, inst.emails[0]))
  {
    if |srd.emails| != 0 then Some(Address(srd.replyEmailName, srd.emails[0]))
    else if |inst.emails| != 0 then Some(Address(srd.replyEmailName, inst.emails[0]))
    else None
  }

  /** Every address of the desk resolves back to the desk and to no
      installation. */
  predicate DeskAddressesUnique(cfg: Config, d: DeskRef, emails: seq<string>) {
    forall k :: 0 <= k < |emails| ==> DeskFromMail(cfg, emails[k]) == Some(d) && InstallFromMail(cfg, emails[k]).None?
  }

  /** Every address of installation i resolves to no desk and back to i. */
  predicate InstallAddressesUnique(cfg: Config, i: nat, emails: seq<string>) {
    forall k :: 0 <= k < |emails| ==> DeskFromMail(cfg, emails[k]).None? && InstallFromMail(cfg, emails[k]) == Some(i)
  }

  /** The uniqueness loop of validateServiceDesk: the first clashing address
      gives the fatal message. */
  function DeskEmailClash(cfg: Config, d: DeskRef, emails: seq<string>): (r: Option<string>)
    ensures r.None? <==> DeskAddressesUnique(cfg, d, emails)
  {
    if |emails| == 0 then None
    else if DeskFromMail(cfg, emails[0]) != Some(d) then
      Some("email " + emails[0] + " on two desks")
    else if InstallFromMail(cfg, emails[0]).Some? then
      Some("email " + emails[0] + " on desk and install")
    else
      var rest := DeskEmailClash(cfg, d, emails[1..]);
      assert DeskAddressesUnique(cfg, d, emails) <==> DeskAddressesUnique(cfg, d, emails[1..]) by {
        assert forall k :: 1 <= k < |emails| ==> emails[k] == emails[1..][k - 1];
      }
      rest
  }

  /** The uniqueness loop of validateJiraInstall. */
  function InstallEmailClash(cfg: Config, i: nat, emails: seq<string>): (r: Option<string>)
    ensures r.None? <==> InstallAddressesUnique(cfg, i, emails)
  {
    if |emails| == 0 then None
    else if DeskFromMail(cfg, emails[0]).Some? then
      Some("email " + emails[0] + " on install and desk")
    else if InstallFromMail(cfg, emails[0]) != Some(i) then
      Some("email " + emails[0] + " on two installs")
    else
      var rest := InstallEmailClash(cfg, i, emails[1..]);
      assert InstallAddressesUnique(cfg, i, emails) <==> InstallAddressesUnique(cfg, i, emails[1..]) by {
        assert forall k :: 1 <= k < |emails| ==> emails[k] == emails[1..][k - 1];
      }
      rest
  }

  /** The part of validateServiceDesk that runs once both ids are known: the
      rules for event-only desks, or else for desks that take email. */
  predicate DeskLayoutRules(cfg: Config, d: DeskRef, env: LoadEnv)
    requires ValidDesk(cfg, d)
  {
    var srd := DeskAt(cfg, d);
    var inst := cfg.installs[d.install];
    if EventOnly(cfg, d) then
      && srd.requestPostfix == "" && srd.replyEmailName == ""
      && srd.requestCreationEmailTextPlainPath == "" && srd.replyAboveThis == ""
    else
      && (|srd.emails| != 0 || |inst.emails| != 0)
      && DeskAddressesUnique(cfg, d, srd.emails)
      && (cfg.sendEmails && |srd.emails| != 0 ==> env.templateLoads(srd.requestCreationEmailTextPlainPath))
  }

  /** When validateServiceDesk accepts desk d. */
  predicate DeskRules(cfg: Config, d: DeskRef, env: LoadEnv)
    requires ValidDesk(cfg, d)
  {
    var srd := DeskAt(cfg, d);
    var inst := cfg.installs[d.install];
    && srd.projectKey != ""
    && env.serviceDeskId(inst.url, srd.projectKey).Ok?
    && srd.requestType != ""
    && env.requestTypeId(inst.url, srd.requestType, env.serviceDeskId(inst.url, srd.projectKey).value).Ok?
    && DeskLayoutRules(cfg, d, env)
  }

  /** The derived fields other than the two ids. */
  predicate DeskLayoutLoaded(cfg: Config, d: DeskRef, out: ServiceDesk)
    requires ValidDesk(cfg, d)
  {
    var srd := DeskAt(cfg, d);
    var only := EventOnly(cfg, d);
    && out.onlyCreateEventRequests == only
    && out.replyAddress == (if only then srd.replyAddress else DeskReplyAddress(srd, cfg.installs[d.install]))
    && out.hasCreationTemplate == ((!only && cfg.sendEmails && |srd.emails| != 0) || srd.hasCreationTemplate)
  }

  /** What validateServiceDesk derives for an accepted desk; the fields read
      from the file are kept. */
  predicate DeskLoaded(cfg: Config, d: DeskRef, env: LoadEnv, out: ServiceDesk)
    requires ValidDesk(cfg, d)
  {
    var srd := DeskAt(cfg, d);
    var inst := cfg.installs[d.install];
    && env.serviceDeskId(inst.url, srd.projectKey) == Ok(out.id)
    && env.requestTypeId(inst.url, srd.requestType, out.id) == Ok(out.requestTypeId)
    && DeskLayoutLoaded(cfg, d, out)
    && out == srd.(id := out.id, requestTypeId := out.requestTypeId,
                   onlyCreateEventRequests := out.onlyCreateEventRequests,
                   replyAddress := out.replyAddress, hasCreationTemplate := out.hasCreationTemplate)
  }

  /** The tail of validateServiceDesk, once both ids are known. */
  function FinishDesk(cfg: Config, d: DeskRef, env: LoadEnv, id: string, typeId: string): (r: Result<ServiceDesk>)
    requires ValidDesk(cfg, d)
    ensures r.Ok? <==> DeskLayoutRules(cfg, d, env)
    ensures r.Ok? ==> DeskLayoutLoaded(cfg, d, r.value)
    ensures r.Ok? ==> r.value == DeskAt(cfg, d).(id := id, requestTypeId := typeId,
                                          onlyCreateEventRequests := r.value.onlyCreateEventRequests,
                                          replyAddress := r.value.replyAddress,
                                          hasCreationTemplate := r.value.hasCreationTemplate)
  {
    var srd := DeskAt(cfg, d);
    var inst := cfg.installs[d.install];
    var only := srd.createEventRequests && |inst.emails| == 0 && |srd.emails| == 0;
    var base := srd.(id := id, requestTypeId := typeId, onlyCreateEventRequests := only);
    if only then
      if srd.requestPostfix != "" || srd.replyEmailName != ""
         || srd.requestCreationEmailTextPlainPath != "" || srd.replyAboveThis != "" then
        Err("event-only desk")
      else Ok(base)
    else if |srd.emails| == 0 && |inst.emails| == 0 then
      Err("no emails")
    else match DeskEmailClash(cfg, d, srd.emails)
    case Some(m) => Err(m)
    case None =>
      var withReply := base.(replyAddress := DeskReplyAddress(srd, inst));
      if cfg.sendEmails && |srd.emails| != 0 then
        if !env.templateLoads(srd.requestCreationEmailTextPlainPath) then
          Err("bad template")
        else Ok(withReply.(hasCreationTemplate := true))
      else Ok(withReply)
  }

  /** validateServiceDesk. */
  function ValidateServiceDesk(cfg: Config, d: DeskRef, env: LoadEnv): (r: Result<ServiceDesk>)
    requires ValidDesk(cfg, d)
    ensures r.Ok? <==> DeskRules(cfg, d, env)
    ensures r.Ok? ==> DeskLoaded(cfg, d, env, r.value)
  {
    var srd := DeskAt(cfg, d);
    var inst := cfg.installs[d.install];
    if srd.projectKey == "" then Err("no project_key")
    else match env.serviceDeskId(inst.url, srd.projectKey)
    case Err(m) => Err(m)
    case Ok(id) =>
      if srd.requestType == "" then Err("no request_type")
      else match env.requestTypeId(inst.url, srd.requestType, id)
      case Err(m) => Err(m)
      case Ok(typeId) => FinishDesk(cfg, d, env, id, typeId)
  }

  /** A Go loop that validates elements m = k .. n-1 in order and stops at
      the first failure: the whole succeeds exactly when every step does, and
      a failure carries the first failing step's message. */
  function CollectFrom<T>(f: nat -> Result<T>, k: nat, n: nat): (r: Result<seq<T>>)
    requires k <= n
    ensures r.Ok? <==> forall m: nat :: k <= m < n ==> f(m).Ok?
    ensures r.Ok? ==> |r.value| == n - k
    ensures r.Ok? ==> forall m: nat :: m < |r.value| ==> f(k + m) == Ok(r.value[m])
    ensures r.Err? ==> exists m: nat :: k <= m < n && f(m) == Err(r.msg) && forall p: nat :: k <= p < m ==> f(p).Ok?
    decreases n - k
  {
    if k == n then Ok([])
    else match f(k)
    case Err(msg) => Err(msg)
    case Ok(x) =>
      match CollectFrom(f, k + 1, n)
      case Err(msg) => Err(msg)
      case Ok(rest) =>
        assert forall m: nat :: 1 <= m < |rest| + 1 ==> ([x] + rest)[m] == rest[m - 1];
        Ok([x] + rest)
  }

  /** The desks of installation i, validated in order. */
  function ValidateDesks(cfg: Config, i: nat, env: LoadEnv): (r: Result<seq<ServiceDesk>>)
    requires i < |cfg.installs|
    ensures r.Ok? <==> forall k: nat :: k < |cfg.installs[i].desks| ==> DeskRules(cfg, DeskRef(i, k), env)
    ensures r.Ok? ==> |r.value| == |cfg.installs[i].desks|
    ensures r.Ok? ==> forall k: nat :: k < |r.value| ==> DeskLoaded(cfg, DeskRef(i, k), env, r.value[k])
  {
    var n := |cfg.installs[i].desks|;
    var step := (k: nat) => if k < n then ValidateServiceDesk(cfg, DeskRef(i, k), env) else Err("");
    var r := CollectFrom(step, 0, n);
    assert forall k: nat :: k < n ==> step(k) == ValidateServiceDesk(cfg, DeskRef(i, k), env);
    r
  }

  /** When validateJiraInstall accepts installation i (its desks included). */
  predicate InstallRules(cfg: Config, i: nat, env: LoadEnv)
    requires i < |cfg.installs|
  {
    var inst := cfg.installs[i];
    && inst.token != ""
    && inst.url != ""
    && env.clientOk(inst.url, inst.token)
    && (inst.adminToken != "" ==> env.clientOk(inst.url, inst.adminToken))
    && InstallAddressesUnique(cfg, i, inst.emails)
    && (|inst.emails| != 0 ==> env.templateLoads(inst.rejectedMailPath))
    && forall k: nat :: k < |inst.desks| ==> DeskRules(cfg, DeskRef(i, k), env)
  }

  predicate InstallLoaded(cfg: Config, i: nat, env: LoadEnv, out: JiraInstall)
    requires i < |cfg.installs|
  {
    var inst := cfg.installs[i];
    && |out.desks| == |inst.desks|
    && (forall k: nat :: k < |out.desks| ==> DeskLoaded(cfg, DeskRef(i, k), env, out.desks[k]))
    && (if |inst.emails| != 0 then
          out == inst.(hasRejectedTemplate := true,
                       replyAddress := Some(Address(inst.replyEmailName, inst.emails[0])),
                       desks := out.desks)
        else out == inst.(desks := out.desks))
  }

  /** validateJiraInstall. */
  function ValidateJiraInstall(cfg: Config, i: nat, env: LoadEnv): (r: Result<JiraInstall>)
    requires i < |cfg.installs|
    ensures r.Ok? <==> InstallRules(cfg, i, env)
    ensures r.Ok? ==> InstallLoaded(cfg, i, env, r.value)
  {
    var inst := cfg.installs[i];
    if inst.token == "" then Err("no token")
    else if inst.url == "" then Err("no url")
    else if !env.clientOk(inst.url, inst.token) then Err("no client")
    else if inst.adminToken != "" && !env.clientOk(inst.url, inst.adminToken) then
      Err("no admin client")
    else match InstallEmailClash(cfg, i, inst.emails)
    case Some(m) => Err(m)
    case None =>
      if |inst.emails| != 0 && !env.templateLoads(inst.rejectedMailPath) then
        Err("bad template")
      else
        var withMail :=
          if |inst.emails| != 0 then
            inst.(hasRejectedTemplate := true, replyAddress := Some(Address(inst.replyEmailName, inst.emails[0])))
          else inst;
        match ValidateDesks(cfg, i, env)
        case Err(m) => Err(m)
        case Ok(desks) => Ok(withMail.(desks := desks))
  }

  /** The installations, validated in order. */
  function ValidateInstalls(cfg: Config, env: LoadEnv): (r: Result<seq<JiraInstall>>)
    ensures r.Ok? <==> forall k: nat :: k < |cfg.installs| ==> InstallRules(cfg, k, env)
    ensures r.Ok? ==> |r.value| == |cfg.installs|
    ensures r.Ok? ==> forall k: nat :: k < |r.value| ==> InstallLoaded(cfg, k, env, r.value[k])
  {
    var n := |cfg.installs|;
    var step := (k: nat) => if k < n then ValidateJiraInstall(cfg, k, env) else Err("");
    var r := CollectFrom(step, 0, n);
    assert forall k: nat :: k < n ==> step(k) == ValidateJiraInstall(cfg, k, env);
    assert forall k: nat :: k < n ==> (step(k).Ok? <==> InstallRules(cfg, k, env));
    r
  }

  /** The desks with create_event_requests set, from desk j of installation
      i on, in scan order. */
  function EventDesksIn(cfg: Config, i: nat, j: nat): (r: seq<DeskRef>)
    requires i < |cfg.installs| && j <= |cfg.installs[i].desks|
    ensures forall d :: d in r <==> d.install == i && j <= d.desk && ValidDesk(cfg, d) && DeskAt(cfg, d).createEventRequests
    ensures forall a, b :: 0 <= a < b < |r| ==> r[a].install == i && r[a].desk < r[b].desk
    decreases |cfg.installs[i].desks| - j
  {
    if j == |cfg.installs[i].desks| then []
    else if cfg.installs[i].desks[j].createEventRequests then [DeskRef(i, j)] + EventDesksIn(cfg, i, j + 1)
    else EventDesksIn(cfg, i, j + 1)
  }

  function EventDesksFrom(cfg: Config, i: nat): (r: seq<DeskRef>)
    requires i <= |cfg.installs|
    ensures forall d :: d in r <==> i <= d.install && ValidDesk(cfg, d) && DeskAt(cfg, d).createEventRequests
    ensures forall a, b :: 0 <= a < b < |r| ==> Before(r[a].install, r[a].desk, r[b])
    decreases |cfg.installs| - i
  {
    if i == |cfg.installs| then []
    else
      var here := EventDesksIn(cfg, i, 0);
      var rest := EventDesksFrom(cfg, i + 1);
      assert forall a, b :: 0 <= a < |here| <= b < |here| + |rest| ==> Before((here + rest)[a].install, (here + rest)[a].desk, (here + rest)[b]) by {
        forall a, b | 0 <= a < |here| <= b < |here| + |rest|
          ensures Before((here + rest)[a].install, (here + rest)[a].desk, (here + rest)[b])
        {
          assert (here + rest)[a] in here;
          assert (here + rest)[b] in rest;
        }
      }
      here + rest
  }

  function EventDesks(cfg: Config): (r: seq<DeskRef>)
    ensures forall d :: d in r <==> ValidDesk(cfg, d) && DeskAt(cfg, d).createEventRequests
    ensures forall a, b :: 0 <= a < b < |r| ==> Before(r[a].install, r[a].desk, r[b])
  {
    EventDesksFrom(cfg, 0)
  }

  /** The event-sink loop of validateConfig over the flagged desks: a second
      flagged desk, or none at all, is fatal. */
  function PickEventDesk(found: Option<DeskRef>, flagged: seq<DeskRef>): (r: Result<DeskRef>)
    ensures r.Ok? <==> (found.None? && |flagged| == 1) || (found.Some? && |flagged| == 0)
    ensures r.Ok? && found.None? ==> r.value == flagged[0]
    decreases |flagged|
  {
    if |flagged| == 0 then
      if found.Some? then Ok(found.value) else Err("no event desk")
    else if found.Some? then
      Err("two event desks")
    else PickEventDesk(Some(flagged[0]), flagged[1..])
  }

  /** The settings validateConfig checks before it looks at the topology. */
  predicate SettingsRules(cfg: Config, env: LoadEnv) {
    && (cfg.criticalMailTo == "") == (cfg.criticalMailFrom == "")
    && (cfg.dumpRequests || cfg.parseRequests)
    && (cfg.checkMalware ==> cfg.clamAVScandir != "")
    && env.isDir(cfg.dumpDir)
    && cfg.maxSpamScore > 0.0
    && (cfg.dumpRequests ==> cfg.port != 0 && cfg.domain != "")
  }

  /** The first failing settings check, in the order validateConfig runs
      them. */
  function CheckSettings(cfg: Config, env: LoadEnv): (r: Option<string>)
    ensures r.None? <==> SettingsRules(cfg, env)
  {
    if (cfg.criticalMailTo == "") != (cfg.criticalMailFrom == "") then
      Some("critical mail")
    else if !cfg.dumpRequests && !cfg.parseRequests then
      Some("nothing to do")
    else if cfg.checkMalware && cfg.clamAVScandir == "" then Some("no clamav_scandir")
    else if !env.isDir(cfg.dumpDir) then Some("bad dump_dir")
    else if cfg.maxSpamScore <= 0.0 then Some("bad spam score")
    else if cfg.dumpRequests && cfg.port == 0 then Some("no port")
    else if cfg.dumpRequests && cfg.domain == "" then Some("no domain")
    else None
  }

  /** Jira installations and desks are validated only when emails are parsed
      and sent on to Jira. */
  predicate Parsing(cfg: Config) {
    cfg.parseRequests && !cfg.debugParseOnly
  }

  /** When validateConfig accepts the configuration. */
  predicate ConfigRules(cfg: Config, env: LoadEnv) {
    && SettingsRules(cfg, env)
    && (Parsing(cfg) ==>
          && (forall k: nat :: k < |cfg.installs| ==> InstallRules(cfg, k, env))
          && cfg.maxParticipants != 0)
    && (cfg.sendEmails ==> cfg.sendEmailHost != "" && cfg.sendEmailPort != 0)
    && (cfg.handleEvents ==> PickEventDesk(cfg.handleEventsDesk, EventDesks(cfg)).Ok?)
  }

  predicate ConfigLoaded(cfg: Config, env: LoadEnv, out: Config) {
    && |out.installs| == |cfg.installs|
    && (Parsing(cfg) ==> forall k: nat :: k < |cfg.installs| ==> InstallLoaded(cfg, k, env, out.installs[k]))
    && (!Parsing(cfg) ==> out.installs == cfg.installs)
    && (cfg.handleEvents ==> out.handleEventsDesk.Some? && PickEventDesk(cfg.handleEventsDesk, EventDesks(cfg)) == Ok(out.handleEventsDesk.value))
    && (!cfg.handleEvents ==> out.handleEventsDesk == cfg.handleEventsDesk)
    && out == cfg.(installs := out.installs, handleEventsDesk := out.handleEventsDesk)
  }

  /** validateConfig. */
  function ValidateConfig(cfg: Config, env: LoadEnv): (r: Result<Config>)
    ensures r.Ok? <==> ConfigRules(cfg, env)
    ensures r.Ok? ==> ConfigLoaded(cfg, env, r.value)
  {
    match CheckSettings(cfg, env)
    case Some(m) => Err(m)
    case None =>
      var installs :- if Parsing(cfg) then ValidateInstalls(cfg, env) else Ok(cfg.installs);
      if Parsing(cfg) && cfg.maxParticipants == 0 then Err("no max_participants")
      else if cfg.sendEmails && cfg.sendEmailHost == "" then Err("no send_email_host")
      else if cfg.sendEmails && cfg.sendEmailPort == 0 then Err("no send_email_port")
      else if cfg.handleEvents then
        match PickEventDesk(cfg.handleEventsDesk, EventDesks(cfg))
        case Err(m) => Err(m)
        case Ok(d) => Ok(cfg.(installs := installs, handleEventsDesk := Some(d)))
      else Ok(cfg.(installs := installs))
  }

  /** Loading changes no address and no nesting. */
  lemma LoadKeepsAddressing(cfg: Config, env: LoadEnv, out: Config)
    requires ValidateConfig(cfg, env) == Ok(out)
    ensures SameAddressing(cfg, out)
    ensures forall d :: ValidDesk(cfg, d) <==> ValidDesk(out, d)
    ensures forall d :: ValidDesk(cfg, d) ==> DeskAt(out, d).createEventRequests == DeskAt(cfg, d).createEventRequests
  {
    if Parsing(cfg) {
      forall i | 0 <= i < |cfg.installs|
        ensures out.installs[i].emails == cfg.installs[i].emails
        ensures |out.installs[i].desks| == |cfg.installs[i].desks|
        ensures forall j :: 0 <= j < |cfg.installs[i].desks| ==>
                  out.installs[i].desks[j].emails == cfg.installs[i].desks[j].emails
                  && out.installs[i].desks[j].createEventRequests == cfg.installs[i].desks[j].createEventRequests
      {
        assert InstallLoaded(cfg, i, env, out.installs[i]);
        forall j | 0 <= j < |cfg.installs[i].desks|
          ensures out.installs[i].desks[j].emails == cfg.installs[i].desks[j].emails
          ensures out.installs[i].desks[j].createEventRequests == cfg.installs[i].desks[j].createEventRequests
        {
          assert DeskLoaded(cfg, DeskRef(i, j), env, out.installs[i].desks[j]);
        }
      }
    }
  }

  /** Once the topology is loaded for parsing, every address belongs to
      exactly one owner: a desk's address resolves to that desk and to no
      installation, an installation's address to that installation and to no
      desk. */
  lemma LoadedAddressesUnique(cfg: Config, env: LoadEnv, out: Config)
    requires ValidateConfig(cfg, env) == Ok(out) && Parsing(cfg)
    ensures forall i: nat, j: nat, e :: DeskOwns(out, i, j, e) ==>
              DeskFromMail(out, e) == Some(DeskRef(i, j)) && InstallFromMail(out, e).None?
    ensures forall i: nat, e :: InstallOwns(out, i, e) ==>
              DeskFromMail(out, e).None? && InstallFromMail(out, e) == Some(i)
  {
    LoadKeepsAddressing(cfg, env, out);
    forall i: nat, j: nat, e | DeskOwns(out, i, j, e)
      ensures DeskFromMail(out, e) == Some(DeskRef(i, j)) && InstallFromMail(out, e).None?
    {
      AddressLookupsAgree(cfg, out, e);
      var d := DeskRef(i, j);
      assert InstallRules(cfg, i, env);
      assert DeskRules(cfg, d, env);
      var k :| 0 <= k < |DeskAt(cfg, d).emails| && DeskAt(cfg, d).emails[k] == e;
      assert DeskAddressesUnique(cfg, d, DeskAt(cfg, d).emails);
    }
    forall i: nat, e | InstallOwns(out, i, e)
      ensures DeskFromMail(out, e).None? && InstallFromMail(out, e) == Some(i)
    {
      AddressLookupsAgree(cfg, out, e);
      assert InstallRules(cfg, i, env);
      var k :| 0 <= k < |cfg.installs[i].emails| && cfg.installs[i].emails[k] == e;
    }
  }

  /** No address is listed twice across the loaded topology. */
  lemma LoadedOwnersDistinct(cfg: Config, env: LoadEnv, out: Config)
    requires ValidateConfig(cfg, env) == Ok(out) && Parsing(cfg)
    ensures forall i: nat, j: nat, i2: nat, j2: nat, e ::
              DeskOwns(out, i, j, e) && DeskOwns(out, i2, j2, e) ==> i == i2 && j == j2
    ensures forall i: nat, j: nat, k: nat, e :: !(DeskOwns(out, i, j, e) && InstallOwns(out, k, e))
    ensures forall k: nat, k2: nat, e :: InstallOwns(out, k, e) && InstallOwns(out, k2, e) ==> k == k2
  {
    LoadedAddressesUnique(cfg, env, out);
  }

  /** With event handling on, the loaded configuration names the one and
      only desk flagged create_event_requests as the event sink. */
  lemma EventSinkUnique(cfg: Config, env: LoadEnv, out: Config)
    requires ValidateConfig(cfg, env) == Ok(out) && cfg.handleEvents && cfg.handleEventsDesk.None?
    ensures out.handleEventsDesk.Some?
    ensures ValidDesk(out, out.handleEventsDesk.value) && DeskAt(out, out.handleEventsDesk.value).createEventRequests
    ensures forall d :: ValidDesk(out, d) && DeskAt(out, d).createEventRequests ==> d == out.handleEventsDesk.value
  {
    LoadKeepsAddressing(cfg, env, out);
    var flagged := EventDesks(cfg);
    assert |flagged| == 1;
    assert flagged[0] in flagged;
    forall d | ValidDesk(out, d) && DeskAt(out, d).createEventRequests
      ensures d == out.handleEventsDesk.value
    {
      assert d in flagged;
    }
  }

  /** A loaded desk is event-only exactly when it is flagged for events and
      neither it nor its installation lists an address. */
  lemma LoadedEventOnly(cfg: Config, env: LoadEnv, out: Config, d: DeskRef)
    requires ValidateConfig(cfg, env) == Ok(out) && Parsing(cfg) && ValidDesk(out, d)
    ensures DeskAt(out, d).onlyCreateEventRequests <==>
              DeskAt(out, d).createEventRequests && |DeskAt(out, d).emails| == 0 && |out.installs[d.install].emails| == 0
    ensures DeskAt(out, d).onlyCreateEventRequests ==> DeskAt(out, d).requestPostfix == "" && DeskAt(out, d).replyAboveThis == ""
  {
    LoadKeepsAddressing(cfg, env, out);
    assert InstallLoaded(cfg, d.install, env, out.installs[d.install]);
    assert DeskLoaded(cfg, d, env, DeskAt(out, d));
    assert InstallRules(cfg, d.install, env);
    assert DeskRules(cfg, d, env);
  }

  /** A loaded desk that takes email replies from an address that routes
      back to it: its own first address, or, when it lists none, its
      installation's first address. */
  lemma LoadedReplyAddressRoutesBack(cfg: Config, env: LoadEnv, out: Config, d: DeskRef)
    requires ValidateConfig(cfg, env) == Ok(out) && Parsing(cfg) && ValidDesk(out, d)
    requires !DeskAt(out, d).onlyCreateEventRequests
    ensures DeskAt(out, d).replyAddress.Some?
    ensures DeskAt(out, d).replyAddress.value.name == DeskAt(out, d).replyEmailName
    ensures |DeskAt(out, d).emails| > 0 ==> DeskFromMail(out, DeskAt(out, d).replyAddress.value.address) == Some(d)
    ensures |DeskAt(out, d).emails| == 0 ==>
              InstallFromMail(out, DeskAt(out, d).replyAddress.value.address) == Some(d.install)
  {
    LoadKeepsAddressing(cfg, env, out);
    LoadedAddressesUnique(cfg, env, out);
    assert InstallLoaded(cfg, d.install, env, out.installs[d.install]);
    assert DeskLoaded(cfg, d, env, DeskAt(out, d));
    assert InstallRules(cfg, d.install, env);
    assert DeskRules(cfg, d, env);
    var srd := DeskAt(out, d);
    if |srd.emails| > 0 {
      assert DeskOwns(out, d.install, d.desk, srd.emails[0]);
    } else {
      assert InstallOwns(out, d.install, out.installs[d.install].emails[0]);
    }
  }
}

=== FILE: effects.dfy ===
/** Everything the parser does to the outside world, as an append-only trace
    of calls, and the outside world itself as a server: a record of oracle
    functions that answer a call given every call made before it. A server
    that remembers earlier calls (a customer created a moment ago is found by
    the next user search) is just an oracle that reads the history. */
module Effects {
  import opened Wrappers
  import opened Model

  /** One entry of a Jira user search. */
  datatype User = User(name: string, emailAddress: string, displayName: string)

  /** What the service-desk API reports about one request. */
  datatype DeskRequest = DeskRequest(
    issueKey: string,
    serviceDeskId: string,
    portalLink: string,
    status: string,
    reporter: string)

  /** A call against the Jira installation at index `install`, or an outgoing
      reply mail. A temporary-file upload records the attachment's own name;
      the form sent to Jira carries it sanitised (JiraActor.TempFileName),
      which is a function of the recorded name. */
  datatype Call =
    | UserSearch(install: nat, query: string)
    | CustomerCreate(install: nat, email: string, fullName: string)
    | IssueGet(install: nat, key: string)
    | RequestGet(install: nat, key: string)
    | RequestCreate(install: nat, summary: string, description: string, reporter: string,
                    requestTypeId: string, serviceDeskId: string)
    | TempFileAttach(install: nat, serviceDeskId: string, fileName: string, bytes: seq<Byte>)
    | CommentPost(install: nat, issueKey: string, body: string, attachmentIds: seq<string>)
    | ParticipantAdd(install: nat, issueKey: string, username: string)
    | MailSend(from: Option<Address>, to: Address, subject: string, body: string)

  type Trace = seq<Call>

  /** The answers of Jira, per kind of call: the user search, the issue's
      assignee, the service-desk view of a request, the key of a created
      request, the ids of an uploaded temporary file, and a bare
      acknowledgement for the calls that return nothing. */
  datatype Server = Server(
    users: (Trace, Call) -> Result<seq<User>>,
    issue: (Trace, Call) -> Result<Option<string>>,
    deskRequest: (Trace, Call) -> Result<DeskRequest>,
    created: (Trace, Call) -> Result<string>,
    attached: (Trace, Call) -> Result<seq<string>>,
    ack: (Trace, Call) -> Result<()>)

  /** The calls that leave a visible mark: a request, an upload, a comment, a
      participant or a mail. Searches, fetches and customer creation are not
      among them. */
  predicate IsAction(c: Call) {
    c.RequestCreate? || c.TempFileAttach? || c.CommentPost? || c.ParticipantAdd? || c.MailSend?
  }

  /** `trace` extends the history `t` by calls none of which is an action. */
  predicate Quiet(t: Trace, trace: Trace) {
    t <= trace && forall k :: |t| <= k < |trace| ==> !IsAction(trace[k])
  }

  /** The number of participant additions in trace[from..]. */
  function Adds(trace: Trace, from: nat): nat
    decreases |trace|
  {
    if |trace| <= from then 0
    else Adds(trace[..|trace| - 1], from) + (if trace[|trace| - 1].ParticipantAdd? then 1 else 0)
  }

  /** Additions in a trace extended in two steps add up. */
  lemma {:induction false} AddsSplit(t: Trace, u: Trace, v: Trace)
    requires t <= u <= v
    ensures Adds(v, |t|) == Adds(u, |t|) + Adds(v, |u|)
    decreases |v|
  {
    if |v| > |u| {
      var w := v[..|v| - 1];
      assert u <= w;
      AddsSplit(t, u, w);
      var last := if v[|v| - 1].ParticipantAdd? then 1 else 0;
      assert Adds(v, |t|) == Adds(w, |t|) + last;
      assert Adds(v, |u|) == Adds(w, |u|) + last;
    } else {
      assert v == u;
    }
  }

  /** `trace` extends `t` by calls none of which adds a participant. */
  predicate NoneAdded(t: Trace, trace: Trace) {
    t <= trace && forall k :: |t| <= k < |trace| ==> !trace[k].ParticipantAdd?
  }

  /** Such an extension counts no addition. */
  lemma {:induction false} NoneAddedCountsNone(u: Trace, v: Trace)
    requires NoneAdded(u, v)
    ensures Adds(v, |u|) == 0
    decreases |v|
  {
    if |v| > |u| {
      var w := v[..|v| - 1];
      assert NoneAdded(u, w);
      NoneAddedCountsNone(u, w);
    }
  }

  /** One more call counts when it adds a participant. */
  lemma AddsOne(t: Trace, c: Call)
    ensures Adds(t + [c], |t|) == if c.ParticipantAdd? then 1 else 0
  {
    assert (t + [c])[..|t|] == t;
  }

  /** A quiet extension adds no participant. */
  lemma QuietAddsNone(u: Trace, v: Trace)
    requires Quiet(u, v)
    ensures Adds(v, |u|) == 0
  {
    assert NoneAdded(u, v);
    NoneAddedCountsNone(u, v);
  }

  /** The users a stretch of calls adds as participants, in order. */
  function AddedUsers(u: Trace): (r: seq<string>)
    ensures |r| <= |u|
  {
    if u == [] then []
    else (if u[0].ParticipantAdd? then [u[0].username] else []) + AddedUsers(u[1..])
  }

  lemma {:induction false} AddedUsersJoin(u: Trace, v: Trace)
    ensures AddedUsers(u + v) == AddedUsers(u) + AddedUsers(v)
  {
    if u != [] {
      assert (u + v)[1..] == u[1..] + v;
      AddedUsersJoin(u[1..], v);
    } else {
      assert u + v == v;
    }
  }

  /** The users added over a stretch extended in two steps. */
  lemma AddedUsersSplit(t: Trace, u: Trace, v: Trace)
    requires t <= u <= v
    ensures AddedUsers(v[|t|..]) == AddedUsers(u[|t|..]) + AddedUsers(v[|u|..])
  {
    assert v[|t|..] == u[|t|..] + v[|u|..];
    AddedUsersJoin(u[|t|..], v[|u|..]);
  }

  /** A stretch without additions adds no user. */
  lemma {:induction false} NoneAddedNoUsers(t: Trace, trace: Trace)
    requires NoneAdded(t, trace)
    ensures AddedUsers(trace[|t|..]) == []
    decreases |trace| - |t|
  {
    if |t| < |trace| {
      assert trace[|t|..][1..] == trace[|t| + 1..];
      assert NoneAdded(trace[..|t| + 1], trace);
      NoneAddedNoUsers(trace[..|t| + 1], trace);
    }
  }

  /** The RequestCreate calls of a stretch of calls, in order. */
  function Creates(u: Trace): (r: seq<Call>)
    ensures |r| <= |u|
    ensures forall k :: 0 <= k < |r| ==> r[k].RequestCreate?
  {
    if u == [] then []
    else (if u[0].RequestCreate? then [u[0]] else []) + Creates(u[1..])
  }

  lemma {:induction false} CreatesJoin(u: Trace, v: Trace)
    ensures Creates(u + v) == Creates(u) + Creates(v)
  {
    if u != [] {
      assert (u + v)[1..] == u[1..] + v;
      CreatesJoin(u[1..], v);
    } else {
      assert u + v == v;
    }
  }

  /** A stretch whose first call is its only creation. */
  lemma {:induction false} SoleCreate(t: Trace, trace: Trace)
    requires t < trace && trace[|t|].RequestCreate?
    requires forall k :: |t| < k < |trace| ==> !trace[k].RequestCreate?
    ensures Creates(trace[|t|..]) == [trace[|t|]]
  {
    NoCreates(trace[|t| + 1..]);
    assert trace[|t|..] == [trace[|t|]] + trace[|t| + 1..];
    CreatesJoin([trace[|t|]], trace[|t| + 1..]);
  }

  lemma {:induction false} NoCreates(u: Trace)
    requires forall k :: 0 <= k < |u| ==> !u[k].RequestCreate?
    ensures Creates(u) == []
  {
    if u != [] {
      NoCreates(u[1..]);
    }
  }

  /** Creations of two consecutive stretches against a plan: the first
      makes the plan's first creation, the second a prefix of the rest. */
  lemma CreatesFollowPlan(t: Trace, u: Trace, v: Trace, plan: seq<Call>)
    requires plan != [] && t < u <= v
    requires Creates(u[|t|..]) == [plan[0]]
    requires Creates(v[|u|..]) <= plan[1..]
    ensures Creates(v[|t|..]) <= plan
    ensures Creates(v[|u|..]) == plan[1..] ==> Creates(v[|t|..]) == plan
  {
    assert v[|t|..] == u[|t|..] + v[|u|..];
    CreatesJoin(u[|t|..], v[|u|..]);
    assert plan == [plan[0]] + plan[1..];
  }

  /** `trace` extends `t` by calls none of which sends mail. */
  predicate NoMail(t: Trace, trace: Trace) {
    t <= trace && forall k :: |t| <= k < |trace| ==> !trace[k].MailSend?
  }

  lemma NoMailJoin(t: Trace, u: Trace, v: Trace)
    requires NoMail(t, u) && NoMail(u, v)
    ensures NoMail(t, v)
  {
    forall k | |t| <= k < |v|
      ensures !v[k].MailSend?
    {
      if k < |u| {
        assert v[k] == u[k];
      }
    }
  }

  /** The outcome of a piece of work: its result and the trace after it. */
  datatype Step<T> = Step(res: Result<T>, trace: Trace)
}

=== FILE: email_to_jira.dfy ===
/** Turning a mail into Jira work (handler/email_to_jira.go): the summary
    and description of a new request, the Jira user of an address, the
    enrolment of addressees as participants, and the request and comment
    paths built from them. */
module EmailToJira {
  import opened Wrappers
  import opened Text
  import opened Model
  import opened Topology
  import opened Effects
  import opened JiraActor
  import opened MailText
  import opened AddressLists

  /** " --- ", put between a subject and a desk's request postfix. */
  const PostfixSep: string := [' ', '-', '-', '-', ' ']

  /** "Received via mail\n\n", the head of every description. */
  const ReceivedPrefix: string :=
    ['R', 'e', 'c', 'e', 'i', 'v', 'e', 'd', ' ', 'v', 'i', 'a', ' ', 'm', 'a', 'i', 'l', '\n', '\n']

  /** The subject with the desk's postfix, before trimming. */
  function SummaryText(srd: ServiceDesk, e: Email): string {
    if srd.requestPostfix != "" then e.subject + PostfixSep + srd.requestPostfix else e.subject
  }

  /** createSummary: the subject, " --- " and the postfix when there is one,
      trimmed, every line break turned into a space. */
  function CreateSummary(srd: ServiceDesk, e: Email): (r: string)
    ensures forall k :: 0 <= k < |r| ==> r[k] != '\n'
  {
    ReplaceAllChars(TrimSpace(SummaryText(srd, e)), ['\n'], [' ']);
    ReplaceAll(TrimSpace(SummaryText(srd, e)), ['\n'], [' '])
  }

  /** A one-line subject that needs no trimming is the summary as it is when
      the desk has no postfix. */
  lemma SummaryOfPlainSubject(srd: ServiceDesk, e: Email)
    requires srd.requestPostfix == "" && '\n' !in e.subject
    requires |e.subject| > 0 && !IsSpace(e.subject[0]) && !IsSpace(e.subject[|e.subject| - 1])
    ensures CreateSummary(srd, e) == e.subject
  {
    AbsentCharNotContained(e.subject, '\n');
  }

  /** With a postfix, a one-line subject and postfix give
      subject + " --- " + postfix. */
  lemma SummaryWithPostfix(srd: ServiceDesk, e: Email)
    requires srd.requestPostfix != "" && '\n' !in e.subject && '\n' !in srd.requestPostfix
    requires |e.subject| > 0 && !IsSpace(e.subject[0])
    requires !IsSpace(srd.requestPostfix[|srd.requestPostfix| - 1])
    ensures CreateSummary(srd, e) == e.subject + PostfixSep + srd.requestPostfix
  {
    var s := e.subject + PostfixSep + srd.requestPostfix;
    assert s[0] == e.subject[0];
    assert s[|s| - 1] == srd.requestPostfix[|srd.requestPostfix| - 1];
    assert '\n' !in s by {
      assert forall k :: 0 <= k < |s| ==> s[k] in e.subject || s[k] in PostfixSep || s[k] in srd.requestPostfix;
    }
    AbsentCharNotContained(s, '\n');
  }

  /** The part of the body a description carries: everything before the
      desk's reply marker when it has one. */
  function Message(srd: ServiceDesk, e: Email): (r: string)
    ensures r <= e.textBody
    ensures srd.replyAboveThis == "" ==> r == e.textBody
    ensures srd.replyAboveThis != "" ==> !Contains(r, srd.replyAboveThis)
    ensures srd.replyAboveThis != "" && r != e.textBody ==> OccursAt(e.textBody, srd.replyAboveThis, |r|)
    ensures srd.replyAboveThis != "" && !Contains(e.textBody, srd.replyAboveThis) ==> r == e.textBody
  {
    if srd.replyAboveThis != "" then CutBefore(e.textBody, srd.replyAboveThis) else e.textBody
  }

  /** The layout of a description: "Received via mail", the statistics
      block and the message, separated by blank lines. */
  function Described(stats: string, message: string): (r: string)
    ensures |r| == |ReceivedPrefix| + |stats| + 2 + |message|
    ensures ReceivedPrefix <= r
    ensures r[|ReceivedPrefix|..|ReceivedPrefix| + |stats|] == stats
    ensures r[|r| - |message|..] == message
  {
    var r := ReceivedPrefix + stats + ['\n', '\n'] + message;
    assert r[|ReceivedPrefix|..|ReceivedPrefix| + |stats|] == stats;
    r
  }

  /** createDescription: the statistics block of the mail and its message. */
  function CreateDescription(srd: ServiceDesk, e: Email): (r: string)
    ensures |r| == |ReceivedPrefix| + |StatsText(e)| + 2 + |Message(srd, e)|
    ensures ReceivedPrefix <= r
    ensures r[|ReceivedPrefix|..|ReceivedPrefix| + |StatsText(e)|] == StatsText(e)
    ensures r[|r| - |Message(srd, e)|..] == Message(srd, e)
  {
    Described(StatsText(e), Message(srd, e))
  }

  /** The message put in place when a customer was created and still cannot
      be found. */
  const NotFoundAfterCreate: string := "user not found"

  /** One user search as the ladder below sees it: the call it adds. What
      it selects is JiraActor.GetJiraUsername's business. */
  function Lookup(t: Trace, srv: Server, i: nat, email: string, name: string): (s: Step<string>)
    ensures s.trace == t + [UserSearch(i, email)]
  {
    GetJiraUsername(t, srv, i, email, name)
  }

  /** The search after a customer was created: the customer must now be
      found. */
  function Refind(t: Trace, srv: Server, i: nat, a: Address): (s: Step<string>)
    ensures s.trace == t + [UserSearch(i, a.address)]
    ensures s.res.Ok? ==> s.res.value != ""
  {
    var again := Lookup(t, srv, i, a.address, a.name);
    if again.res.Ok? && again.res.value == "" then Step(Err(NotFoundAfterCreate), again.trace)
    else again
  }

  /** The installation may create a customer for addr: it has an admin
      token and addr is not on the don't-reply list. */
  predicate MayCreate(cfg: Config, i: nat, addr: string) {
    ValidInstall(cfg, i) && cfg.installs[i].adminToken != "" && !NotToReplyTo(cfg, addr)
  }

  /** Every call after `t` is one createAndGetJiraUsername makes for a: a
      search for its address as it is or lower-cased, or the creation of
      its customer, and that only where allowed. */
  predicate UserCalls(t: Trace, trace: Trace, cfg: Config, i: nat, a: Address) {
    t <= trace &&
    forall k :: |t| <= k < |trace| ==>
      || trace[k] == UserSearch(i, a.address)
      || trace[k] == UserSearch(i, Lower(a.address))
      || (trace[k] == CustomerCreate(i, a.address, CustomerName(a.address, a.name)) && MayCreate(cfg, i, a.address))
  }

  /** The last rung of createAndGetJiraUsername: create the customer and look
      it up again. A failed creation is ignored and gives no user. */
  function CreateAndFind(t: Trace, srv: Server, i: nat, a: Address): (s: Step<string>)
    ensures t < s.trace && |s.trace| <= |t| + 2
    ensures s.trace[|t|] == CustomerCreate(i, a.address, CustomerName(a.address, a.name))
    ensures |s.trace| == |t| + 2 ==> s.trace[|t| + 1] == UserSearch(i, a.address)
    ensures srv.ack(t, s.trace[|t|]).Err? <==> s.res == Ok("")
  {
    var created := CreateCustomer(t, srv, i, a.address, a.name);
    if created.res.Err? then Step(Ok(""), created.trace)
    else Refind(created.trace, srv, i, a)
  }

  /** The rungs of createAndGetJiraUsername after the exact search: the
      creation, gated by the admin token and the don't-reply list. */
  function CreateRung(t: Trace, srv: Server, cfg: Config, i: nat, a: Address): (s: Step<string>)
    requires ValidInstall(cfg, i)
    ensures |s.trace| <= |t| + 2 && UserCalls(t, s.trace, cfg, i, a)
    ensures !MayCreate(cfg, i, a.address) ==> s == Step(Ok(""), t)
  {
    if cfg.installs[i].adminToken == "" || NotToReplyTo(cfg, a.address) then Step(Ok(""), t)
    else CreateAndFind(t, srv, i, a)
  }

  /** The lower-case search, then the creation. */
  function LowerRung(t: Trace, srv: Server, cfg: Config, i: nat, a: Address): (s: Step<string>)
    requires ValidInstall(cfg, i)
    ensures t < s.trace && |s.trace| <= |t| + 3 && UserCalls(t, s.trace, cfg, i, a)
    ensures s.trace[|t|] == UserSearch(i, Lower(a.address))
  {
    var lower := Lookup(t, srv, i, Lower(a.address), a.name);
    if lower.res.Err? || lower.res.value != "" then lower
    else CreateRung(lower.trace, srv, cfg, i, a)
  }

  /** createAndGetJiraUsername: look the address up as it is, then
      lower-cased; failing both, create a customer when the installation
      has an admin token and the address may be answered. Only searches and
      the customer creation go out, and the creation only when allowed. */
  function ResolveUser(t: Trace, srv: Server, cfg: Config, i: nat, a: Address): (s: Step<string>)
    requires ValidInstall(cfg, i)
    ensures t < s.trace && |s.trace| <= |t| + 4 && UserCalls(t, s.trace, cfg, i, a)
    ensures s.trace[|t|] == UserSearch(i, a.address)
  {
    var exact := Lookup(t, srv, i, a.address, a.name);
    if exact.res.Err? || exact.res.value != "" then exact
    else LowerRung(exact.trace, srv, cfg, i, a)
  }

  /** The calls of user resolution are no actions. */
  lemma UserCallsQuiet(t: Trace, trace: Trace, cfg: Config, i: nat, a: Address)
    requires UserCalls(t, trace, cfg, i, a)
    ensures Quiet(t, trace)
  {
  }

  /** A user found by the exact search is the answer, after one call. */
  lemma ResolveExactHit(t: Trace, srv: Server, cfg: Config, i: nat, a: Address)
    requires ValidInstall(cfg, i)
    requires GetJiraUsername(t, srv, i, a.address, a.name).res.Ok?
    requires GetJiraUsername(t, srv, i, a.address, a.name).res.value != ""
    ensures ResolveUser(t, srv, cfg, i, a) == GetJiraUsername(t, srv, i, a.address, a.name)
  {
  }

  /** A failing exact search is the answer. */
  lemma ResolveSearchError(t: Trace, srv: Server, cfg: Config, i: nat, a: Address)
    requires ValidInstall(cfg, i)
    requires GetJiraUsername(t, srv, i, a.address, a.name).res.Err?
    ensures ResolveUser(t, srv, cfg, i, a) == GetJiraUsername(t, srv, i, a.address, a.name)
  {
  }

  /** Where no customer may be created, an address Jira does not know
      resolves to no user, after the two searches. */
  lemma ResolveUnknownWithoutCreation(t: Trace, srv: Server, cfg: Config, i: nat, a: Address)
    requires ValidInstall(cfg, i) && !MayCreate(cfg, i, a.address)
    requires GetJiraUsername(t, srv, i, a.address, a.name).res == Ok("")
    requires GetJiraUsername(t + [UserSearch(i, a.address)], srv, i, Lower(a.address), a.name).res == Ok("")
    ensures ResolveUser(t, srv, cfg, i, a)
         == Step(Ok(""), t + [UserSearch(i, a.address), UserSearch(i, Lower(a.address))])
  {
  }

  /** When the exact search finds nothing, the lower-cased search answers
      unless it too finds nothing. */
  lemma ResolveLowerHit(t: Trace, srv: Server, cfg: Config, i: nat, a: Address)
    requires ValidInstall(cfg, i)
    requires GetJiraUsername(t, srv, i, a.address, a.name).res == Ok("")
    requires var lower := GetJiraUsername(t + [UserSearch(i, a.address)], srv, i, Lower(a.address), a.name);
             lower.res.Err? || lower.res.value != ""
    ensures ResolveUser(t, srv, cfg, i, a)
         == GetJiraUsername(t + [UserSearch(i, a.address)], srv, i, Lower(a.address), a.name)
  {
  }

  /** Where a customer may be created and both searches find nothing, the
      customer is created and, once Jira acks the creation, searched for
      again: that search's user is the answer, and finding nobody is the
      error NotFoundAfterCreate. */
  lemma ResolveCreated(t: Trace, srv: Server, cfg: Config, i: nat, a: Address)
    requires ValidInstall(cfg, i) && MayCreate(cfg, i, a.address)
    requires GetJiraUsername(t, srv, i, a.address, a.name).res == Ok("")
    requires GetJiraUsername(t + [UserSearch(i, a.address)], srv, i, Lower(a.address), a.name).res == Ok("")
    requires var t2 := t + [UserSearch(i, a.address), UserSearch(i, Lower(a.address))];
             srv.ack(t2, CustomerCreate(i, a.address, CustomerName(a.address, a.name))).Ok?
    ensures var t3 := t + [UserSearch(i, a.address), UserSearch(i, Lower(a.address)),
                           CustomerCreate(i, a.address, CustomerName(a.address, a.name))];
            var again := GetJiraUsername(t3, srv, i, a.address, a.name);
            var s := ResolveUser(t, srv, cfg, i, a);
            && s.trace == t3 + [UserSearch(i, a.address)]
            && (again.res == Ok("") ==> s.res == Err(NotFoundAfterCreate))
            && (again.res != Ok("") ==> s.res == again.res)
  {
    var t1 := t + [UserSearch(i, a.address)];
    var t2 := t1 + [UserSearch(i, Lower(a.address))];
    assert t2 == t + [UserSearch(i, a.address), UserSearch(i, Lower(a.address))];
    var created := CreateCustomer(t2, srv, i, a.address, a.name);
    var t3 := created.trace;
    assert t3 == t + [UserSearch(i, a.address), UserSearch(i, Lower(a.address)),
                      CustomerCreate(i, a.address, CustomerName(a.address, a.name))];
    assert ResolveUser(t, srv, cfg, i, a) == LowerRung(t1, srv, cfg, i, a);
    assert LowerRung(t1, srv, cfg, i, a) == CreateRung(t2, srv, cfg, i, a);
    assert CreateRung(t2, srv, cfg, i, a) == CreateAndFind(t2, srv, i, a);
    assert CreateAndFind(t2, srv, i, a) == Refind(t3, srv, i, a);
  }

  /** A creation Jira refuses is ignored: no user, and no further search. */
  lemma ResolveCreateFails(t: Trace, srv: Server, cfg: Config, i: nat, a: Address)
    requires ValidInstall(cfg, i) && MayCreate(cfg, i, a.address)
    requires GetJiraUsername(t, srv, i, a.address, a.name).res == Ok("")
    requires GetJiraUsername(t + [UserSearch(i, a.address)], srv, i, Lower(a.address), a.name).res == Ok("")
    requires var t2 := t + [UserSearch(i, a.address), UserSearch(i, Lower(a.address))];
             srv.ack(t2, CustomerCreate(i, a.address, CustomerName(a.address, a.name))).Err?
    ensures ResolveUser(t, srv, cfg, i, a)
         == Step(Ok(""), t + [UserSearch(i, a.address), UserSearch(i, Lower(a.address)),
                             CustomerCreate(i, a.address, CustomerName(a.address, a.name))])
  {
    var t1 := t + [UserSearch(i, a.address)];
    var t2 := t1 + [UserSearch(i, Lower(a.address))];
    assert t2 == t + [UserSearch(i, a.address), UserSearch(i, Lower(a.address))];
    assert t2 + [CustomerCreate(i, a.address, CustomerName(a.address, a.name))]
        == t + [UserSearch(i, a.address), UserSearch(i, Lower(a.address)),
                CustomerCreate(i, a.address, CustomerName(a.address, a.name))];
  }

  /** An address of one of the parser's own desks or installations. */
  predicate OwnAddress(cfg: Config, addr: string) {
    DeskFromMail(cfg, addr).Some? || InstallFromMail(cfg, addr).Some?
  }

  /** q is the address, as it is or lower-cased, of one of addrs that is
      not the parser's own. */
  predicate ForeignQuery(cfg: Config, addrs: seq<Address>, q: string) {
    exists a :: a in addrs && !OwnAddress(cfg, a.address) && (q == a.address || q == Lower(a.address))
  }

  /** Every call after `t` is one addAddresseesAsParticipants may make on
      installation i for issue key: a search for, or the allowed creation
      of, a customer for one of addrs that is not the parser's own, or the
      addition of a participant who is neither blank, the reporter nor the
      assignee. */
  predicate EnrolCalls(t: Trace, trace: Trace, cfg: Config, i: nat, key: string, addrs: seq<Address>,
                       reporter: string, assignee: string) {
    t <= trace &&
    forall k :: |t| <= k < |trace| ==>
      match trace[k]
      case UserSearch(j, q) => j == i && ForeignQuery(cfg, addrs, q)
      case CustomerCreate(j, email, _) => j == i && ForeignQuery(cfg, addrs, email) && MayCreate(cfg, i, email)
      case ParticipantAdd(j, issue, user) => j == i && issue == key && user != "" && user != reporter && user != assignee
      case _ => false
  }

  /** The calls of resolving a foreign address are enrolment calls. */
  lemma UserCallsEnrol(t: Trace, trace: Trace, cfg: Config, i: nat, key: string, a: Address,
                       reporter: string, assignee: string)
    requires UserCalls(t, trace, cfg, i, a) && !OwnAddress(cfg, a.address)
    ensures EnrolCalls(t, trace, cfg, i, key, [a], reporter, assignee)
    ensures Adds(trace, |t|) == 0
  {
    assert a in [a];
    UserCallsQuiet(t, trace, cfg, i, a);
    QuietAddsNone(t, trace);
  }

  /** The tail of one addressee: the user is added unless blank, the
      reporter or the assignee. */
  function AddUser(t: Trace, srv: Server, i: nat, key: string, user: string,
                   reporter: string, assignee: string): (s: Step<bool>)
    ensures user == "" || user == reporter || user == assignee ==> s == Step(Ok(false), t)
    ensures !(user == "" || user == reporter || user == assignee) ==>
              && s.trace == t + [ParticipantAdd(i, key, user)]
              && (s.res.Ok? <==> srv.ack(t, ParticipantAdd(i, key, user)).Ok?)
              && (s.res.Ok? ==> s.res.value)
  {
    if user == "" || user == reporter || user == assignee then Step(Ok(false), t)
    else
      var added := AddParticipant(t, srv, i, key, user);
      if added.res.Err? then Step(Err(added.res.msg), added.trace) else Step(Ok(true), added.trace)
  }

  /** What AddUser appends keeps the calls enrolment calls and counts
      one addition exactly when it reports one. */
  lemma AddUserEnrols(t: Trace, u: Trace, added: Step<bool>, cfg: Config, i: nat, key: string,
                      a: Address, user: string, reporter: string, assignee: string)
    requires EnrolCalls(t, u, cfg, i, key, [a], reporter, assignee) && Adds(u, |t|) == 0
    requires user == "" || user == reporter || user == assignee ==> added == Step(Ok(false), u)
    requires !(user == "" || user == reporter || user == assignee) ==>
               added.trace == u + [ParticipantAdd(i, key, user)] && (added.res.Ok? ==> added.res.value)
    ensures EnrolCalls(t, added.trace, cfg, i, key, [a], reporter, assignee)
    ensures Adds(added.trace, |t|) <= 1
    ensures added.res.Ok? ==> Adds(added.trace, |t|) == (if added.res.value then 1 else 0)
  {
    if added.trace != u {
      assert added.trace[..|added.trace| - 1] == u;
    }
  }

  /** One addressee of addAddresseesAsParticipants, below the cap: skipped
      when it is one of the parser's own addresses; otherwise resolved to a
      Jira user, who is added unless blank, the reporter or the assignee.
      The result says whether a participant was added. */
  function EnrolOne(t: Trace, srv: Server, cfg: Config, i: nat, key: string, a: Address,
                    reporter: string, assignee: string): (s: Step<bool>)
    requires ValidInstall(cfg, i)
    ensures EnrolCalls(t, s.trace, cfg, i, key, [a], reporter, assignee)
    ensures Adds(s.trace, |t|) <= 1
    ensures s.res.Ok? ==> Adds(s.trace, |t|) == (if s.res.value then 1 else 0)
    ensures OwnAddress(cfg, a.address) ==> s == Step(Ok(false), t)
  {
    if OwnAddress(cfg, a.address) then Step(Ok(false), t)
    else
      var user := ResolveUser(t, srv, cfg, i, a);
      UserCallsEnrol(t, user.trace, cfg, i, key, a, reporter, assignee);
      if user.res.Err? then Step(Err(user.res.msg), user.trace)
      else
        var added := AddUser(user.trace, srv, i, key, user.res.value, reporter, assignee);
        AddUserEnrols(t, user.trace, added, cfg, i, key, a, user.res.value, reporter, assignee);
        added
  }

  /** Enrolment calls for some addresses are enrolment calls for any list
      holding them. */
  lemma EnrolCallsWiden(t: Trace, u: Trace, cfg: Config, i: nat, key: string,
                        xs: seq<Address>, ys: seq<Address>, reporter: string, assignee: string)
    requires EnrolCalls(t, u, cfg, i, key, xs, reporter, assignee)
    requires forall a :: a in xs ==> a in ys
    ensures EnrolCalls(t, u, cfg, i, key, ys, reporter, assignee)
  {
    forall k | |t| <= k < |u|
      ensures match u[k]
              case UserSearch(j, q) => j == i && ForeignQuery(cfg, ys, q)
              case CustomerCreate(j, email, _) => j == i && ForeignQuery(cfg, ys, email) && MayCreate(cfg, i, email)
              case ParticipantAdd(j, issue, user) => j == i && issue == key && user != "" && user != reporter && user != assignee
              case _ => false
    {
    }
  }

  /** Two stretches of enrolment calls make one. */
  lemma EnrolCallsJoin(t: Trace, u: Trace, v: Trace, cfg: Config, i: nat, key: string,
                       addrs: seq<Address>, reporter: string, assignee: string)
    requires EnrolCalls(t, u, cfg, i, key, addrs, reporter, assignee)
    requires EnrolCalls(u, v, cfg, i, key, addrs, reporter, assignee)
    ensures EnrolCalls(t, v, cfg, i, key, addrs, reporter, assignee)
  {
    forall k | |t| <= k < |v|
      ensures match v[k]
              case UserSearch(j, q) => j == i && ForeignQuery(cfg, addrs, q)
              case CustomerCreate(j, email, _) => j == i && ForeignQuery(cfg, addrs, email) && MayCreate(cfg, i, email)
              case ParticipantAdd(j, issue, user) => j == i && issue == key && user != "" && user != reporter && user != assignee
              case _ => false
    {
      if k < |u| {
        assert v[k] == u[k];
      }
    }
  }

  /** The larger of the count so far and the cap. */
  function CapFrom(added: nat, cap: nat): nat {
    if added < cap then cap else added
  }

  /** addAddresseesAsParticipants from the point where `added` participants
      were added: stop at the configured cap, otherwise enrol the next
      addressee; the first failure ends it. Every call is an enrolment call,
      and no addition goes beyond the cap. */
  function Enrol(t: Trace, srv: Server, cfg: Config, i: nat, key: string, addrs: seq<Address>,
                 reporter: string, assignee: string, added: nat): (s: Step<nat>)
    requires ValidInstall(cfg, i)
    ensures EnrolCalls(t, s.trace, cfg, i, key, addrs, reporter, assignee)
    ensures added + Adds(s.trace, |t|) <= CapFrom(added, cfg.maxParticipants)
    ensures s.res.Ok? ==> s.res.value == added + Adds(s.trace, |t|)
    decreases |addrs|
  {
    if addrs == [] || added >= cfg.maxParticipants then Step(Ok(added), t)
    else
      var one := EnrolOne(t, srv, cfg, i, key, addrs[0], reporter, assignee);
      EnrolCallsWiden(t, one.trace, cfg, i, key, [addrs[0]], addrs, reporter, assignee);
      if one.res.Err? then Step(Err(one.res.msg), one.trace)
      else
        var next := if one.res.value then added + 1 else added;
        var rest := Enrol(one.trace, srv, cfg, i, key, addrs[1..], reporter, assignee, next);
        EnrolCallsWiden(one.trace, rest.trace, cfg, i, key, addrs[1..], addrs, reporter, assignee);
        EnrolCallsJoin(t, one.trace, rest.trace, cfg, i, key, addrs, reporter, assignee);
        AddsSplit(t, one.trace, rest.trace);
        rest
  }

  /** Addressees that are all the parser's own cause no call at all. */
  lemma {:induction false} EnrolOwnOnly(t: Trace, srv: Server, cfg: Config, i: nat, key: string,
                                        addrs: seq<Address>, reporter: string, assignee: string, added: nat)
    requires ValidInstall(cfg, i)
    requires forall m :: 0 <= m < |addrs| ==> OwnAddress(cfg, addrs[m].address)
    ensures Enrol(t, srv, cfg, i, key, addrs, reporter, assignee, added) == Step(Ok(added), t)
    decreases |addrs|
  {
    if addrs != [] && added < cfg.maxParticipants {
      EnrolOwnOnly(t, srv, cfg, i, key, addrs[1..], reporter, assignee, added);
    }
  }

  /** Enrolment goes through the addressees in order: below the cap, when
      the first m are the parser's own and the next is not, the first call
      is the search for that one. */
  lemma {:induction false} EnrolFirstCall(t: Trace, srv: Server, cfg: Config, i: nat, key: string,
                                          addrs: seq<Address>, reporter: string, assignee: string,
                                          added: nat, m: nat)
    requires ValidInstall(cfg, i) && added < cfg.maxParticipants
    requires m < |addrs| && !OwnAddress(cfg, addrs[m].address)
    requires forall n :: 0 <= n < m ==> OwnAddress(cfg, addrs[n].address)
    ensures var s := Enrol(t, srv, cfg, i, key, addrs, reporter, assignee, added);
            t < s.trace && s.trace[|t|] == UserSearch(i, addrs[m].address)
    decreases m
  {
    if m > 0 {
      EnrolFirstCall(t, srv, cfg, i, key, addrs[1..], reporter, assignee, added, m - 1);
    } else {
      var one := EnrolOne(t, srv, cfg, i, key, addrs[0], reporter, assignee);
      assert one.trace[|t|] == UserSearch(i, addrs[0].address);
    }
  }

  /** Enrolment from t fails at addressee m: the calls before it, ending at
      u, concern the first m addressees only, and s is addressee m's
      failure, with no call after it. */
  predicate FailsAt<T>(t: Trace, srv: Server, cfg: Config, i: nat, key: string, addrs: seq<Address>,
                       reporter: string, assignee: string, m: nat, u: Trace, s: Step<T>)
    requires ValidInstall(cfg, i)
  {
    && m < |addrs| && EnrolCalls(t, u, cfg, i, key, addrs[..m], reporter, assignee)
    && var one := EnrolOne(u, srv, cfg, i, key, addrs[m], reporter, assignee);
       && one.res.Err? && s.res == Err(one.res.msg) && s.trace == one.trace
  }

  /** One round of Enrol below the cap: the first addressee's failure is
      the answer, otherwise the rest follows from the new count. */
  lemma EnrolUnfold(t: Trace, srv: Server, cfg: Config, i: nat, key: string, addrs: seq<Address>,
                    reporter: string, assignee: string, added: nat)
    requires ValidInstall(cfg, i) && addrs != [] && added < cfg.maxParticipants
    ensures var one := EnrolOne(t, srv, cfg, i, key, addrs[0], reporter, assignee);
            var s := Enrol(t, srv, cfg, i, key, addrs, reporter, assignee, added);
            && (one.res.Err? ==> s.res == Err(one.res.msg) && s.trace == one.trace)
            && (one.res.Ok? ==>
                  s == Enrol(one.trace, srv, cfg, i, key, addrs[1..], reporter, assignee,
                             if one.res.value then added + 1 else added))
  {
  }

  /** A failure in the tail, after the first addressee's calls, is a
      failure of the whole list one place later. */
  lemma FailsAtCons<T>(t: Trace, v: Trace, srv: Server, cfg: Config, i: nat, key: string, addrs: seq<Address>,
                       reporter: string, assignee: string, m: nat, u: Trace, s: Step<T>)
    requires ValidInstall(cfg, i) && addrs != []
    requires EnrolCalls(t, v, cfg, i, key, [addrs[0]], reporter, assignee)
    requires FailsAt(v, srv, cfg, i, key, addrs[1..], reporter, assignee, m, u, s)
    ensures FailsAt(t, srv, cfg, i, key, addrs, reporter, assignee, m + 1, u, s)
  {
    var front := addrs[..m + 1];
    assert addrs[1..][..m] == front[1..];
    EnrolCallsWiden(t, v, cfg, i, key, [addrs[0]], front, reporter, assignee);
    EnrolCallsWiden(v, u, cfg, i, key, front[1..], front, reporter, assignee);
    EnrolCallsJoin(t, v, u, cfg, i, key, front, reporter, assignee);
    assert addrs[m + 1] == addrs[1..][m];
  }

  /** The first failing resolution or addition ends enrolment: no
      addressee after the failing one is looked up or added. */
  lemma {:induction false} EnrolStopsAtFailure(t: Trace, srv: Server, cfg: Config, i: nat, key: string,
                                               addrs: seq<Address>, reporter: string, assignee: string, added: nat)
    requires ValidInstall(cfg, i)
    requires Enrol(t, srv, cfg, i, key, addrs, reporter, assignee, added).res.Err?
    ensures exists m: nat, u :: FailsAt(t, srv, cfg, i, key, addrs, reporter, assignee, m, u,
                                        Enrol(t, srv, cfg, i, key, addrs, reporter, assignee, added))
    decreases |addrs|
  {
    var s := Enrol(t, srv, cfg, i, key, addrs, reporter, assignee, added);
    assert addrs != [] && added < cfg.maxParticipants;
    var one := EnrolOne(t, srv, cfg, i, key, addrs[0], reporter, assignee);
    EnrolUnfold(t, srv, cfg, i, key, addrs, reporter, assignee, added);
    if one.res.Err? {
      assert addrs[..0] == [];
      assert FailsAt(t, srv, cfg, i, key, addrs, reporter, assignee, 0, t, s);
    } else {
      var next := if one.res.value then added + 1 else added;
      EnrolStopsAtFailure(one.trace, srv, cfg, i, key, addrs[1..], reporter, assignee, next);
      var m: nat, u :| FailsAt(one.trace, srv, cfg, i, key, addrs[1..], reporter, assignee, m, u, s);
      FailsAtCons(t, one.trace, srv, cfg, i, key, addrs, reporter, assignee, m, u, s);
    }
  }

  /** The users enrolment adds when each addressee a resolves to users(a)
      and nothing fails, in addressee order and before the cap cuts the
      list: foreign addressees whose user is neither blank, the reporter nor
      the assignee. */
  function Eligible(cfg: Config, addrs: seq<Address>, users: Address -> string,
                    reporter: string, assignee: string): (r: seq<string>)
    ensures |r| <= |addrs|
    decreases |addrs|
  {
    if addrs == [] then []
    else
      var u := users(addrs[0]);
      var rest := Eligible(cfg, addrs[1..], users, reporter, assignee);
      if OwnAddress(cfg, addrs[0].address) || u == "" || u == reporter || u == assignee then rest
      else [u] + rest
  }

  /** Jira answers enrolment without failing: whatever happened before,
      every foreign addressee a resolves to users(a), and every addition on
      the issue is accepted. */
  ghost predicate Cooperative(srv: Server, cfg: Config, i: nat, key: string, addrs: seq<Address>, users: Address -> string) {
    && ValidInstall(cfg, i)
    && (forall u: Trace, a :: a in addrs && !OwnAddress(cfg, a.address) ==> ResolveUser(u, srv, cfg, i, a).res == Ok(users(a)))
    && (forall u: Trace, name :: srv.ack(u, ParticipantAdd(i, key, name)).Ok?)
  }

  /** How many more participants fit under the cap when `avail` are
      eligible and `added` were added already. */
  function Room(added: nat, cap: nat, avail: nat): nat {
    if added >= cap then 0 else Min(cap - added, avail)
  }

  /** EnrolOne on a foreign addressee: its resolution, then AddUser. */
  lemma EnrolOneForeign(t: Trace, srv: Server, cfg: Config, i: nat, key: string, a: Address,
                        reporter: string, assignee: string)
    requires ValidInstall(cfg, i) && !OwnAddress(cfg, a.address)
    ensures var user := ResolveUser(t, srv, cfg, i, a);
            user.res.Ok? ==>
              EnrolOne(t, srv, cfg, i, key, a, reporter, assignee)
              == AddUser(user.trace, srv, i, key, user.res.value, reporter, assignee)
  {
  }

  /** What AddUser adds, after a stretch that adds nobody. */
  lemma AddUserAdded(t: Trace, u: Trace, srv: Server, i: nat, key: string, user: string,
                     reporter: string, assignee: string)
    requires NoneAdded(t, u) && srv.ack(u, ParticipantAdd(i, key, user)).Ok?
    ensures var s := AddUser(u, srv, i, key, user, reporter, assignee);
            var eligible := !(user == "" || user == reporter || user == assignee);
            && t <= s.trace && s.res == Ok(eligible)
            && AddedUsers(s.trace[|t|..]) == if eligible then [user] else []
  {
    NoneAddedNoUsers(t, u);
    var s := AddUser(u, srv, i, key, user, reporter, assignee);
    if !(user == "" || user == reporter || user == assignee) {
      var c := ParticipantAdd(i, key, user);
      assert s.trace[|t|..] == u[|t|..] + [c];
      AddedUsersJoin(u[|t|..], [c]);
      assert [c][1..] == [];
    }
  }

  /** One addressee Jira cooperates on: it is added exactly when it is
      eligible. */
  lemma EnrolOneCooperative(t: Trace, srv: Server, cfg: Config, i: nat, key: string, a: Address,
                            reporter: string, assignee: string, users: Address -> string)
    requires Cooperative(srv, cfg, i, key, [a], users)
    ensures var one := EnrolOne(t, srv, cfg, i, key, a, reporter, assignee);
            && t <= one.trace
            && one.res == Ok(Eligible(cfg, [a], users, reporter, assignee) != [])
            && AddedUsers(one.trace[|t|..]) == Eligible(cfg, [a], users, reporter, assignee)
  {
    assert [a][1..] == [];
    if OwnAddress(cfg, a.address) {
      assert EnrolOne(t, srv, cfg, i, key, a, reporter, assignee).trace[|t|..] == [];
    } else {
      assert a in [a];
      var user := ResolveUser(t, srv, cfg, i, a);
      assert user.res == Ok(users(a));
      UserCallsQuiet(t, user.trace, cfg, i, a);
      assert NoneAdded(t, user.trace);
      EnrolOneForeign(t, srv, cfg, i, key, a, reporter, assignee);
      AddUserAdded(t, user.trace, srv, i, key, users(a), reporter, assignee);
    }
  }

  /** Cooperation on a list covers its tail. */
  lemma CooperativeTail(srv: Server, cfg: Config, i: nat, key: string, addrs: seq<Address>, users: Address -> string)
    requires addrs != [] && Cooperative(srv, cfg, i, key, addrs, users)
    ensures Cooperative(srv, cfg, i, key, [addrs[0]], users)
    ensures Cooperative(srv, cfg, i, key, addrs[1..], users)
  {
    forall a | a in addrs[1..]
      ensures a in addrs
    {
    }
  }

  /** The inductive step of EnrolAddsEligible: the first addressee's
      outcome, then the rest's, make the outcome of the whole list. */
  lemma EligibleStep(t: Trace, one: Step<bool>, s: Step<nat>, first: seq<string>, rest: seq<string>,
                     added: nat, next: nat, cap: nat)
    requires added < cap && |first| <= 1 && next == added + |first|
    requires t <= one.trace && one.res == Ok(first != []) && AddedUsers(one.trace[|t|..]) == first
    requires AddsEligible(one.trace, s, rest, next, cap)
    ensures AddsEligible(t, s, first + rest, added, cap)
  {
    var n := Room(next, cap, |rest|);
    assert (first + rest)[..|first| + n] == first + rest[..n];
    AddedUsersSplit(t, one.trace, s.trace);
  }

  /** The eligible users of a list: its first addressee's, then the rest's. */
  lemma EligibleCons(cfg: Config, addrs: seq<Address>, users: Address -> string, reporter: string, assignee: string)
    requires addrs != []
    ensures Eligible(cfg, addrs, users, reporter, assignee)
         == Eligible(cfg, [addrs[0]], users, reporter, assignee) + Eligible(cfg, addrs[1..], users, reporter, assignee)
  {
    assert [addrs[0]][1..] == [];
  }

  /** What EnrolAddsEligible states of one enrolment from t. */
  predicate AddsEligible(t: Trace, s: Step<nat>, e: seq<string>, added: nat, cap: nat) {
    var n := Room(added, cap, |e|);
    s.res == Ok(added + n) && t <= s.trace && AddedUsers(s.trace[|t|..]) == e[..n]
  }

  /** One round of EnrolAddsEligible: from the rest's outcome to the whole
      list's. */
  lemma EnrolAddsEligibleStep(t: Trace, srv: Server, cfg: Config, i: nat, key: string,
                              addrs: seq<Address>, reporter: string, assignee: string,
                              added: nat, users: Address -> string)
    requires Cooperative(srv, cfg, i, key, addrs, users)
    requires addrs != [] && added < cfg.maxParticipants
    requires var one := EnrolOne(t, srv, cfg, i, key, addrs[0], reporter, assignee);
             one.res.Ok? ==>
               var next := if one.res.value then added + 1 else added;
               AddsEligible(one.trace, Enrol(one.trace, srv, cfg, i, key, addrs[1..], reporter, assignee, next),
                            Eligible(cfg, addrs[1..], users, reporter, assignee), next, cfg.maxParticipants)
    ensures AddsEligible(t, Enrol(t, srv, cfg, i, key, addrs, reporter, assignee, added),
                         Eligible(cfg, addrs, users, reporter, assignee), added, cfg.maxParticipants)
  {
    var one := EnrolOne(t, srv, cfg, i, key, addrs[0], reporter, assignee);
    CooperativeTail(srv, cfg, i, key, addrs, users);
    EnrolOneCooperative(t, srv, cfg, i, key, addrs[0], reporter, assignee, users);
    var first := Eligible(cfg, [addrs[0]], users, reporter, assignee);
    var rest := Eligible(cfg, addrs[1..], users, reporter, assignee);
    EligibleCons(cfg, addrs, users, reporter, assignee);
    EnrolUnfold(t, srv, cfg, i, key, addrs, reporter, assignee, added);
    var next := if one.res.value then added + 1 else added;
    assert next == added + |first|;
    var s := Enrol(one.trace, srv, cfg, i, key, addrs[1..], reporter, assignee, next);
    EligibleStep(t, one, s, first, rest, added, next, cfg.maxParticipants);
  }

  /** When Jira cooperates, enrolment succeeds and adds the eligible users
      in addressee order, as many as fit under the cap. */
  lemma {:induction false} EnrolAddsEligible(t: Trace, srv: Server, cfg: Config, i: nat, key: string,
                                             addrs: seq<Address>, reporter: string, assignee: string,
                                             added: nat, users: Address -> string)
    requires Cooperative(srv, cfg, i, key, addrs, users)
    ensures AddsEligible(t, Enrol(t, srv, cfg, i, key, addrs, reporter, assignee, added),
                         Eligible(cfg, addrs, users, reporter, assignee), added, cfg.maxParticipants)
    decreases |addrs|
  {
    if addrs == [] || added >= cfg.maxParticipants {
      assert Enrol(t, srv, cfg, i, key, addrs, reporter, assignee, added).trace[|t|..] == [];
    } else {
      var one := EnrolOne(t, srv, cfg, i, key, addrs[0], reporter, assignee);
      CooperativeTail(srv, cfg, i, key, addrs, users);
      EnrolOneCooperative(t, srv, cfg, i, key, addrs[0], reporter, assignee, users);
      var next := if one.res.value then added + 1 else added;
      EnrolAddsEligible(one.trace, srv, cfg, i, key, addrs[1..], reporter, assignee, next, users);
      EnrolAddsEligibleStep(t, srv, cfg, i, key, addrs, reporter, assignee, added, users);
    }
  }

  /** The addressees enrolment considers: Cc, then To, then Bcc. */
  function EnrolOrder(e: Email): seq<Address> {
    e.cc + e.to + e.bcc
  }

  /** addAddresseesAsParticipants: enrolment of the addressees, counting
      from zero; at most the configured number of participants is added. */
  function AddAddressees(t: Trace, srv: Server, cfg: Config, i: nat, key: string, e: Email,
                         reporter: string, assignee: string): (s: Step<()>)
    requires ValidInstall(cfg, i)
    ensures EnrolCalls(t, s.trace, cfg, i, key, EnrolOrder(e), reporter, assignee)
    ensures Adds(s.trace, |t|) <= cfg.maxParticipants
  {
    var r := Enrol(t, srv, cfg, i, key, EnrolOrder(e), reporter, assignee, 0);
    if r.res.Err? then Step(Err(r.res.msg), r.trace) else Step(Ok(()), r.trace)
  }

  /** addAddresseesAsParticipants when Jira cooperates: it succeeds and
      adds the eligible users of Cc, To and Bcc, in that order, up to the
      cap. */
  lemma AddresseesCooperative(t: Trace, srv: Server, cfg: Config, i: nat, key: string, e: Email,
                              reporter: string, assignee: string, users: Address -> string)
    requires Cooperative(srv, cfg, i, key, EnrolOrder(e), users)
    ensures var s := AddAddressees(t, srv, cfg, i, key, e, reporter, assignee);
            var plan := Eligible(cfg, EnrolOrder(e), users, reporter, assignee);
            && s.res.Ok? && t <= s.trace
            && AddedUsers(s.trace[|t|..]) == plan[..Min(cfg.maxParticipants, |plan|)]
  {
    EnrolAddsEligible(t, srv, cfg, i, key, EnrolOrder(e), reporter, assignee, 0, users);
  }

  /** addAddresseesAsParticipants returns the first failure, after which
      no addressee is looked up or added. */
  lemma AddresseesStopAtFailure(t: Trace, srv: Server, cfg: Config, i: nat, key: string, e: Email,
                                reporter: string, assignee: string)
    requires ValidInstall(cfg, i)
    ensures var s := AddAddressees(t, srv, cfg, i, key, e, reporter, assignee);
            s.res.Err? ==> exists m: nat, u :: FailsAt(t, srv, cfg, i, key, EnrolOrder(e), reporter, assignee, m, u, s)
  {
    var s := AddAddressees(t, srv, cfg, i, key, e, reporter, assignee);
    if s.res.Err? {
      EnrolStopsAtFailure(t, srv, cfg, i, key, EnrolOrder(e), reporter, assignee, 0);
      var r := Enrol(t, srv, cfg, i, key, EnrolOrder(e), reporter, assignee, 0);
      var m: nat, u :| FailsAt(t, srv, cfg, i, key, EnrolOrder(e), reporter, assignee, m, u, r);
      assert FailsAt(t, srv, cfg, i, key, EnrolOrder(e), reporter, assignee, m, u, s);
    }
  }

  /** Enrolment starts with Cc: below the cap, the first call is the
      search for the first Cc address when that one is not the parser's
      own. */
  lemma AddresseesStartWithCc(t: Trace, srv: Server, cfg: Config, i: nat, key: string, e: Email,
                              reporter: string, assignee: string)
    requires ValidInstall(cfg, i) && 0 < cfg.maxParticipants
    requires e.cc != [] && !OwnAddress(cfg, e.cc[0].address)
    ensures var s := AddAddressees(t, srv, cfg, i, key, e, reporter, assignee);
            t < s.trace && s.trace[|t|] == UserSearch(i, e.cc[0].address)
  {
    EnrolFirstCall(t, srv, cfg, i, key, EnrolOrder(e), reporter, assignee, 0, 0);
  }

  /** What a request or comment path may do on Jira: which installation
      and desk it works on, the issue it is about when that is known
      beforehand, the addressees it may look up, the users it must not
      add, whether it creates requests and uploads files, and the body of
      the one comment it may post. */
  datatype Policy = Policy(
    cfg: Config,
    install: nat,
    deskId: string,
    key: Option<string>,
    addrs: seq<Address>,
    reporter: string,
    assignee: string,
    creates: bool,
    uploads: bool,
    comment: Option<string>)

  predicate OnKey(p: Policy, key: string) {
    p.key.None? || p.key.value == key
  }

  /** One call a path under policy p may make. No path sends mail. */
  predicate Allowed(p: Policy, c: Call) {
    match c
    case UserSearch(j, q) => j == p.install && ForeignQuery(p.cfg, p.addrs, q)
    case CustomerCreate(j, email, _) =>
      j == p.install && ForeignQuery(p.cfg, p.addrs, email) && MayCreate(p.cfg, j, email)
    case IssueGet(j, key) => j == p.install && OnKey(p, key)
    case RequestGet(j, key) => j == p.install && OnKey(p, key)
    case RequestCreate(j, _, _, _, _, deskId) => p.creates && j == p.install && deskId == p.deskId
    case TempFileAttach(j, deskId, _, _) => p.uploads && j == p.install && deskId == p.deskId
    case CommentPost(j, key, body, _) => p.comment == Some(body) && j == p.install && OnKey(p, key)
    case ParticipantAdd(j, key, user) =>
      j == p.install && OnKey(p, key) && user != "" && user != p.reporter && user != p.assignee
    case MailSend(_, _, _, _) => false
  }

  /** `trace` extends `t` by allowed calls only. */
  predicate AllAllowed(p: Policy, t: Trace, trace: Trace) {
    t <= trace && forall k :: |t| <= k < |trace| ==> Allowed(p, trace[k])
  }

  lemma AllowedJoin(p: Policy, t: Trace, u: Trace, v: Trace)
    requires AllAllowed(p, t, u) && AllAllowed(p, u, v)
    ensures AllAllowed(p, t, v)
  {
    forall k | |t| <= k < |v|
      ensures Allowed(p, v[k])
    {
      if k < |u| {
        assert v[k] == u[k];
      }
    }
  }

  lemma EnrolAllowed(p: Policy, t: Trace, u: Trace, key: string)
    requires EnrolCalls(t, u, p.cfg, p.install, key, p.addrs, p.reporter, p.assignee) && OnKey(p, key)
    ensures AllAllowed(p, t, u)
  {
    forall k | |t| <= k < |u|
      ensures Allowed(p, u[k])
    {
    }
  }

  lemma CreateAllowed(p: Policy, t: Trace, srv: Server, summary: string, description: string,
                      reporter: string, requestTypeId: string, tryAnonymous: bool)
    requires p.creates
    ensures AllAllowed(p, t, CreateRequest(t, srv, p.install, summary, description, reporter,
                                           requestTypeId, p.deskId, tryAnonymous).trace)
    ensures NoneAdded(t, CreateRequest(t, srv, p.install, summary, description, reporter,
                                       requestTypeId, p.deskId, tryAnonymous).trace)
  {
    var s := CreateRequest(t, srv, p.install, summary, description, reporter, requestTypeId, p.deskId, tryAnonymous);
    forall k | |t| <= k < |s.trace|
      ensures Allowed(p, s.trace[k]) && !s.trace[k].ParticipantAdd?
    {
      assert s.trace[k].RequestCreate? && s.trace[k].install == p.install && s.trace[k].serviceDeskId == p.deskId;
    }
  }

  lemma FetchAllowed(p: Policy, t: Trace, srv: Server, key: string)
    requires OnKey(p, key)
    ensures AllAllowed(p, t, GetRequest(t, srv, p.install, key).trace)
    ensures NoneAdded(t, GetRequest(t, srv, p.install, key).trace)
  {
  }

  /** CreateComment under a policy that allows its uploads and its body. */
  lemma CommentAllowed(p: Policy, t: Trace, srv: Server, body: string, files: seq<File>, key: string)
    requires OnKey(p, key) && p.comment == Some(CapLength(body, 32767, true))
    requires files != [] ==> p.uploads
    ensures AllAllowed(p, t, CreateComment(t, srv, p.install, body, files, key, p.deskId).trace)
    ensures NoneAdded(t, CreateComment(t, srv, p.install, body, files, key, p.deskId).trace)
  {
    var uploads := AttachCalls(p.install, p.deskId, files);
    var s := CreateComment(t, srv, p.install, body, files, key, p.deskId);
    forall k | |t| <= k < |s.trace|
      ensures Allowed(p, s.trace[k]) && !s.trace[k].ParticipantAdd?
    {
      if k < |t| + |uploads| {
        assert s.trace[k] == uploads[k - |t|];
      }
    }
  }

  /** The body of the attachment comment of a new request. */
  const AttachmentBody: string := CapLength([], 32767, true)

  /** What creating a request from a mail to desk d may do: create on the
      desk, upload and comment only when the mail has files, and add
      addressees other than the reporter. The assignee of a request just
      created is "". */
  function EmailRequestPolicy(cfg: Config, d: DeskRef, reporter: string, e: Email): Policy
    requires ValidDesk(cfg, d)
  {
    Policy(cfg, d.install, DeskAt(cfg, d).id, None, EnrolOrder(e), reporter, "", true,
           e.files != [], if e.files != [] then Some(AttachmentBody) else None)
  }

  /** The attachments of a new request go up as a comment of their own;
      whether that works does not matter. */
  function AttachToNew(t: Trace, srv: Server, i: nat, deskId: string, key: string, files: seq<File>): (s: Step<()>)
    ensures files == [] ==> s.trace == t
    ensures files != [] ==> s.trace == CreateComment(t, srv, i, [], files, key, deskId).trace
    ensures s.res.Ok?
  {
    if files == [] then Step(Ok(()), t)
    else Step(Ok(()), CreateComment(t, srv, i, [], files, key, deskId).trace)
  }

  lemma AttachToNewAllowed(p: Policy, t: Trace, srv: Server, key: string, files: seq<File>)
    requires OnKey(p, key)
    requires files != [] ==> p.uploads && p.comment == Some(AttachmentBody)
    ensures AllAllowed(p, t, AttachToNew(t, srv, p.install, p.deskId, key, files).trace)
    ensures NoneAdded(t, AttachToNew(t, srv, p.install, p.deskId, key, files).trace)
  {
    if files != [] {
      CommentAllowed(p, t, srv, [], files, key);
    }
  }

  /** Everything after the creation of request `key` on the mail path. */
  function AfterCreate(t: Trace, srv: Server, cfg: Config, d: DeskRef, key: string, reporter: string,
                       e: Email): (s: Step<Option<Request>>)
    requires ValidDesk(cfg, d)
    ensures AllAllowed(EmailRequestPolicy(cfg, d, reporter, e), t, s.trace)
    ensures Adds(s.trace, |t|) <= cfg.maxParticipants
  {
    var p := EmailRequestPolicy(cfg, d, reporter, e);
    var attached := AttachToNew(t, srv, d.install, p.deskId, key, e.files);
    AttachToNewAllowed(p, t, srv, key, e.files);
    NoneAddedCountsNone(t, attached.trace);
    var enrolled := AddAddressees(attached.trace, srv, cfg, d.install, key, e, reporter, "");
    EnrolAllowed(p, attached.trace, enrolled.trace, key);
    AllowedJoin(p, t, attached.trace, enrolled.trace);
    AddsSplit(t, attached.trace, enrolled.trace);
    if enrolled.res.Err? then Step(Err(enrolled.res.msg), enrolled.trace)
    else
      var fetched := GetRequest(enrolled.trace, srv, d.install, key);
      FetchAllowed(p, enrolled.trace, srv, key);
      AllowedJoin(p, t, enrolled.trace, fetched.trace);
      NoneAddedCountsNone(enrolled.trace, fetched.trace);
      AddsSplit(t, enrolled.trace, fetched.trace);
      fetched
  }

  /** createRequestFromEmail for given texts: create the request on desk d,
      then attach, enrol and fetch. */
  function OpenRequest(t: Trace, srv: Server, cfg: Config, d: DeskRef, summary: string, description: string,
                       reporter: string, tryAnonymous: bool, e: Email): (s: Step<Option<Request>>)
    requires ValidDesk(cfg, d)
    ensures t < s.trace
    ensures s.trace[|t|] == RequestCreate(d.install, CapLength(summary, 255, false), CapLength(description, 32767, false),
                                          reporter, DeskAt(cfg, d).requestTypeId, DeskAt(cfg, d).id)
    ensures AllAllowed(EmailRequestPolicy(cfg, d, reporter, e), t, s.trace)
    ensures Adds(s.trace, |t|) <= cfg.maxParticipants
  {
    var srd := DeskAt(cfg, d);
    var p := EmailRequestPolicy(cfg, d, reporter, e);
    var created := CreateRequest(t, srv, d.install, summary, description, reporter, srd.requestTypeId, srd.id, tryAnonymous);
    CreateAllowed(p, t, srv, summary, description, reporter, srd.requestTypeId, tryAnonymous);
    NoneAddedCountsNone(t, created.trace);
    if created.res.Err? then Step(Err(created.res.msg), created.trace)
    else
      var rest := AfterCreate(created.trace, srv, cfg, d, created.res.value, reporter, e);
      AllowedJoin(p, t, created.trace, rest.trace);
      AddsSplit(t, created.trace, rest.trace);
      rest
  }

  /** createRequestFromEmail: the request goes to desk d with the summary
      and description built from the mail, the sender's user as reporter;
      then the attachments, the addressees and the new request's fetch.
      Its first call is the creation, it keeps to the policy above, and it
      adds at most the configured number of participants. */
  function RequestFromEmail(t: Trace, srv: Server, cfg: Config, d: DeskRef, reporter: string,
                            tryAnonymous: bool, e: Email): (s: Step<Option<Request>>)
    requires ValidDesk(cfg, d)
    ensures t < s.trace
    ensures var srd := DeskAt(cfg, d);
            s.trace[|t|] == RequestCreate(d.install, CapLength(CreateSummary(srd, e), 255, false),
                                          CapLength(CreateDescription(srd, e), 32767, false), reporter,
                                          srd.requestTypeId, srd.id)
    ensures AllAllowed(EmailRequestPolicy(cfg, d, reporter, e), t, s.trace)
    ensures Adds(s.trace, |t|) <= cfg.maxParticipants
  {
    OpenRequest(t, srv, cfg, d, CreateSummary(DeskAt(cfg, d), e), CreateDescription(DeskAt(cfg, d), e),
                reporter, tryAnonymous, e)
  }

  /** createRequestFromEmail step by step: a failed creation is the error
      and ends the path; otherwise the attachments go up whatever happens
      to them, the addressees are enrolled on the new key with no assignee,
      a failed enrolment is the error, and the result is the fetch of the
      new request. */
  lemma RequestFromEmailFlow(t: Trace, srv: Server, cfg: Config, d: DeskRef, reporter: string,
                             tryAnonymous: bool, e: Email)
    requires ValidDesk(cfg, d)
    ensures var srd := DeskAt(cfg, d);
            var created := CreateRequest(t, srv, d.install, CreateSummary(srd, e), CreateDescription(srd, e),
                                         reporter, srd.requestTypeId, srd.id, tryAnonymous);
            var s := RequestFromEmail(t, srv, cfg, d, reporter, tryAnonymous, e);
            && (created.res.Err? ==> s == Step(Err(created.res.msg), created.trace))
            && (created.res.Ok? ==>
                  var key := created.res.value;
                  var attached := AttachToNew(created.trace, srv, d.install, srd.id, key, e.files);
                  var enrolled := AddAddressees(attached.trace, srv, cfg, d.install, key, e, reporter, "");
                  && (enrolled.res.Err? ==> s == Step(Err(enrolled.res.msg), enrolled.trace))
                  && (enrolled.res.Ok? ==> s == GetRequest(enrolled.trace, srv, d.install, key)))
  {
  }

  /** The rest of createRequestFromEmail when Jira cooperates on the
      addressees of request key: it succeeds, and the participants it adds
      are the eligible addressees of Cc, To and Bcc, in that order, up to
      the cap. */
  lemma AfterCreateCooperative(t: Trace, srv: Server, cfg: Config, d: DeskRef, key: string, reporter: string,
                               e: Email, users: Address -> string)
    requires ValidDesk(cfg, d) && Cooperative(srv, cfg, d.install, key, EnrolOrder(e), users)
    ensures var s := AfterCreate(t, srv, cfg, d, key, reporter, e);
            var plan := Eligible(cfg, EnrolOrder(e), users, reporter, "");
            && s.res.Ok? && t <= s.trace
            && AddedUsers(s.trace[|t|..]) == plan[..Min(cfg.maxParticipants, |plan|)]
  {
    var p := EmailRequestPolicy(cfg, d, reporter, e);
    var plan := Eligible(cfg, EnrolOrder(e), users, reporter, "");
    var attached := AttachToNew(t, srv, d.install, p.deskId, key, e.files);
    var enrolled := AddAddressees(attached.trace, srv, cfg, d.install, key, e, reporter, "");
    assert AddedUsers(attached.trace[|t|..]) == [] && t <= attached.trace by {
      AttachToNewAllowed(p, t, srv, key, e.files);
      NoneAddedNoUsers(t, attached.trace);
    }
    assert enrolled.res.Ok? && attached.trace <= enrolled.trace
        && AddedUsers(enrolled.trace[|attached.trace|..]) == plan[..Min(cfg.maxParticipants, |plan|)] by {
      AddresseesCooperative(attached.trace, srv, cfg, d.install, key, e, reporter, "", users);
    }
    var s := GetRequest(enrolled.trace, srv, d.install, key);
    assert AfterCreate(t, srv, cfg, d, key, reporter, e) == s;
    assert AddedUsers(s.trace[|enrolled.trace|..]) == [] by {
      FetchAllowed(p, enrolled.trace, srv, key);
      NoneAddedNoUsers(enrolled.trace, s.trace);
    }
    var added := plan[..Min(cfg.maxParticipants, |plan|)];
    assert AddedUsers(enrolled.trace[|t|..]) == added by {
      AddedUsersSplit(t, attached.trace, enrolled.trace);
      assert [] + added == added;
    }
    assert AddedUsers(s.trace[|t|..]) == added by {
      AddedUsersSplit(t, enrolled.trace, s.trace);
      assert added + [] == added;
    }
  }

  /** OpenRequest once request key is created and Jira cooperates on its
      addressees: it succeeds, and the participants it adds are those of
      AfterCreateCooperative. */
  lemma OpenRequestCooperative(t: Trace, srv: Server, cfg: Config, d: DeskRef, summary: string, description: string,
                               reporter: string, tryAnonymous: bool, e: Email, key: string, users: Address -> string)
    requires ValidDesk(cfg, d)
    requires CreateRequest(t, srv, d.install, summary, description, reporter,
                           DeskAt(cfg, d).requestTypeId, DeskAt(cfg, d).id, tryAnonymous).res == Ok(key)
    requires Cooperative(srv, cfg, d.install, key, EnrolOrder(e), users)
    ensures var s := OpenRequest(t, srv, cfg, d, summary, description, reporter, tryAnonymous, e);
            var plan := Eligible(cfg, EnrolOrder(e), users, reporter, "");
            && s.res.Ok? && t <= s.trace
            && AddedUsers(s.trace[|t|..]) == plan[..Min(cfg.maxParticipants, |plan|)]
  {
    var srd := DeskAt(cfg, d);
    var p := EmailRequestPolicy(cfg, d, reporter, e);
    var created := CreateRequest(t, srv, d.install, summary, description, reporter, srd.requestTypeId, srd.id, tryAnonymous);
    var s := AfterCreate(created.trace, srv, cfg, d, key, reporter, e);
    assert OpenRequest(t, srv, cfg, d, summary, description, reporter, tryAnonymous, e) == s;
    var plan := Eligible(cfg, EnrolOrder(e), users, reporter, "");
    var added := plan[..Min(cfg.maxParticipants, |plan|)];
    assert AddedUsers(created.trace[|t|..]) == [] by {
      CreateAllowed(p, t, srv, summary, description, reporter, srd.requestTypeId, tryAnonymous);
      NoneAddedNoUsers(t, created.trace);
    }
    assert s.res.Ok? && created.trace <= s.trace && AddedUsers(s.trace[|created.trace|..]) == added by {
      AfterCreateCooperative(created.trace, srv, cfg, d, key, reporter, e, users);
    }
    assert AddedUsers(s.trace[|t|..]) == added by {
      AddedUsersSplit(t, created.trace, s.trace);
      assert [] + added == added;
    }
  }

  /** createRequestFromEmail once request key is created and Jira
      cooperates on its addressees: it succeeds, and the participants it
      adds are the eligible addressees of Cc, To and Bcc, in that order, up
      to the cap. */
  lemma RequestFromEmailCooperative(t: Trace, srv: Server, cfg: Config, d: DeskRef, reporter: string,
                                    tryAnonymous: bool, e: Email, key: string, users: Address -> string)
    requires ValidDesk(cfg, d)
    requires CreateRequest(t, srv, d.install, CreateSummary(DeskAt(cfg, d), e), CreateDescription(DeskAt(cfg, d), e),
                           reporter, DeskAt(cfg, d).requestTypeId, DeskAt(cfg, d).id, tryAnonymous).res == Ok(key)
    requires Cooperative(srv, cfg, d.install, key, EnrolOrder(e), users)
    ensures var s := RequestFromEmail(t, srv, cfg, d, reporter, tryAnonymous, e);
            var plan := Eligible(cfg, EnrolOrder(e), users, reporter, "");
            && s.res.Ok? && t <= s.trace
            && AddedUsers(s.trace[|t|..]) == plan[..Min(cfg.maxParticipants, |plan|)]
  {
    OpenRequestCooperative(t, srv, cfg, d, CreateSummary(DeskAt(cfg, d), e), CreateDescription(DeskAt(cfg, d), e),
                           reporter, tryAnonymous, e, key, users);
  }

  /** The desk that takes event requests, where there is one. */
  predicate HasEventSink(cfg: Config) {
    cfg.handleEventsDesk.Some? && ValidDesk(cfg, cfg.handleEventsDesk.value)
  }

  /** What creating an event request may do after the creation itself:
      upload and comment when there are files, fetch the request. It adds no
      one and creates nothing more. */
  function EventPolicy(cfg: Config, files: seq<File>): Policy
    requires HasEventSink(cfg)
  {
    var d := cfg.handleEventsDesk.value;
    Policy(cfg, d.install, DeskAt(cfg, d).id, None, [], cfg.handleEventsUsername, "", false,
           files != [], if files != [] then Some(AttachmentBody) else None)
  }

  /** Everything after the creation of event request `key`. */
  function EventAfterCreate(t: Trace, srv: Server, cfg: Config, key: string, files: seq<File>): (s: Step<Option<Request>>)
    requires HasEventSink(cfg)
    ensures AllAllowed(EventPolicy(cfg, files), t, s.trace)
    ensures Adds(s.trace, |t|) == 0
  {
    var p := EventPolicy(cfg, files);
    var attached := AttachToNew(t, srv, p.install, p.deskId, key, files);
    AttachToNewAllowed(p, t, srv, key, files);
    var fetched := GetRequest(attached.trace, srv, p.install, key);
    FetchAllowed(p, attached.trace, srv, key);
    AllowedJoin(p, t, attached.trace, fetched.trace);
    NoneAddedCountsNone(t, attached.trace);
    NoneAddedCountsNone(attached.trace, fetched.trace);
    AddsSplit(t, attached.trace, fetched.trace);
    fetched
  }

  /** createRequestFromEvent: one creation on the event desk, reported by
      the configured events user and never retried anonymously; then the
      files, and the fetch of the new request. */
  function RequestFromEvent(t: Trace, srv: Server, cfg: Config, summary: string, description: string,
                            files: seq<File>): (s: Step<Option<Request>>)
    requires HasEventSink(cfg)
    ensures t < s.trace
    ensures var d := cfg.handleEventsDesk.value;
            s.trace[|t|] == RequestCreate(d.install, CapLength(summary, 255, false), CapLength(description, 32767, false),
                                          cfg.handleEventsUsername, DeskAt(cfg, d).requestTypeId, DeskAt(cfg, d).id)
    ensures AllAllowed(EventPolicy(cfg, files), t + [s.trace[|t|]], s.trace)
    ensures Adds(s.trace, |t|) == 0
  {
    var d := cfg.handleEventsDesk.value;
    var srd := DeskAt(cfg, d);
    var created := CreateRequest(t, srv, d.install, summary, description, cfg.handleEventsUsername,
                                 srd.requestTypeId, srd.id, false);
    assert created.trace == t + [created.trace[|t|]];
    AddsOne(t, created.trace[|t|]);
    if created.res.Err? then Step(Err(created.res.msg), created.trace)
    else
      var rest := EventAfterCreate(created.trace, srv, cfg, created.res.value, files);
      AddsSplit(t, created.trace, rest.trace);
      rest
  }

  /** createRequestFromEvent step by step: a failed creation is the error
      and ends the path; otherwise the files go up whatever happens to them,
      and the result is the fetch of the new request. */
  lemma RequestFromEventFlow(t: Trace, srv: Server, cfg: Config, summary: string, description: string,
                             files: seq<File>)
    requires HasEventSink(cfg)
    ensures var d := cfg.handleEventsDesk.value;
            var srd := DeskAt(cfg, d);
            var created := CreateRequest(t, srv, d.install, summary, description, cfg.handleEventsUsername,
                                         srd.requestTypeId, srd.id, false);
            var s := RequestFromEvent(t, srv, cfg, summary, description, files);
            && (created.res.Err? ==> s == Step(Err(created.res.msg), created.trace))
            && (created.res.Ok? ==>
                  var attached := AttachToNew(created.trace, srv, d.install, srd.id, created.res.value, files);
                  s == GetRequest(attached.trace, srv, d.install, created.res.value))
  {
  }

  /** After its creation an event request creates nothing more and sends
      no mail. */
  lemma EventRestQuiet(cfg: Config, files: seq<File>, u: Trace, v: Trace)
    requires HasEventSink(cfg) && AllAllowed(EventPolicy(cfg, files), u, v)
    ensures forall k :: |u| <= k < |v| ==> !v[k].RequestCreate? && !v[k].MailSend?
  {
    forall k | |u| <= k < |v|
      ensures !v[k].RequestCreate? && !v[k].MailSend?
    {
      assert Allowed(EventPolicy(cfg, files), v[k]);
    }
  }

  /** What commenting on request req from a mail to desk d may do: upload
      the mail's files, post the description, and add the commenter and the
      addressees other than the request's reporter and assignee, all on the
      request's issue. */
  function CommentPolicy(cfg: Config, d: DeskRef, req: Request, body: string, e: Email): Policy
    requires ValidDesk(cfg, d)
  {
    Policy(cfg, d.install, DeskAt(cfg, d).id, Some(req.issueKey), EnrolOrder(e), req.reporter, req.assignee,
           false, e.files != [], Some(CapLength(body, 32767, true)))
  }

  lemma AddUserAllowed(p: Policy, t: Trace, srv: Server, key: string, user: string)
    requires OnKey(p, key)
    ensures AllAllowed(p, t, AddUser(t, srv, p.install, key, user, p.reporter, p.assignee).trace)
    ensures Adds(AddUser(t, srv, p.install, key, user, p.reporter, p.assignee).trace, |t|) <= 1
  {
    var s := AddUser(t, srv, p.install, key, user, p.reporter, p.assignee);
    if !(user == "" || user == p.reporter || user == p.assignee) {
      var c := ParticipantAdd(p.install, key, user);
      assert Allowed(p, c);
      assert s.trace == t + [c];
      AddsOne(t, c);
    }
  }

  /** The commenter, then the addressees, once the comment is up. */
  function AfterComment(t: Trace, srv: Server, cfg: Config, d: DeskRef, req: Request, commenter: string,
                        body: string, e: Email): (s: Step<()>)
    requires ValidDesk(cfg, d)
    ensures AllAllowed(CommentPolicy(cfg, d, req, body, e), t, s.trace)
    ensures Adds(s.trace, |t|) <= cfg.maxParticipants + 1
  {
    var p := CommentPolicy(cfg, d, req, body, e);
    var added := AddUser(t, srv, d.install, req.issueKey, commenter, req.reporter, req.assignee);
    AddUserAllowed(p, t, srv, req.issueKey, commenter);
    if added.res.Err? then Step(Err(added.res.msg), added.trace)
    else
      var enrolled := AddAddressees(added.trace, srv, cfg, d.install, req.issueKey, e, req.reporter, req.assignee);
      EnrolAllowed(p, added.trace, enrolled.trace, req.issueKey);
      AllowedJoin(p, t, added.trace, enrolled.trace);
      AddsSplit(t, added.trace, enrolled.trace);
      enrolled
  }

  /** createCommentFromEmail with a given comment text: the comment with
      the mail's files first, and only once it is up the commenter and the
      addressees. The commenter does not count toward the cap. */
  function CommentWith(t: Trace, srv: Server, cfg: Config, d: DeskRef, req: Request, commenter: string,
                       body: string, e: Email): (s: Step<()>)
    requires ValidDesk(cfg, d)
    ensures t < s.trace
    ensures s.trace[|t|] == if e.files == [] then CommentPost(d.install, req.issueKey, CapLength(body, 32767, true), [])
                            else AttachCall(d.install, DeskAt(cfg, d).id, e.files[0])
    ensures AllAllowed(CommentPolicy(cfg, d, req, body, e), t, s.trace)
    ensures Adds(s.trace, |t|) <= cfg.maxParticipants + 1
    ensures Adds(s.trace, |t|) > 0 ==>
              CreateComment(t, srv, d.install, body, e.files, req.issueKey, DeskAt(cfg, d).id).res.Ok?
  {
    var p := CommentPolicy(cfg, d, req, body, e);
    var posted := CreateComment(t, srv, d.install, body, e.files, req.issueKey, p.deskId);
    CommentAllowed(p, t, srv, body, e.files, req.issueKey);
    NoneAddedCountsNone(t, posted.trace);
    CommentFirstCall(t, srv, d.install, body, e.files, req.issueKey, p.deskId);
    if posted.res.Err? then Step(Err(posted.res.msg), posted.trace)
    else
      var rest := AfterComment(posted.trace, srv, cfg, d, req, commenter, body, e);
      AllowedJoin(p, t, posted.trace, rest.trace);
      AddsSplit(t, posted.trace, rest.trace);
      rest
  }

  /** The first call of CreateComment: the first upload, or the comment
      itself when there is nothing to upload. */
  lemma CommentFirstCall(t: Trace, srv: Server, i: nat, body: string, files: seq<File>, key: string, deskId: string)
    ensures var s := CreateComment(t, srv, i, body, files, key, deskId);
            s.trace[|t|] == if files == [] then CommentPost(i, key, CapLength(body, 32767, true), [])
                            else AttachCall(i, deskId, files[0])
  {
    var s := CreateComment(t, srv, i, body, files, key, deskId);
    var uploads := AttachCalls(i, deskId, files);
    if files != [] {
      assert s.trace[|t|] == uploads[0];
    } else {
      assert UploadAll(t, srv, uploads) == Step(Ok([]), t);
    }
  }

  /** createCommentFromEmail: comment on req with the mail's description. */
  function CommentFromEmail(t: Trace, srv: Server, cfg: Config, d: DeskRef, req: Request, commenter: string,
                            e: Email): (s: Step<()>)
    requires ValidDesk(cfg, d)
    ensures t < s.trace
    ensures var body := CreateDescription(DeskAt(cfg, d), e);
            s.trace[|t|] == if e.files == [] then CommentPost(d.install, req.issueKey, CapLength(body, 32767, true), [])
                            else AttachCall(d.install, DeskAt(cfg, d).id, e.files[0])
    ensures AllAllowed(CommentPolicy(cfg, d, req, CreateDescription(DeskAt(cfg, d), e), e), t, s.trace)
    ensures Adds(s.trace, |t|) <= cfg.maxParticipants + 1
  {
    CommentWith(t, srv, cfg, d, req, commenter, CreateDescription(DeskAt(cfg, d), e), e)
  }

  /** createCommentFromEmail step by step: a failed comment is the error
      and ends the path; otherwise the commenter is added, unless blank,
      the reporter or the assignee, a failed addition is the error, and
      then the addressees are enrolled. */
  lemma CommentFromEmailFlow(t: Trace, srv: Server, cfg: Config, d: DeskRef, req: Request, commenter: string,
                             e: Email)
    requires ValidDesk(cfg, d)
    ensures var posted := CreateComment(t, srv, d.install, CreateDescription(DeskAt(cfg, d), e), e.files,
                                        req.issueKey, DeskAt(cfg, d).id);
            var s := CommentFromEmail(t, srv, cfg, d, req, commenter, e);
            && (posted.res.Err? ==> s == Step(Err(posted.res.msg), posted.trace))
            && (posted.res.Ok? ==>
                  var added := AddUser(posted.trace, srv, d.install, req.issueKey, commenter, req.reporter, req.assignee);
                  && (added.res.Err? ==> s == Step(Err(added.res.msg), added.trace))
                  && (added.res.Ok? ==>
                        s == AddAddressees(added.trace, srv, cfg, d.install, req.issueKey, e, req.reporter, req.assignee)))
  {
  }

  /** CommentWith once the comment is up and Jira cooperates on the
      addressees of the request: it succeeds, and the participants it adds
      are the commenter, when eligible, then the eligible addressees of Cc,
      To and Bcc, in that order, up to the cap. */
  lemma CommentWithCooperative(t: Trace, srv: Server, cfg: Config, d: DeskRef, req: Request, commenter: string,
                               body: string, e: Email, users: Address -> string)
    requires ValidDesk(cfg, d)
    requires CreateComment(t, srv, d.install, body, e.files, req.issueKey, DeskAt(cfg, d).id).res.Ok?
    requires Cooperative(srv, cfg, d.install, req.issueKey, EnrolOrder(e), users)
    ensures var s := CommentWith(t, srv, cfg, d, req, commenter, body, e);
            var plan := Eligible(cfg, EnrolOrder(e), users, req.reporter, req.assignee);
            var first := if commenter == "" || commenter == req.reporter || commenter == req.assignee then []
                         else [commenter];
            && s.res.Ok? && t <= s.trace
            && AddedUsers(s.trace[|t|..]) == first + plan[..Min(cfg.maxParticipants, |plan|)]
  {
    var p := CommentPolicy(cfg, d, req, body, e);
    var posted := CreateComment(t, srv, d.install, body, e.files, req.issueKey, p.deskId);
    var added := AddUser(posted.trace, srv, d.install, req.issueKey, commenter, req.reporter, req.assignee);
    var s := AddAddressees(added.trace, srv, cfg, d.install, req.issueKey, e, req.reporter, req.assignee);
    var plan := Eligible(cfg, EnrolOrder(e), users, req.reporter, req.assignee);
    var first := if commenter == "" || commenter == req.reporter || commenter == req.assignee then [] else [commenter];
    var rest := plan[..Min(cfg.maxParticipants, |plan|)];
    assert NoneAdded(t, posted.trace) by {
      CommentAllowed(p, t, srv, body, e.files, req.issueKey);
    }
    assert added.res.Ok? && t <= added.trace && AddedUsers(added.trace[|t|..]) == first by {
      assert srv.ack(posted.trace, ParticipantAdd(d.install, req.issueKey, commenter)).Ok?;
      AddUserAdded(t, posted.trace, srv, d.install, req.issueKey, commenter, req.reporter, req.assignee);
    }
    assert s.res.Ok? && added.trace <= s.trace && AddedUsers(s.trace[|added.trace|..]) == rest by {
      AddresseesCooperative(added.trace, srv, cfg, d.install, req.issueKey, e, req.reporter, req.assignee, users);
    }
    assert CommentWith(t, srv, cfg, d, req, commenter, body, e) == s;
    AddedUsersSplit(t, added.trace, s.trace);
  }

  /** createCommentFromEmail once the comment is up and Jira cooperates on
      the addressees of the request: it succeeds, and the participants it
      adds are the commenter, when eligible, then the eligible addressees of
      Cc, To and Bcc, in that order, up to the cap. */
  lemma CommentFromEmailCooperative(t: Trace, srv: Server, cfg: Config, d: DeskRef, req: Request, commenter: string,
                                    e: Email, users: Address -> string)
    requires ValidDesk(cfg, d)
    requires CreateComment(t, srv, d.install, CreateDescription(DeskAt(cfg, d), e), e.files,
                           req.issueKey, DeskAt(cfg, d).id).res.Ok?
    requires Cooperative(srv, cfg, d.install, req.issueKey, EnrolOrder(e), users)
    ensures var s := CommentFromEmail(t, srv, cfg, d, req, commenter, e);
            var plan := Eligible(cfg, EnrolOrder(e), users, req.reporter, req.assignee);
            var first := if commenter == "" || commenter == req.reporter || commenter == req.assignee then []
                         else [commenter];
            && s.res.Ok? && t <= s.trace
            && AddedUsers(s.trace[|t|..]) == first + plan[..Min(cfg.maxParticipants, |plan|)]
  {
    CommentWithCooperative(t, srv, cfg, d, req, commenter, CreateDescription(DeskAt(cfg, d), e), e, users);
  }
}

=== FILE: events.dfy ===
/** Monitoring events posted to the parser (HandleEvent and getEvent in
    handler/handler.go): each event of a batch is classified by the first of
    four payload shapes it fits, and turned into a request on the one desk
    that takes event requests. */
module Events {
  import opened Wrappers
  import opened Text
  import opened Model
  import opened Effects
  import opened JiraActor
  import opened EmailToJira

  /** A file of a CVE scanner event: its name and base64 text. */
  datatype B64File = B64File(name: string, b64: string)

  /** One event after JSON decoding. `decodes` is false when the event is
      not a JSON object; a field the object lacks reads as "", as it does
      once decoded into a Go struct. */
  datatype Event = Event(
    raw: string,
    decodes: bool,
    email: string,       // "email"
    event: string,       // "event"
    summary: string,     // "summary"
    eventBody: string,   // "event_body"
    kind: string,        // "type"
    subject: string,     // "subject"
    body: string,        // "body"
    typeField: string,   // "type_field"
    files: seq<B64File>  // "files"
  )

  /** Standard base64 decoding, which may reject its input. */
  type Base64 = string -> Option<seq<Byte>>

  /** What an event becomes: the summary, description and attachments of
      its request. */
  datatype EventText = EventText(summary: string, description: string, files: seq<File>)

  datatype Shape = Sendgrid | GitHub | Cve | Sysdig | Unknown

  /** The summary every shape starts with; the unknown shape's is the whole
      summary. */
  function Label(s: Shape): string {
    match s
    case Sendgrid => "Sendgrid: "
    case GitHub => "GitHub Monitor: "
    case Cve => "Jira CVE: "
    case Sysdig => "Sysdig: "
    case Unknown => "Unknown Event Type"
  }

  /** A Sendgrid delivery event names an address and an event type. */
  function SendgridShape(ev: Event): (r: Option<EventText>)
    ensures r.Some? <==> ev.decodes && ev.email != "" && ev.event != ""
    ensures r.Some? ==> r.value == EventText(Label(Sendgrid) + ev.event + " " + ev.email, ev.raw, [])
  {
    if !ev.decodes || ev.email == "" || ev.event == "" then None
    else Some(EventText(Label(Sendgrid) + ev.event + " " + ev.email, ev.raw, []))
  }

  /** A GitHub monitor event has type "github_monitor" and a body. */
  function GitHubShape(ev: Event): (r: Option<EventText>)
    ensures r.Some? <==> ev.decodes && ev.kind == "github_monitor" && ev.eventBody != ""
    ensures r.Some? ==> r.value == EventText(Label(GitHub) + ev.summary, ev.eventBody, [])
  {
    if !ev.decodes || ev.kind != "github_monitor" || ev.eventBody == "" then None
    else Some(EventText(Label(GitHub) + ev.summary, ev.eventBody, []))
  }

  /** The files of a CVE event, each decoded; none at all as soon as one
      fails to decode. */
  function DecodeFiles(fs: seq<B64File>, decode: Base64): (r: Option<seq<File>>)
    ensures r.Some? <==> forall k :: 0 <= k < |fs| ==> decode(fs[k].b64).Some?
    ensures r.Some? ==> |r.value| == |fs|
    ensures r.Some? ==> forall k :: 0 <= k < |fs| ==>
                          r.value[k] == File(fs[k].name, decode(fs[k].b64).value)
  {
    if fs == [] then Some([])
    else
      match decode(fs[0].b64)
      case None => None
      case Some(bytes) =>
        var rest := DecodeFiles(fs[1..], decode);
        assert forall k :: 1 <= k < |fs| ==> fs[k] == fs[1..][k - 1];
        if rest.None? then None else Some([File(fs[0].name, bytes)] + rest.value)
  }

  /** A CVE scanner event has type_field "cve_scanner", a body, and files
      that all decode. */
  function CveShape(ev: Event, decode: Base64): (r: Option<EventText>)
    ensures r.Some? <==> && ev.decodes && ev.typeField == "cve_scanner" && ev.body != ""
                         && DecodeFiles(ev.files, decode).Some?
    ensures r.Some? ==> r.value.summary == Label(Cve) + ev.subject && r.value.description == ev.body
    ensures r.Some? ==> r.value.files == DecodeFiles(ev.files, decode).value
  {
    if !ev.decodes || ev.typeField != "cve_scanner" || ev.body == "" then None
    else
      match DecodeFiles(ev.files, decode)
      case None => None
      case Some(files) => Some(EventText(Label(Cve) + ev.subject, ev.body, files))
  }

  /** A Sysdig event only needs an event_body. */
  function SysdigShape(ev: Event): (r: Option<EventText>)
    ensures r.Some? <==> ev.decodes && ev.eventBody != ""
    ensures r.Some? ==> r.value == EventText(Label(Sysdig) + ev.summary, ev.eventBody, [])
  {
    if !ev.decodes || ev.eventBody == "" then None
    else Some(EventText(Label(Sysdig) + ev.summary, ev.eventBody, []))
  }

  /** The first shape the event fits, in the order getEvent tries them. */
  function Classify(ev: Event, decode: Base64): Shape {
    if SendgridShape(ev).Some? then Sendgrid
    else if GitHubShape(ev).Some? then GitHub
    else if CveShape(ev, decode).Some? then Cve
    else if SysdigShape(ev).Some? then Sysdig
    else Unknown
  }

  /** getEvent: the text of the first fitting shape, or "Unknown Event
      Type" with the raw event as description and no files. */
  function GetEvent(ev: Event, decode: Base64): (r: EventText)
    ensures Label(Classify(ev, decode)) <= r.summary
    ensures Classify(ev, decode) == Sendgrid ==> r == EventText(Label(Sendgrid) + ev.event + " " + ev.email, ev.raw, [])
    ensures Classify(ev, decode) == GitHub ==> r == EventText(Label(GitHub) + ev.summary, ev.eventBody, [])
    ensures Classify(ev, decode) == Cve ==>
              r == EventText(Label(Cve) + ev.subject, ev.body, DecodeFiles(ev.files, decode).value)
    ensures Classify(ev, decode) == Sysdig ==> r == EventText(Label(Sysdig) + ev.summary, ev.eventBody, [])
    ensures Classify(ev, decode) == Unknown ==> r == EventText(Label(Unknown), ev.raw, [])
    ensures Classify(ev, decode) !in {Sendgrid, Unknown} ==> r.description != ""
    ensures r.files != [] ==> Classify(ev, decode) == Cve
  {
    match Classify(ev, decode)
    case Sendgrid => SendgridShape(ev).value
    case GitHub => GitHubShape(ev).value
    case Cve => CveShape(ev, decode).value
    case Sysdig => SysdigShape(ev).value
    case Unknown => EventText(Label(Unknown), ev.raw, [])
  }

  /** The shape named by a summary's head: the inverse of GetEvent's choice. */
  function ShapeOfSummary(summary: string): Shape {
    if Label(Sendgrid) <= summary then Sendgrid
    else if Label(GitHub) <= summary then GitHub
    else if Label(Cve) <= summary then Cve
    else if Label(Sysdig) <= summary then Sysdig
    else Unknown
  }

  /** The summary of an event's request tells which shape it fitted: no
      label is the head of another. */
  lemma SummaryNamesShape(ev: Event, decode: Base64)
    ensures ShapeOfSummary(GetEvent(ev, decode).summary) == Classify(ev, decode)
  {
    var s := GetEvent(ev, decode).summary;
    assert Label(Classify(ev, decode)) <= s;
    match Classify(ev, decode)
    case Sendgrid =>
    case GitHub => assert s[0] == 'G';
    case Cve => assert s[0] == 'J';
    case Sysdig => assert s[0] == 'S' && s[1] == 'y';
    case Unknown => assert s[0] == 'U';
  }

  /** A GitHub monitor event also fits the Sysdig shape; only the order
      makes it a GitHub request. */
  lemma GitHubBeforeSysdig(ev: Event, decode: Base64)
    requires GitHubShape(ev).Some? && SendgridShape(ev).None?
    ensures SysdigShape(ev).Some?
    ensures Classify(ev, decode) == GitHub
  {
  }

  /** One CVE file that fails to decode rejects the CVE shape; the event
      then becomes a Sysdig request when it has an event_body, and an
      unknown one otherwise. */
  lemma BadCveFileFallsThrough(ev: Event, decode: Base64, k: nat)
    requires ev.decodes && ev.typeField == "cve_scanner" && ev.body != ""
    requires k < |ev.files| && decode(ev.files[k].b64).None?
    requires SendgridShape(ev).None? && GitHubShape(ev).None?
    ensures Classify(ev, decode) == (if ev.eventBody != "" then Sysdig else Unknown)
  {
  }

  /** The request texts of a batch, one per event, in order. */
  function Texts(evs: seq<Event>, decode: Base64): (r: seq<EventText>)
    ensures |r| == |evs|
    ensures forall k :: 0 <= k < |evs| ==> r[k] == GetEvent(evs[k], decode)
  {
    seq(|evs|, k requires 0 <= k < |evs| => GetEvent(evs[k], decode))
  }

  /** The RequestCreate call made for one event text. */
  function EventCreate(cfg: Config, text: EventText): Call
    requires HasEventSink(cfg)
  {
    var d := cfg.handleEventsDesk.value;
    RequestCreate(d.install, CapLength(text.summary, 255, false), CapLength(text.description, 32767, false),
                  cfg.handleEventsUsername, DeskAt(cfg, d).requestTypeId, DeskAt(cfg, d).id)
  }

  /** The creations a batch asks for, one per text, in order. */
  function Planned(cfg: Config, texts: seq<EventText>): (r: seq<Call>)
    requires HasEventSink(cfg)
    ensures |r| == |texts|
    ensures forall k :: 0 <= k < |texts| ==> r[k] == EventCreate(cfg, texts[k])
  {
    seq(|texts|, k requires 0 <= k < |texts| => EventCreate(cfg, texts[k]))
  }

  /** One event request: its creation and nothing else creating or
      sending mail. */
  lemma EventStretch(t: Trace, srv: Server, cfg: Config, text: EventText)
    requires HasEventSink(cfg)
    ensures var s := RequestFromEvent(t, srv, cfg, text.summary, text.description, text.files);
            && Creates(s.trace[|t|..]) == [EventCreate(cfg, text)]
            && NoMail(t, s.trace)
  {
    var s := RequestFromEvent(t, srv, cfg, text.summary, text.description, text.files);
    EventRestQuiet(cfg, text.files, t + [s.trace[|t|]], s.trace);
    SoleCreate(t, s.trace);
  }

  /** The loop of HandleEvent: one request per text, in order, stopping at
      the first creation that fails; earlier requests stay. */
  function CreateAll(t: Trace, srv: Server, cfg: Config, texts: seq<EventText>): (s: Step<()>)
    requires HasEventSink(cfg)
    ensures t <= s.trace
    ensures Creates(s.trace[|t|..]) <= Planned(cfg, texts)
    ensures s.res.Ok? ==> Creates(s.trace[|t|..]) == Planned(cfg, texts)
    ensures s.res.Err? ==> Creates(s.trace[|t|..]) != []
    ensures Adds(s.trace, |t|) == 0
    ensures NoMail(t, s.trace)
    decreases |texts|
  {
    if texts == [] then
      assert t[|t|..] == [];
      Step(Ok(()), t)
    else
      var text := texts[0];
      var one := RequestFromEvent(t, srv, cfg, text.summary, text.description, text.files);
      EventStretch(t, srv, cfg, text);
      if one.res.Err? then Step(Err(one.res.msg), one.trace)
      else
        var rest := CreateAll(one.trace, srv, cfg, texts[1..]);
        PlannedCons(cfg, texts);
        CreatesFollowPlan(t, one.trace, rest.trace, Planned(cfg, texts));
        AddsSplit(t, one.trace, rest.trace);
        NoMailJoin(t, one.trace, rest.trace);
        Step(rest.res, rest.trace)
  }

  lemma PlannedCons(cfg: Config, texts: seq<EventText>)
    requires HasEventSink(cfg) && texts != []
    ensures Planned(cfg, texts) == [EventCreate(cfg, texts[0])] + Planned(cfg, texts[1..])
  {
  }

  /** HandleEvent: a batch that does not decode fails before any call;
      otherwise its events become requests in order, up to the first
      creation that fails. */
  function HandleEvent(t: Trace, srv: Server, cfg: Config, decode: Base64, batch: Result<seq<Event>>): (s: Step<()>)
    requires HasEventSink(cfg)
    ensures t <= s.trace
    ensures batch.Err? ==> s == Step(Err(batch.msg), t)
    ensures batch.Ok? ==> Creates(s.trace[|t|..]) <= Planned(cfg, Texts(batch.value, decode))
    ensures batch.Ok? && s.res.Ok? ==> Creates(s.trace[|t|..]) == Planned(cfg, Texts(batch.value, decode))
    ensures s.res.Err? && batch.Ok? ==> Creates(s.trace[|t|..]) != []
    ensures Adds(s.trace, |t|) == 0 && NoMail(t, s.trace)
  {
    match batch
    case Err(msg) =>
      assert t[|t|..] == [];
      Step(Err(msg), t)
    case Ok(evs) => CreateAll(t, srv, cfg, Texts(evs, decode))
  }
}

=== FILE: handler.dfy ===
/** The decision chain of HandleEmail (handler/handler.go): one prepared
    mail, the set of senders whose auto-reply was already noticed, and
    exactly one outcome: drop, a wrong-address reply, a new request, or a
    comment on a referenced request. The chain itself is the pure function
    Decide; Execute performs what it chose; HandleEmail composes preparation,
    decision and execution. */
module Handler {
  import opened Wrappers
  import opened Model
  import opened Topology
  import opened Effects
  import opened MailText
  import opened AddressLists
  import opened EmailToJira
  import opened Prepare

  /** Why a mail is dropped. */
  datatype DropReason =
    | Malware
    | FromOwnDesk
    | FromOwnInstall
    | Spam
    | AutoReplyNoticed
    | AutoReplyWithoutRequest
    | Unaddressed
    | NotToComment

  /** What the chain decided. */
  datatype Decision =
    | Drop(reason: DropReason)
    | ReplyWrongAddress(install: nat)
    | OpenOn(desk: DeskRef)
    | CommentOn(requestDesk: DeskRef, request: Request)

  /** A decision and the noticed set after it. */
  datatype Decided = Decided(decision: Decision, noticed: NoticedOutOfOffice)

  /** The checks of the sender, before the mail's destination is looked at:
      malware, mail from one of the parser's own addresses, and for a sender
      that is not whitelisted the spam score and auto-replies. An auto-reply
      gets through once per sender, and only when it refers to a request; it
      then leaves its sender in the noticed set. */
  function CheckSender(cfg: Config, hp: HandlingParam, noticed: NoticedOutOfOffice): (d: Option<DropReason>)
  {
    var from := hp.email.from.address;
    if hp.email.isMalware then Some(Malware)
    else if DeskFromMail(cfg, from).Some? then Some(FromOwnDesk)
    else if InstallFromMail(cfg, from).Some? then Some(FromOwnInstall)
    else if hp.whitelisted then None
    else if hp.email.spamScore >= cfg.maxSpamScore then Some(Spam)
    else if !hp.email.isAutoReply then None
    else if from in noticed then Some(AutoReplyNoticed)
    else if hp.request.None? then Some(AutoReplyWithoutRequest)
    else None
  }

  /** The one write to the noticed set: a passing auto-reply of a sender
      that is not whitelisted. */
  function Notice(hp: HandlingParam, noticed: NoticedOutOfOffice): NoticedOutOfOffice {
    if !hp.whitelisted && hp.email.isAutoReply then noticed + {hp.email.from.address} else noticed
  }

  /** The destination of a mail whose sender passed: nowhere known, an
      installation without desk or referenced request (wrong address), a
      desk (new request), or a referenced request (comment, unless its
      status is not to be commented). */
  function Route(hp: HandlingParam): Decision
    requires hp.request.Some? ==> hp.requestDesk.Some?
    requires hp.desk.Some? ==> hp.install.Some?
  {
    if hp.install.None? then Drop(Unaddressed)
    else if hp.request.None? then
      if hp.desk.None? then ReplyWrongAddress(hp.install.value) else OpenOn(hp.desk.value)
    else if hp.dontComment then Drop(NotToComment)
    else CommentOn(hp.requestDesk.value, hp.request.value)
  }

  /** The decision chain of HandleEmail. */
  function Decide(cfg: Config, hp: HandlingParam, noticed: NoticedOutOfOffice): (d: Decided)
    requires hp.request.Some? ==> hp.requestDesk.Some?
    requires hp.desk.Some? ==> hp.install.Some?
    ensures noticed <= d.noticed <= noticed + {hp.email.from.address}
    ensures d.noticed != noticed ==>
              && !hp.whitelisted && hp.email.isAutoReply && hp.request.Some?
              && hp.email.from.address !in noticed
    ensures d.decision.Drop? || d.decision == Route(hp)
    ensures d.decision.Drop? && d.decision.reason in {Malware, FromOwnDesk, FromOwnInstall, Spam, AutoReplyNoticed, AutoReplyWithoutRequest}
            ==> d.noticed == noticed
  {
    match CheckSender(cfg, hp, noticed)
    case Some(reason) => Decided(Drop(reason), noticed)
    case None => Decided(Route(hp), Notice(hp, noticed))
  }

  /** Malware and mail from the parser's own addresses are dropped first,
      whatever else holds, and leave the noticed set alone. */
  lemma MalwareAndLoopsDrop(cfg: Config, hp: HandlingParam, noticed: NoticedOutOfOffice)
    requires hp.request.Some? ==> hp.requestDesk.Some?
    requires hp.desk.Some? ==> hp.install.Some?
    requires hp.email.isMalware || OwnAddress(cfg, hp.email.from.address)
    ensures Decide(cfg, hp, noticed).decision.Drop?
    ensures Decide(cfg, hp, noticed).noticed == noticed
  {
  }

  /** A sender that is not whitelisted, with a spam score at or above the
      limit, is dropped unless an earlier check already dropped it. */
  lemma SpamDrops(cfg: Config, hp: HandlingParam, noticed: NoticedOutOfOffice)
    requires hp.request.Some? ==> hp.requestDesk.Some?
    requires hp.desk.Some? ==> hp.install.Some?
    requires !hp.whitelisted && hp.email.spamScore >= cfg.maxSpamScore
    ensures Decide(cfg, hp, noticed).decision.Drop?
    ensures Decide(cfg, hp, noticed).noticed == noticed
  {
  }

  /** A whitelisted sender skips the spam and auto-reply checks: its mail
      is routed by destination alone, and the noticed set is not touched. */
  lemma WhitelistBypasses(cfg: Config, hp: HandlingParam, noticed: NoticedOutOfOffice)
    requires hp.request.Some? ==> hp.requestDesk.Some?
    requires hp.desk.Some? ==> hp.install.Some?
    requires hp.whitelisted && !hp.email.isMalware && !OwnAddress(cfg, hp.email.from.address)
    ensures Decide(cfg, hp, noticed) == Decided(Route(hp), noticed)
  {
  }

  /** The auto-reply rules for a sender that is not whitelisted and passed
      the earlier checks: a noticed sender is dropped; one without a
      referenced request is dropped with the set unchanged; otherwise the
      sender is noticed and the mail goes on. */
  lemma AutoReplyDedup(cfg: Config, hp: HandlingParam, noticed: NoticedOutOfOffice)
    requires hp.request.Some? ==> hp.requestDesk.Some?
    requires hp.desk.Some? ==> hp.install.Some?
    requires !hp.whitelisted && !hp.email.isMalware && !OwnAddress(cfg, hp.email.from.address)
    requires hp.email.spamScore < cfg.maxSpamScore && hp.email.isAutoReply
    ensures hp.email.from.address in noticed ==> Decide(cfg, hp, noticed) == Decided(Drop(AutoReplyNoticed), noticed)
    ensures hp.email.from.address !in noticed && hp.request.None? ==>
              Decide(cfg, hp, noticed) == Decided(Drop(AutoReplyWithoutRequest), noticed)
    ensures hp.email.from.address !in noticed && hp.request.Some? ==>
              Decide(cfg, hp, noticed) == Decided(Route(hp), noticed + {hp.email.from.address})
  {
  }

  /** Where the mail went decides the rest: nowhere known drops it; an
      installation without desk or request gets the wrong-address reply; a
      desk gets a new request; a referenced request gets a comment unless
      its status forbids. */
  lemma RouteCases(hp: HandlingParam)
    requires hp.request.Some? ==> hp.requestDesk.Some?
    requires hp.desk.Some? ==> hp.install.Some?
    ensures hp.install.None? ==> Route(hp) == Drop(Unaddressed)
    ensures hp.install.Some? && hp.desk.None? && hp.request.None? ==> Route(hp) == ReplyWrongAddress(hp.install.value)
    ensures hp.desk.Some? && hp.request.None? ==> Route(hp) == OpenOn(hp.desk.value)
    ensures hp.install.Some? && hp.request.Some? ==>
              Route(hp) == if hp.dontComment then Drop(NotToComment) else CommentOn(hp.requestDesk.value, hp.request.value)
  {
  }

  /** The reply templates, rendered: the request-created text of a desk for
      a request, and the rejected-mail text of an installation. Rendering
      may fail. */
  datatype Templates = Templates(
    requestCreated: (ServiceDesk, Request) -> Result<string>,
    rejected: JiraInstall -> Result<string>)

  /** sendReplyEmail: the rendered template, a line break and the quoted
      mail go to the mail's sender. A template that does not render sends
      nothing; a failed delivery is not reported. */
  function ReplyMail(t: Trace, rendered: Result<string>, from: Option<Address>, subject: string, e: Email): (r: Trace)
    ensures rendered.Err? ==> r == t
    ensures rendered.Ok? ==> r == t + [MailSend(from, e.from, subject, rendered.value + ['\n'] + QuotedBody(e))]
  {
    if rendered.Err? then t
    else t + [MailSend(from, e.from, subject, rendered.value + ['\n'] + QuotedBody(e))]
  }

  /** SendWrongAddressErrorEmail: the installation's rejected-mail text,
      under its rejected-mail subject, from its reply address; nothing when
      sending mail is switched off. */
  function WrongAddressMail(t: Trace, cfg: Config, tpl: Templates, i: nat, e: Email): (r: Trace)
    requires ValidInstall(cfg, i)
    ensures t <= r && |r| <= |t| + 1
    ensures !cfg.sendEmails ==> r == t
    ensures |r| == |t| + 1 ==>
              && cfg.sendEmails && tpl.rejected(cfg.installs[i]).Ok?
              && r[|t|] == MailSend(cfg.installs[i].replyAddress, e.from,
                                 cfg.installs[i].rejectedMailSubject + [' '] + e.subject,
                                 tpl.rejected(cfg.installs[i]).value + ['\n'] + QuotedBody(e))
  {
    if !cfg.sendEmails then t
    else
      var inst := cfg.installs[i];
      ReplyMail(t, tpl.rejected(inst), inst.replyAddress, inst.rejectedMailSubject + [' '] + e.subject, e)
  }

  /** What SendRequestCreatedEmail reports when the request it is given is
      nil: taking its key fails. */
  const NilRequest: string := "nil request"

  /** SendRequestCreatedEmail as written: with sending on, the subject is
      built from the request's key before anything else, so a request that
      could not be fetched after its creation ends the handling with a
      failure. */
  function RequestCreatedMailAsWritten(t: Trace, cfg: Config, tpl: Templates, srd: ServiceDesk, e: Email,
                                       request: Option<Request>): (r: Result<Trace>)
    ensures !cfg.sendEmails ==> r == Ok(t)
    ensures r.Err? <==> cfg.sendEmails && request.None?
  {
    if !cfg.sendEmails then Ok(t)
    else if request.None? then Err(NilRequest)
    else Ok(ReplyMail(t, tpl.requestCreated(srd, request.value), srd.replyAddress,
                      request.value.issueKey + [' '] + e.subject, e))
  }

  /** SendRequestCreatedEmail as intended: the confirmation names the new
      request, so without one there is nothing to confirm and nothing is
      sent. It never fails. */
  function RequestCreatedMail(t: Trace, cfg: Config, tpl: Templates, srd: ServiceDesk, e: Email,
                              request: Option<Request>): (r: Trace)
    ensures t <= r && |r| <= |t| + 1
    ensures !cfg.sendEmails || request.None? ==> r == t
    ensures |r| == |t| + 1 ==>
              && cfg.sendEmails && request.Some? && tpl.requestCreated(srd, request.value).Ok?
              && r[|t|] == MailSend(srd.replyAddress, e.from, request.value.issueKey + [' '] + e.subject,
                                 tpl.requestCreated(srd, request.value).value + ['\n'] + QuotedBody(e))
  {
    if !cfg.sendEmails || request.None? then t
    else ReplyMail(t, tpl.requestCreated(srd, request.value), srd.replyAddress,
                   request.value.issueKey + [' '] + e.subject, e)
  }

  /** The mail after a request was created but could not be fetched: as
      written the handling fails although the request exists (and a replay
      of the mail would create it again); as intended it ends quietly. */
  lemma NilRequestFinding(t: Trace, cfg: Config, tpl: Templates, srd: ServiceDesk, e: Email)
    requires cfg.sendEmails
    ensures RequestCreatedMailAsWritten(t, cfg, tpl, srd, e, None) == Err(NilRequest)
    ensures RequestCreatedMail(t, cfg, tpl, srd, e, None) == t
  {
  }

  /** With a request at hand, the corrected mail is the one written. */
  lemma RequestCreatedMailAgrees(t: Trace, cfg: Config, tpl: Templates, srd: ServiceDesk, e: Email, request: Request)
    ensures RequestCreatedMailAsWritten(t, cfg, tpl, srd, e, Some(request))
         == Ok(RequestCreatedMail(t, cfg, tpl, srd, e, Some(request)))
  {
  }

  /** Mail in the calls after `t` is sent only when `ok` holds, and then as
      the last call. */
  predicate MailLast(t: Trace, trace: Trace, ok: bool) {
    t <= trace && forall k :: |t| <= k < |trace| && trace[k].MailSend? ==> ok && k == |trace| - 1
  }

  /** No request or comment path sends mail. */
  lemma PolicySendsNoMail(p: Policy, t: Trace, u: Trace)
    requires AllAllowed(p, t, u)
    ensures MailLast(t, u, false)
  {
    forall k | |t| <= k < |u|
      ensures !u[k].MailSend?
    {
      assert Allowed(p, u[k]);
    }
  }

  /** A quiet stretch sends no mail. */
  lemma QuietThenMail(t: Trace, u: Trace, v: Trace, ok: bool)
    requires Quiet(t, u) && MailLast(u, v, ok)
    ensures MailLast(t, v, ok)
  {
    forall k | |t| <= k < |u|
      ensures !v[k].MailSend?
    {
      assert v[k] == u[k];
      assert !IsAction(u[k]);
    }
  }

  /** The new-request branch: create on desk d, then, for a sender without
      Jira user who may be answered, the confirmation mail. */
  function OpenAndConfirm(t: Trace, srv: Server, cfg: Config, tpl: Templates, d: DeskRef, hp: HandlingParam): (s: Step<()>)
    requires ValidDesk(cfg, d)
    ensures t < s.trace
    ensures MailLast(t, s.trace, hp.senderUsername == "" && !hp.dontReplyTo)
  {
    var created := RequestFromEmail(t, srv, cfg, d, hp.senderUsername, true, hp.email);
    PolicySendsNoMail(EmailRequestPolicy(cfg, d, hp.senderUsername, hp.email), t, created.trace);
    if created.res.Err? then Step(Err(created.res.msg), created.trace)
    else if hp.senderUsername != "" || hp.dontReplyTo then Step(Ok(()), created.trace)
    else Step(Ok(()), RequestCreatedMail(created.trace, cfg, tpl, DeskAt(cfg, d), hp.email, created.res.value))
  }

  /** The new-request branch step by step: a failed creation is the
      error; otherwise the handling succeeds, and the confirmation of the
      request fetched after creation follows exactly when the sender has no
      Jira user and may be answered. */
  lemma OpenAndConfirmFlow(t: Trace, srv: Server, cfg: Config, tpl: Templates, d: DeskRef, hp: HandlingParam)
    requires ValidDesk(cfg, d)
    ensures var created := RequestFromEmail(t, srv, cfg, d, hp.senderUsername, true, hp.email);
            var s := OpenAndConfirm(t, srv, cfg, tpl, d, hp);
            && (created.res.Err? ==> s == Step(Err(created.res.msg), created.trace))
            && (created.res.Ok? ==>
                  && s.res.Ok?
                  && s.trace == if hp.senderUsername == "" && !hp.dontReplyTo
                                then RequestCreatedMail(created.trace, cfg, tpl, DeskAt(cfg, d), hp.email, created.res.value)
                                else created.trace)
  {
  }

  /** The decision names a configured installation or desk wherever it
      names one. */
  predicate Executable(cfg: Config, d: Decision) {
    && (d.ReplyWrongAddress? ==> ValidInstall(cfg, d.install))
    && (d.OpenOn? ==> ValidDesk(cfg, d.desk))
    && (d.CommentOn? ==> ValidDesk(cfg, d.requestDesk))
  }

  /** The chain decides only for installations and desks of the
      configuration, given a prepared mail that names only such. */
  lemma DecideExecutable(cfg: Config, hp: HandlingParam, noticed: NoticedOutOfOffice)
    requires hp.request.Some? ==> hp.requestDesk.Some? && ValidDesk(cfg, hp.requestDesk.value)
    requires hp.desk.Some? ==> hp.install == Some(hp.desk.value.install) && ValidDesk(cfg, hp.desk.value)
    requires hp.install.Some? ==> ValidInstall(cfg, hp.install.value)
    ensures Executable(cfg, Decide(cfg, hp, noticed).decision)
  {
  }

  /** What a decision does. A drop does nothing. */
  function Execute(t: Trace, srv: Server, cfg: Config, tpl: Templates, hp: HandlingParam, d: Decision): (s: Step<()>)
    requires d.ReplyWrongAddress? ==> ValidInstall(cfg, d.install)
    requires d.OpenOn? ==> ValidDesk(cfg, d.desk)
    requires d.CommentOn? ==> ValidDesk(cfg, d.requestDesk)
    ensures t <= s.trace
    ensures d.Drop? ==> s == Step(Ok(()), t)
    ensures d.ReplyWrongAddress? ==> s.res.Ok? && |s.trace| <= |t| + 1
    ensures d.CommentOn? ==> AllAllowed(CommentPolicy(cfg, d.requestDesk, d.request,
                                                      CreateDescription(DeskAt(cfg, d.requestDesk), hp.email), hp.email),
                                        t, s.trace)
    ensures MailLast(t, s.trace, d.ReplyWrongAddress? || (d.OpenOn? && hp.senderUsername == "" && !hp.dontReplyTo))
  {
    match d
    case Drop(_) => Step(Ok(()), t)
    case ReplyWrongAddress(i) => Step(Ok(()), WrongAddressMail(t, cfg, tpl, i, hp.email))
    case OpenOn(desk) => OpenAndConfirm(t, srv, cfg, tpl, desk, hp)
    case CommentOn(desk, request) =>
      var s := CommentFromEmail(t, srv, cfg, desk, request, hp.senderUsername, hp.email);
      PolicySendsNoMail(CommentPolicy(cfg, desk, request, CreateDescription(DeskAt(cfg, desk), hp.email), hp.email),
                        t, s.trace);
      s
  }

  /** Each decision is carried out by its own path: the wrong-address
      reply, the new request on the desk with the sender as reporter and an
      anonymous retry allowed, or the comment on the request by the
      sender. */
  lemma ExecuteFollowsDecision(t: Trace, srv: Server, cfg: Config, tpl: Templates, hp: HandlingParam, d: Decision)
    requires d.ReplyWrongAddress? ==> ValidInstall(cfg, d.install)
    requires d.OpenOn? ==> ValidDesk(cfg, d.desk)
    requires d.CommentOn? ==> ValidDesk(cfg, d.requestDesk)
    ensures var s := Execute(t, srv, cfg, tpl, hp, d);
            && (d.ReplyWrongAddress? ==> s == Step(Ok(()), WrongAddressMail(t, cfg, tpl, d.install, hp.email)))
            && (d.OpenOn? ==> s == OpenAndConfirm(t, srv, cfg, tpl, d.desk, hp))
            && (d.CommentOn? ==> s == CommentFromEmail(t, srv, cfg, d.requestDesk, d.request, hp.senderUsername, hp.email))
  {
  }

  /** The outcome of handling one mail: the error, if any, the calls made,
      the noticed set afterwards, and, once preparation succeeded, its
      parameters and the decision taken. */
  datatype Handled = Handled(res: Result<()>, trace: Trace, noticed: NoticedOutOfOffice,
                             param: Option<HandlingParam>, decision: Option<Decision>)

  /** Decision and execution for one prepared mail. */
  function HandlePrepared(t: Trace, srv: Server, cfg: Config, tpl: Templates, hp: HandlingParam,
                          noticed: NoticedOutOfOffice): (h: Handled)
    requires hp.request.Some? ==> hp.requestDesk.Some? && ValidDesk(cfg, hp.requestDesk.value)
    requires hp.desk.Some? ==> hp.install == Some(hp.desk.value.install) && ValidDesk(cfg, hp.desk.value)
    requires hp.install.Some? ==> ValidInstall(cfg, hp.install.value)
    ensures t <= h.trace
    ensures noticed <= h.noticed
    ensures h.param == Some(hp) && h.decision.Some?
    ensures h.decision.value.Drop? ==> h.res.Ok? && h.trace == t
    ensures MailLast(t, h.trace, || h.decision.value.ReplyWrongAddress?
                                 || (h.decision.value.OpenOn? && hp.senderUsername == "" && !hp.dontReplyTo))
  {
    var decided := Decide(cfg, hp, noticed);
    DecideExecutable(cfg, hp, noticed);
    var done := Execute(t, srv, cfg, tpl, hp, decided.decision);
    Handled(done.res, done.trace, decided.noticed, Some(hp), Some(decided.decision))
  }

  /** A prepared mail is handled by the decision of the chain, with the
      noticed set the chain leaves, and by nothing but that decision's
      execution. */
  lemma HandlePreparedFollowsDecide(t: Trace, srv: Server, cfg: Config, tpl: Templates, hp: HandlingParam,
                                    noticed: NoticedOutOfOffice)
    requires hp.request.Some? ==> hp.requestDesk.Some? && ValidDesk(cfg, hp.requestDesk.value)
    requires hp.desk.Some? ==> hp.install == Some(hp.desk.value.install) && ValidDesk(cfg, hp.desk.value)
    requires hp.install.Some? ==> ValidInstall(cfg, hp.install.value)
    ensures var h := HandlePrepared(t, srv, cfg, tpl, hp, noticed);
            var decided := Decide(cfg, hp, noticed);
            && h.decision == Some(decided.decision) && h.noticed == decided.noticed
            && Executable(cfg, decided.decision)
            && Step(h.res, h.trace) == Execute(t, srv, cfg, tpl, hp, decided.decision)
  {
    DecideExecutable(cfg, hp, noticed);
  }

  /** HandleEmail, given the outcome of parsing the mail: prepare, decide,
      execute. A failed preparation returns its error with the set
      unchanged; a drop makes no visible call. */
  function HandleEmail(t: Trace, srv: Server, cfg: Config, tpl: Templates, parsed: Result<Email>,
                       noticed: NoticedOutOfOffice): (h: Handled)
    ensures t <= h.trace
    ensures noticed <= h.noticed
    ensures h.param.Some? <==> h.decision.Some?
    ensures h.param.None? ==> h.res.Err? && h.noticed == noticed && Quiet(t, h.trace)
    ensures h.param.Some? ==> parsed.Ok? && h.param.value.email == parsed.value
    ensures h.decision.Some? && h.decision.value.Drop? ==> h.res.Ok? && Quiet(t, h.trace)
    ensures MailLast(t, h.trace, h.decision.Some? && (|| h.decision.value.ReplyWrongAddress?
                                                     || (&& h.decision.value.OpenOn?
                                                         && h.param.value.senderUsername == ""
                                                         && !h.param.value.dontReplyTo)))
  {
    var prepared := PrepareHandling(t, srv, cfg, parsed);
    if prepared.res.Err? then
      QuietThenMail(t, prepared.trace, prepared.trace, false);
      Handled(Err(prepared.res.msg), prepared.trace, noticed, None, None)
    else
      var h := HandlePrepared(prepared.trace, srv, cfg, tpl, prepared.res.value, noticed);
      QuietThenMail(t, prepared.trace, h.trace, || h.decision.value.ReplyWrongAddress?
                                                 || (&& h.decision.value.OpenOn?
                                                     && prepared.res.value.senderUsername == ""
                                                     && !prepared.res.value.dontReplyTo));
      h
  }

  /** HandleEmail is preparation, then the handling of what was prepared:
      a mail that does not parse is that error with no call, a failed
      preparation is its error after its calls, and otherwise the prepared
      parameters are handled from where preparation left off. */
  lemma HandleEmailFlow(t: Trace, srv: Server, cfg: Config, tpl: Templates, parsed: Result<Email>,
                        noticed: NoticedOutOfOffice)
    ensures var h := HandleEmail(t, srv, cfg, tpl, parsed, noticed);
            var prepared := PrepareHandling(t, srv, cfg, parsed);
            && (parsed.Err? ==> h == Handled(Err(parsed.msg), t, noticed, None, None))
            && (prepared.res.Err? ==> h == Handled(Err(prepared.res.msg), prepared.trace, noticed, None, None))
            && (prepared.res.Ok? ==> h == HandlePrepared(prepared.trace, srv, cfg, tpl, prepared.res.value, noticed))
  {
  }

  /** Malware, mail from the parser's own addresses, and spam from a sender
      that is not whitelisted cause no create, comment, participant or mail
      action, and leave the noticed set as it was. Preparation may still
      have searched and fetched. */
  lemma DroppedMailIsQuiet(t: Trace, srv: Server, cfg: Config, tpl: Templates, parsed: Result<Email>,
                           noticed: NoticedOutOfOffice)
    requires parsed.Ok?
    requires || parsed.value.isMalware || OwnAddress(cfg, parsed.value.from.address)
             || (!Whitelisted(cfg, parsed.value.from.address) && parsed.value.spamScore >= cfg.maxSpamScore)
    ensures var h := HandleEmail(t, srv, cfg, tpl, parsed, noticed);
            Quiet(t, h.trace) && h.noticed == noticed
  {
    var prepared := PrepareHandling(t, srv, cfg, parsed);
    if prepared.res.Ok? {
      var hp := prepared.res.value;
      if hp.email.isMalware || OwnAddress(cfg, hp.email.from.address) {
        MalwareAndLoopsDrop(cfg, hp, noticed);
      } else {
        SpamDrops(cfg, hp, noticed);
      }
    }
  }

  /** A mail to no address the parser knows makes no call at all, not
      even a search, and leaves the noticed set alone. */
  lemma UnaddressedMakesNoCall(t: Trace, srv: Server, cfg: Config, tpl: Templates, parsed: Result<Email>,
                               noticed: NoticedOutOfOffice)
    requires parsed.Ok? && Recipients(cfg, parsed.value).install.None?
    ensures var h := HandleEmail(t, srv, cfg, tpl, parsed, noticed);
            h.trace == t && h.res.Ok? && h.noticed == noticed
  {
  }
}

=== FILE: jira_actor.dfy ===
/** The low-level Jira client (jira_actor/create.go, jira_actor/get.go): the
    text sanitisers applied before anything is sent, the selection logic over
    search and page results, and each REST interaction as one or two calls
    appended to the trace. */
module JiraActor {
  import opened Wrappers
  import opened Text
  import opened Seqs
  import opened Model
  import opened Effects

  /** Go's unicode.IsControl: the C0 and C1 control ranges. */
  predicate IsControl(c: char) {
    c <= '\U{001F}' || ('\U{007F}' <= c <= '\U{009F}')
  }

  /** The runes cleanUnicode drops: control characters that are not white
      space (no control character is printable, so Go's extra IsPrint test
      never keeps one). Of the controls, only tab, line feed, vertical tab,
      form feed, carriage return and NEL are white space. */
  predicate Unclean(c: char) {
    || c <= '\U{0008}' || ('\U{000E}' <= c <= '\U{001F}')
    || ('\U{007F}' <= c <= '\U{0084}') || ('\U{0086}' <= c <= '\U{009F}')
  }

  lemma UncleanIsControlNotSpace(c: char)
    ensures Unclean(c) <==> IsControl(c) && !IsSpace(c)
  {
  }

  /** cleanUnicode. */
  function CleanUnicode(s: string): (r: string)
    ensures |r| <= |s|
    ensures forall k :: 0 <= k < |r| ==> !Unclean(r[k])
    ensures (forall k :: 0 <= k < |s| ==> !Unclean(s[k])) ==> r == s
  {
    if s == "" then ""
    else
      var rest := CleanUnicode(s[1..]);
      if Unclean(s[0]) then rest else [s[0]] + rest
  }

  /** Cleaning works character by character: it distributes over
      concatenation, so it keeps every other rune, in order. */
  lemma {:induction false} CleanUnicodeAppend(a: string, b: string)
    ensures CleanUnicode(a + b) == CleanUnicode(a) + CleanUnicode(b)
    decreases |a|
  {
    if a == "" {
      assert a + b == b;
    } else {
      assert (a + b)[0] == a[0];
      assert (a + b)[1..] == a[1..] + b;
      CleanUnicodeAppend(a[1..], b);
    }
  }

  /** Cleaning only removes: a property every character of the input has,
      every character of the output has. */
  lemma {:induction false} CleanUnicodeKeeps(s: string, p: char -> bool)
    requires forall k :: 0 <= k < |s| ==> p(s[k])
    ensures forall k :: 0 <= k < |CleanUnicode(s)| ==> p(CleanUnicode(s)[k])
    decreases |s|
  {
    if s != "" {
      CleanUnicodeKeeps(s[1..], p);
    }
  }

  /** The text capLength puts in place of an empty one. */
  const Blank: string := ['<', 'b', 'l', 'a', 'n', 'k', '>']

  lemma BlankIsClean()
    ensures forall k :: 0 <= k < |Blank| ==> !Unclean(Blank[k]) && Blank[k] != ','
  {
  }

  /** capLength: clean, trim, replace an empty result by "<blank>" unless
      that is allowed, then keep at most n characters. Go slices bytes here;
      the model slices characters. */
  function CapLength(s: string, n: nat, emptyAllowed: bool): (r: string)
    ensures |r| <= n
    ensures var t := TrimSpace(CleanUnicode(s));
            if t == "" && !emptyAllowed then r <= Blank && |r| == Min(|Blank|, n)
            else r <= t && |r| == Min(|t|, n)
    ensures forall k :: 0 <= k < |r| ==> !Unclean(r[k])
  {
    var t := TrimSpace(CleanUnicode(s));
    var u := if t == "" && !emptyAllowed then Blank else t;
    TrimSpaceKeeps(CleanUnicode(s), c => !Unclean(c));
    BlankIsClean();
    assert forall k :: 0 <= k < |u| ==> !Unclean(u[k]);
    var r := u[..Min(|u|, n)];
    assert forall k :: 0 <= k < |r| ==> r[k] == u[k];
    r
  }

  /** Capping a capped string with the same bound changes nothing when the
      bound does not cut it. */
  lemma CapLengthKeepsShortText(s: string, n: nat, emptyAllowed: bool)
    requires var t := TrimSpace(CleanUnicode(s)); t != "" && |t| <= n
    ensures CapLength(s, n, emptyAllowed) == TrimSpace(CleanUnicode(s))
  {
  }

  /** The characters of forbiddenFileNameChars' class. */
  predicate Forbidden(c: char) {
    c == '\\' || c == '/' || c == '%' || c == ':' || c == '$' || c == '?' || c == '*'
  }

  /** forbiddenFileNameChars.ReplaceAllString(s, ""): the regexp
      `(\\")|[\\/%:$?*]` scanned left to right; at each position the
      two-character escaped quote is tried first, so it goes as a whole,
      while a lone quote stays. */
  function Scrub(s: string): (r: string)
    ensures |r| <= |s|
    ensures forall k :: 0 <= k < |r| ==> !Forbidden(r[k])
    ensures (forall k :: 0 <= k < |s| ==> !Forbidden(s[k])) ==> r == s
  {
    if s == "" then ""
    else if |s| >= 2 && s[0] == '\\' && s[1] == '"' then Scrub(s[2..])
    else if Forbidden(s[0]) then Scrub(s[1..])
    else [s[0]] + Scrub(s[1..])
  }

  /** Scrubbing only removes: a property every character of the input has,
      every character of the output has. */
  lemma {:induction false} ScrubKeeps(s: string, p: char -> bool)
    requires forall k :: 0 <= k < |s| ==> p(s[k])
    ensures forall k :: 0 <= k < |Scrub(s)| ==> p(Scrub(s)[k])
    decreases |s|
  {
    if s == "" {
    } else if |s| >= 2 && s[0] == '\\' && s[1] == '"' {
      ScrubKeeps(s[2..], p);
    } else {
      ScrubKeeps(s[1..], p);
    }
  }

  /** A scrubbed name holds nothing the scrubber removes. */
  lemma ScrubIdempotent(s: string)
    ensures Scrub(Scrub(s)) == Scrub(s)
  {
  }

  /** The name of an uploaded temporary file. */
  function TempFileName(name: string): (r: string)
    ensures |r| <= 50
    ensures forall k :: 0 <= k < |r| ==> !Forbidden(r[k]) && !Unclean(r[k])
  {
    var capped := CapLength(name, 50, false);
    ScrubKeeps(capped, c => !Unclean(c));
    Scrub(capped)
  }

  /** strings.ReplaceAll(name, ",", ""). */
  function StripCommas(name: string): (r: string)
    ensures forall k :: 0 <= k < |r| ==> r[k] != ','
    ensures ',' !in name ==> r == name
  {
    ReplaceAllChars(name, ",", "");
    if ',' !in name then
      AbsentCharNotContained(name, ',');
      ReplaceAll(name, ",", "")
    else ReplaceAll(name, ",", "")
  }

  /** CreateCustomer's display name: the address when no name is given,
      without commas, capped at 60. */
  function CustomerName(email: string, fullName: string): (r: string)
    ensures |r| <= 60
    ensures forall k :: 0 <= k < |r| ==> r[k] != ','
    ensures fullName == "" ==> r == CapLength(StripCommas(email), 60, false)
  {
    var noCommas := StripCommas(if fullName == "" then email else fullName);
    CleanUnicodeKeeps(noCommas, c => c != ',');
    TrimSpaceKeeps(CleanUnicode(noCommas), c => c != ',');
    BlankIsClean();
    CapLength(noCommas, 60, false)
  }

  /** A plain display name that fits reaches Jira unchanged but for trimming
      and cleaning. */
  lemma CustomerNameKeepsPlainName(email: string, fullName: string)
    requires fullName != "" && ',' !in fullName
    requires var t := TrimSpace(CleanUnicode(fullName)); t != "" && |t| <= 60
    ensures CustomerName(email, fullName) == TrimSpace(CleanUnicode(fullName))
  {
  }

  /** Without a display name the customer is named by its address, as
      trimmed and cleaned. */
  lemma CustomerNameFallsBackToEmail(email: string)
    requires ',' !in email
    requires var t := TrimSpace(CleanUnicode(email)); t != "" && |t| <= 60
    ensures CustomerName(email, "") == TrimSpace(CleanUnicode(email))
  {
  }

  predicate ExactUser(u: User, email: string, name: string) {
    u.emailAddress == email && u.displayName == name
  }

  predicate EmailUser(u: User, email: string) {
    u.emailAddress == email
  }

  /** The choice GetJiraUsername makes among the fuzzy search results: the
      first user with the exact address and display name, else the first
      with the exact address, else "". */
  function SelectUser(users: seq<User>, email: string, name: string): (r: string)
    ensures r == "" || exists k :: 0 <= k < |users| && EmailUser(users[k], email) && users[k].name == r
    ensures forall k :: (0 <= k < |users| && ExactUser(users[k], email, name)
                         && forall m :: 0 <= m < k ==> !ExactUser(users[m], email, name)) ==> r == users[k].name
    ensures (forall k :: 0 <= k < |users| ==> !ExactUser(users[k], email, name)) ==>
              forall k :: (0 <= k < |users| && EmailUser(users[k], email)
                           && forall m :: 0 <= m < k ==> !EmailUser(users[m], email)) ==> r == users[k].name
    ensures (forall k :: 0 <= k < |users| ==> !EmailUser(users[k], email)) ==> r == ""
  {
    match FirstIndex(users, u => ExactUser(u, email, name))
    case Some(k) => users[k].name
    case None =>
      match FirstIndex(users, u => EmailUser(u, email))
      case Some(k) => users[k].name
      case None => ""
  }

  /** GetJiraUsername's loop as written: one pass that returns on the first
      exact match and otherwise remembers the address matches. */
  method SelectUserLoop(users: seq<User>, email: string, name: string) returns (r: string)
    ensures r == SelectUser(users, email, name)
  {
    var withEmail: seq<User> := [];
    for k := 0 to |users|
      invariant forall m :: 0 <= m < k ==> !ExactUser(users[m], email, name)
      invariant withEmail == [] <==> forall m :: 0 <= m < k ==> !EmailUser(users[m], email)
      invariant withEmail != [] ==> exists m :: 0 <= m < k && EmailUser(users[m], email) && withEmail[0] == users[m]
                                               && forall p :: 0 <= p < m ==> !EmailUser(users[p], email)
    {
      if users[k].emailAddress == email {
        withEmail := withEmail + [users[k]];
        if users[k].displayName == name {
          return users[k].name;
        }
      }
    }
    if |withEmail| != 0 {
      return withEmail[0].name;
    }
    return "";
  }

  /** GetJiraUsername: a search failure is an error; otherwise the
      selection over the results. */
  function GetJiraUsername(t: Trace, srv: Server, install: nat, email: string, name: string): (s: Step<string>)
    ensures s.trace == t + [UserSearch(install, email)]
    ensures s.res.Err? <==> srv.users(t, UserSearch(install, email)).Err?
    ensures s.res.Ok? ==> s.res.value == SelectUser(srv.users(t, UserSearch(install, email)).value, email, name)
  {
    var c := UserSearch(install, email);
    match srv.users(t, c)
    case Err(m) => Step(Err(m), t + [c])
    case Ok(users) => Step(Ok(SelectUser(users, email, name)), t + [c])
  }

  /** GetRequest: the issue, then its service-desk view; if either fetch
      fails there is no request, and no error. */
  function GetRequest(t: Trace, srv: Server, install: nat, key: string): (s: Step<Option<Request>>)
    ensures s.res.Ok?
    ensures var t1 := t + [IssueGet(install, key)];
            && (srv.issue(t, IssueGet(install, key)).Err? ==> s.trace == t1 && s.res.value.None?)
            && (srv.issue(t, IssueGet(install, key)).Ok? ==> s.trace == t1 + [RequestGet(install, key)])
            && (s.res.value.Some? <==> srv.issue(t, IssueGet(install, key)).Ok? && srv.deskRequest(t1, RequestGet(install, key)).Ok?)
    ensures s.res.value.Some? ==>
              var dr := srv.deskRequest(t + [IssueGet(install, key)], RequestGet(install, key)).value;
              var req := s.res.value.value;
              && req.issueKey == dr.issueKey && req.serviceDeskId == dr.serviceDeskId
              && req.portalLink == dr.portalLink && req.status == dr.status && req.reporter == dr.reporter
              && req.assignee == srv.issue(t, IssueGet(install, key)).value.GetOr("")
  {
    var gi := IssueGet(install, key);
    var t1 := t + [gi];
    match srv.issue(t, gi)
    case Err(_) => Step(Ok(None), t1)
    case Ok(assignee) =>
      var gr := RequestGet(install, key);
      match srv.deskRequest(t1, gr)
      case Err(_) => Step(Ok(None), t1 + [gr])
      case Ok(dr) =>
        Step(Ok(Some(Request(dr.issueKey, dr.serviceDeskId, dr.portalLink, dr.status, dr.reporter,
                             assignee.GetOr("")))), t1 + [gr])
  }

  /** CreateRequest: cap summary and description, create, and on failure
      retry once anonymously when a reporter was given and a retry is
      allowed. The retry caps the already capped texts again. */
  function CreateRequest(t: Trace, srv: Server, install: nat, summary: string, description: string,
                         reporter: string, requestTypeId: string, serviceDeskId: string,
                         tryAnonymous: bool): (s: Step<string>)
    ensures t < s.trace && |s.trace| <= |t| + 2
    ensures forall k :: |t| <= k < |s.trace| ==>
              && s.trace[k].RequestCreate? && s.trace[k].install == install
              && |s.trace[k].summary| <= 255 && |s.trace[k].description| <= 32767
              && s.trace[k].requestTypeId == requestTypeId && s.trace[k].serviceDeskId == serviceDeskId
    ensures s.trace[|t|].summary == CapLength(summary, 255, false)
    ensures s.trace[|t|].description == CapLength(description, 32767, false)
    ensures s.trace[|t|].reporter == reporter
    ensures |s.trace| == |t| + 2 <==>
              srv.created(t, s.trace[|t|]).Err? && reporter != "" && tryAnonymous
    ensures |s.trace| == |t| + 2 ==> s.trace[|t| + 1].reporter == ""
    ensures s.res == srv.created(s.trace[..|s.trace| - 1], s.trace[|s.trace| - 1])
    decreases if tryAnonymous then 1 else 0
  {
    var capped := CapLength(summary, 255, false);
    var cappedDescription := CapLength(description, 32767, false);
    var c := RequestCreate(install, capped, cappedDescription, reporter, requestTypeId, serviceDeskId);
    var t1 := t + [c];
    match srv.created(t, c)
    case Ok(key) =>
      assert t1[..|t1| - 1] == t;
      Step(Ok(key), t1)
    case Err(m) =>
      if reporter != "" && tryAnonymous then
        CreateRequest(t1, srv, install, capped, cappedDescription, "", requestTypeId, serviceDeskId, false)
      else
        assert t1[..|t1| - 1] == t;
        Step(Err(m), t1)
  }

  /** The upload call for one file; it goes out under TempFileName of its
      name. */
  function AttachCall(install: nat, serviceDeskId: string, file: File): Call {
    TempFileAttach(install, serviceDeskId, file.name, file.bytes)
  }

  /** The upload of one file (createTempFile): exactly one temporary id must
      come back. */
  function UploadOne(t: Trace, srv: Server, c: Call): (s: Step<string>)
    ensures s.trace == t + [c]
    ensures s.res.Ok? <==> srv.attached(t, c).Ok? && |srv.attached(t, c).value| == 1
    ensures s.res.Ok? ==> s.res.value == srv.attached(t, c).value[0]
  {
    match srv.attached(t, c)
    case Err(m) => Step(Err(m), t + [c])
    case Ok(ids) =>
      if |ids| != 1 then Step(Err("attachment failed"), t + [c])
      else Step(Ok(ids[0]), t + [c])
  }

  /** The uploads of all files, in order. */
  function AttachCalls(install: nat, serviceDeskId: string, files: seq<File>): (r: seq<Call>)
    ensures |r| == |files|
    ensures forall k :: 0 <= k < |r| ==> r[k] == AttachCall(install, serviceDeskId, files[k])
  {
    if files == [] then []
    else [AttachCall(install, serviceDeskId, files[0])] + AttachCalls(install, serviceDeskId, files[1..])
  }

  /** The upload loop of CreateComment: the given uploads in order,
      stopping at the first failure. */
  function UploadAll(t: Trace, srv: Server, uploads: seq<Call>): (s: Step<seq<string>>)
    ensures t <= s.trace
    ensures s.res.Ok? ==> s.trace == t + uploads && |s.res.value| == |uploads|
    ensures s.res.Err? ==> t < s.trace && s.trace[|t|..] <= uploads
    decreases |uploads|
  {
    if uploads == [] then Step(Ok([]), t)
    else
      var one := UploadOne(t, srv, uploads[0]);
      match one.res
      case Err(m) => Step(Err(m), one.trace)
      case Ok(id) =>
        var rest := UploadAll(one.trace, srv, uploads[1..]);
        assert rest.trace[|t|..] == [uploads[0]] + rest.trace[|one.trace|..];
        assert uploads == [uploads[0]] + uploads[1..];
        match rest.res
        case Err(m) => Step(Err(m), rest.trace)
        case Ok(ids) => Step(Ok([id] + ids), rest.trace)
  }

  /** CreateComment: upload every file, then post one public comment with
      all temporary ids and the body capped at 32767 (an empty body
      allowed). A failed upload ends it before the comment. */
  function CreateComment(t: Trace, srv: Server, install: nat, body: string, files: seq<File>,
                         issueKey: string, serviceDeskId: string): (s: Step<()>)
    ensures t < s.trace
    ensures var uploads := AttachCalls(install, serviceDeskId, files);
            var up := UploadAll(t, srv, uploads);
            && (up.res.Err? ==> s.res.Err? && s.trace[|t|..] <= uploads)
            && (up.res.Ok? ==>
                  var post := CommentPost(install, issueKey, CapLength(body, 32767, true), up.res.value);
                  && |post.attachmentIds| == |files|
                  && s.trace == t + uploads + [post]
                  && s.res == srv.ack(t + uploads, post))
  {
    var uploads := AttachCalls(install, serviceDeskId, files);
    var up := UploadAll(t, srv, uploads);
    match up.res
    case Err(m) => Step(Err(m), up.trace)
    case Ok(ids) =>
      var c := CommentPost(install, issueKey, CapLength(body, 32767, true), ids);
      Step(srv.ack(up.trace, c), up.trace + [c])
  }

  /** AddParticipant: one call. */
  function AddParticipant(t: Trace, srv: Server, install: nat, issueKey: string, username: string): (s: Step<()>)
    ensures s.trace == t + [ParticipantAdd(install, issueKey, username)]
    ensures s.res == srv.ack(t, ParticipantAdd(install, issueKey, username))
  {
    var c := ParticipantAdd(install, issueKey, username);
    Step(srv.ack(t, c), t + [c])
  }

  /** CreateCustomer: one call through the admin client, with the display
      name normalised. */
  function CreateCustomer(t: Trace, srv: Server, install: nat, email: string, fullName: string): (s: Step<()>)
    ensures s.trace == t + [CustomerCreate(install, email, CustomerName(email, fullName))]
    ensures s.res == srv.ack(t, CustomerCreate(install, email, CustomerName(email, fullName)))
  {
    var c := CustomerCreate(install, email, CustomerName(email, fullName));
    Step(srv.ack(t, c), t + [c])
  }

  datatype RequestType = RequestType(id: string, name: string)

  datatype RequestTypePage = RequestTypePage(isLastPage: bool, values: seq<RequestType>)

  predicate TypeNamed(rt: RequestType, typeName: string) {
    rt.name == typeName
  }

  /** GetRequestTypeId on the page Jira returned: a page that is not the last
      is an error (paging is not implemented), otherwise the first type with
      the name, and no such type is an error. */
  function RequestTypeFromPage(page: RequestTypePage, typeName: string): (r: Result<string>)
    ensures !page.isLastPage ==> r.Err?
    ensures page.isLastPage ==> (r.Ok? <==> exists k :: 0 <= k < |page.values| && TypeNamed(page.values[k], typeName))
    ensures r.Ok? ==> exists k :: 0 <= k < |page.values| && TypeNamed(page.values[k], typeName)
                                 && page.values[k].id == r.value
                                 && forall m :: 0 <= m < k ==> !TypeNamed(page.values[m], typeName)
  {
    if !page.isLastPage then Err("more request types than fit on one page")
    else match FirstIndex(page.values, rt => TypeNamed(rt, typeName))
      case Some(k) => Ok(page.values[k].id)
      case None => Err("request type not found")
  }

  datatype DeskEntry = DeskEntry(id: string, projectKey: string)

  datatype DeskPage = DeskPage(isLastPage: bool, limit: int, values: seq<DeskEntry>)

  /** What GetServiceDeskId does after reading one page. */
  datatype PageStep = Found(id: string) | NotFound | NextPage

  predicate KeyedDesk(e: DeskEntry, projectKey: string) {
    e.projectKey == projectKey
  }

  /** The per-page step of GetServiceDeskId: the first entry with the
      project key wins; otherwise the search ends on the last page or on a
      page that reports limit 0, and goes on to the next page otherwise. */
  function DeskIdFromPage(page: DeskPage, projectKey: string): (r: PageStep)
    ensures r.Found? <==> exists k :: 0 <= k < |page.values| && KeyedDesk(page.values[k], projectKey)
    ensures r.Found? ==> exists k :: 0 <= k < |page.values| && KeyedDesk(page.values[k], projectKey)
                                     && page.values[k].id == r.id
                                     && forall m :: 0 <= m < k ==> !KeyedDesk(page.values[m], projectKey)
    ensures r.NotFound? <==> !r.Found? && (page.isLastPage || page.limit == 0)
  {
    match FirstIndex(page.values, e => KeyedDesk(e, projectKey))
    case Some(k) => Found(page.values[k].id)
    case None => if page.isLastPage || page.limit == 0 then NotFound else NextPage
  }
}

=== FILE: logging.dfy ===
/** The log helpers of logging/logging.go that decide what is written and
    sent: Logf turns a message into one safe log line, Loge also mails it to
    the critical-error address when one is configured. */
module Logging {
  import opened Wrappers
  import opened Text
  import opened Model
  import opened Effects

  predicate IsBreak(c: char) {
    c == '\r' || c == '\n'
  }

  predicate NoBreak(s: string) {
    forall k :: 0 <= k < |s| ==> !IsBreak(s[k])
  }

  predicate AllBreaks(s: string) {
    forall k :: 0 <= k < |s| ==> IsBreak(s[k])
  }

  /** s without its leading line breaks. */
  function TrimLeft(s: string): (r: string)
    ensures |r| <= |s| && r == s[|s| - |r|..]
    ensures r == [] || !IsBreak(r[0])
    ensures AllBreaks(s[..|s| - |r|])
    ensures s == [] || !IsBreak(s[0]) ==> r == s
  {
    if s != [] && IsBreak(s[0]) then
      var r := TrimLeft(s[1..]);
      assert s[..|s| - |r|] == [s[0]] + s[1..][..|s| - 1 - |r|];
      r
    else s
  }

  /** s without its trailing line breaks. */
  function TrimRight(s: string): (r: string)
    ensures r <= s
    ensures r == [] || !IsBreak(r[|r| - 1])
    ensures AllBreaks(s[|r|..])
    ensures s == [] || !IsBreak(s[|s| - 1]) ==> r == s
  {
    if s != [] && IsBreak(s[|s| - 1]) then
      var r := TrimRight(s[..|s| - 1]);
      assert s[|r|..] == s[..|s| - 1][|r|..] + [s[|s| - 1]];
      r
    else s
  }

  /** strings.Trim(s, "\r\n"). */
  function TrimBreaks(s: string): string {
    TrimRight(TrimLeft(s))
  }

  /** Leading breaks are cut whatever follows them. */
  lemma {:induction false} TrimLeftAbsorbs(b: string, s: string)
    requires AllBreaks(b)
    ensures TrimLeft(b + s) == TrimLeft(s)
  {
    if b != [] {
      assert (b + s)[1..] == b[1..] + s;
      TrimLeftAbsorbs(b[1..], s);
    } else {
      assert b + s == s;
    }
  }

  /** Trailing breaks are cut whatever precedes them. */
  lemma {:induction false} TrimRightAbsorbs(s: string, b: string)
    requires AllBreaks(b)
    ensures TrimRight(s + b) == TrimRight(s)
  {
    if b != [] {
      assert (s + b)[..|s + b| - 1] == s + b[..|b| - 1];
      TrimRightAbsorbs(s, b[..|b| - 1]);
    } else {
      assert s + b == s;
    }
  }

  /** Cutting leading breaks leaves a tail alone, unless everything is a
      break. */
  lemma {:induction false} TrimLeftAppend(s: string, b: string)
    requires AllBreaks(b)
    ensures TrimLeft(s + b) == if TrimLeft(s) == [] then [] else TrimLeft(s) + b
  {
    if s == [] {
      assert s + b == b;
      TrimLeftAbsorbs(b, []);
      assert b + [] == b;
    } else if IsBreak(s[0]) {
      assert (s + b)[1..] == s[1..] + b;
      TrimLeftAppend(s[1..], b);
    }
  }

  /** Line breaks around a text do not reach the trimmed text. */
  lemma {:induction false} TrimBreaksIgnoresEdges(b1: string, s: string, b2: string)
    requires AllBreaks(b1) && AllBreaks(b2)
    ensures TrimBreaks(b1 + s + b2) == TrimBreaks(s)
  {
    assert b1 + s + b2 == b1 + (s + b2);
    TrimLeftAbsorbs(b1, s + b2);
    assert TrimLeft(b1 + s + b2) == TrimLeft(s + b2);
    TrimLeftAppend(s, b2);
    if TrimLeft(s) != [] {
      TrimRightAbsorbs(TrimLeft(s), b2);
    }
  }

  /** Text without line breaks is not trimmed. */
  lemma TrimBreaksKeeps(s: string)
    requires NoBreak(s)
    ensures TrimBreaks(s) == s
  {
    assert s == [] || !IsBreak(s[0]);
    assert s == [] || !IsBreak(s[|s| - 1]);
  }

  /** " | ", what an inner line break becomes. */
  const BreakMark: string := " | "

  /** Logf: the message trimmed of line breaks at both ends, each inner
      '\n' and then each inner '\r' turned into " | ". */
  function Logf(msg: string): (r: string)
    ensures NoBreak(r)
    ensures NoBreak(msg) ==> r == msg
  {
    var trimmed := TrimBreaks(msg);
    var noLf := ReplaceAll(trimmed, "\n", BreakMark);
    PlainUnchanged(msg);
    MarksLeaveNoBreak(trimmed);
    ReplaceAll(noLf, "\r", BreakMark)
  }

  lemma MarksLeaveNoBreak(s: string)
    ensures NoBreak(ReplaceAll(ReplaceAll(s, "\n", BreakMark), "\r", BreakMark))
  {
    var lf: string := "\n";
    var cr: string := "\r";
    assert lf[0] !in BreakMark && cr[0] !in BreakMark;
    var noLf := ReplaceAll(s, lf, BreakMark);
    var r := ReplaceAll(noLf, cr, BreakMark);
    ReplaceAllChars(s, lf, BreakMark);
    ReplaceAllChars(noLf, cr, BreakMark);
    forall k | 0 <= k < |r|
      ensures !IsBreak(r[k])
    {
      assert r[k] != '\r';
      assert r[k] in noLf || r[k] in BreakMark;
      assert '\n' !in noLf;
    }
  }

  lemma PlainUnchanged(msg: string)
    ensures NoBreak(msg) ==> ReplaceAll(ReplaceAll(TrimBreaks(msg), "\n", BreakMark), "\r", BreakMark) == msg
  {
    if NoBreak(msg) {
      TrimBreaksKeeps(msg);
      AbsentCharNotContained(msg, '\n');
      AbsentCharNotContained(msg, '\r');
    }
  }

  /** A logged line logs as itself. */
  lemma LogfIdempotent(msg: string)
    ensures Logf(Logf(msg)) == Logf(msg)
  {
  }

  /** Line breaks before and after a message change nothing in its line. */
  lemma LogfIgnoresEdges(b1: string, msg: string, b2: string)
    requires AllBreaks(b1) && AllBreaks(b2)
    ensures Logf(b1 + msg + b2) == Logf(msg)
  {
    TrimBreaksIgnoresEdges(b1, msg, b2);
  }

  /** The flags fmt accepts after '%'. */
  predicate IsFlag(c: char) {
    c == '#' || c == '0' || c == '+' || c == '-' || c == ' '
  }

  predicate IsDigit(c: char) {
    '0' <= c <= '9'
  }

  /** The first index from i on that is not a flag. */
  function SkipFlags(f: string, i: nat): (r: nat)
    requires i <= |f|
    ensures i <= r <= |f| && (r == |f| || !IsFlag(f[r]))
    ensures forall k :: i <= k < r ==> IsFlag(f[k])
    decreases |f| - i
  {
    if i < |f| && IsFlag(f[i]) then SkipFlags(f, i + 1) else i
  }

  /** The first index from i on that is not a decimal digit. */
  function SkipDigits(f: string, i: nat): (r: nat)
    requires i <= |f|
    ensures i <= r <= |f| && (r == |f| || !IsDigit(f[r]))
    ensures forall k :: i <= k < r ==> IsDigit(f[k])
    decreases |f| - i
  {
    if i < |f| && IsDigit(f[i]) then SkipDigits(f, i + 1) else i
  }

  /** Where the verb of the directive starting after the '%' at i - 1
      stands: past the flags, the width, and a precision, which is a '.'
      only when something follows it. */
  function VerbAt(f: string, i: nat): (r: nat)
    requires i <= |f|
    ensures i <= r <= |f|
  {
    var w := SkipDigits(f, SkipFlags(f, i));
    if w + 1 < |f| && f[w] == '.' then SkipDigits(f, w + 1) else w
  }

  /** "%!(NOVERB)", what fmt writes for a '%' at the end of the format. */
  const NoVerb: string := "%!(NOVERB)"

  /** What fmt writes for a verb that has no operand. */
  function Missing(verb: char): string {
    "%!" + [verb] + "(MISSING)"
  }

  /** fmt.Sprintf(f) with no operands, as Go's fmt package formats it: text
      is copied, "%%" is one '%', a '%' at the end is NOVERB, and any other
      directive, with its flags, width and precision, becomes the
      MISSING-operand marker of its verb. */
  function Sprintf0(f: string): (r: string)
    ensures '%' !in f ==> r == f
    decreases |f|
  {
    if f == [] then []
    else if f[0] != '%' then [f[0]] + Sprintf0(f[1..])
    else
      var v := VerbAt(f, 1);
      if v == |f| then NoVerb
      else if f[v] == '%' then "%" + Sprintf0(f[v + 1..])
      else Missing(f[v]) + Sprintf0(f[v + 1..])
  }

  /** s with every '%' doubled, the format that prints s. */
  function EscapePercent(s: string): (r: string)
    ensures |s| <= |r|
  {
    if s == [] then []
    else (if s[0] == '%' then "%%" else [s[0]]) + EscapePercent(s[1..])
  }

  /** A format with every '%' doubled prints the text itself. */
  lemma {:induction false} EscapedPrintsItself(s: string)
    ensures Sprintf0(EscapePercent(s)) == s
  {
    if s != [] {
      var rest := EscapePercent(s[1..]);
      EscapedPrintsItself(s[1..]);
      if s[0] == '%' {
        var f := "%%" + rest;
        assert SkipFlags(f, 1) == 1 && SkipDigits(f, 1) == 1;
        assert f[2..] == rest;
      } else {
        assert ([s[0]] + rest)[1..] == rest;
      }
      assert [s[0]] + s[1..] == s;
    }
  }

  /** An error text with a '%' followed by digits and a letter: Go reads a
      directive with a width and no operand in it. */
  lemma PercentInErrorText()
    ensures Sprintf0("a%40b.de") == "a%!b(MISSING).de"
  {
    var f := "a%40b.de";
    var g := f[1..];
    assert g == "%40b.de";
    assert SkipFlags(g, 1) == 1;
    assert SkipDigits(g, 3) == 3;
    assert SkipDigits(g, 2) == 3;
    assert SkipDigits(g, 1) == 3;
    assert VerbAt(g, 1) == 3;
    assert g[4..] == ".de";
    assert Sprintf0(".de") == ".de";
    assert Sprintf0(g) == Missing('b') + ".de";
  }

  /** "inbound_parser Error at ", the head of a critical mail's subject. */
  const CriticalSubject: string := "inbound_parser Error at "

  /** "\nTraceback:\n", between the message and the stack in a critical
      mail. */
  const TracebackMark: string := "\nTraceback:\n"

  /** The critical mail of Loge for the logged line msg. */
  function CriticalMail(t: Trace, cfg: Config, msg: string, now: string, stack: string): Trace {
    if cfg.criticalMailTo == "" then t
    else t + [MailSend(Some(Address("", cfg.criticalMailFrom)), Address("", cfg.criticalMailTo),
                       CriticalSubject + now, msg + TracebackMark + stack)]
  }

  /** Loge as written: the error text is passed to Logf as its format, so a
      '%' in the error is read as a formatting directive. */
  function LogeAsWritten(t: Trace, cfg: Config, err: string, now: string, stack: string): (r: Trace)
    ensures '%' !in err ==> r == Loge(t, cfg, err, now, stack)
  {
    CriticalMail(t, cfg, Logf(Sprintf0(err)), now, stack)
  }

  /** LogeNoMail as written: the error text is the format of Logf. */
  function LogeNoMailAsWritten(err: string): (r: string)
    ensures NoBreak(r)
    ensures '%' !in err ==> r == LogeNoMail(err)
  {
    Logf(Sprintf0(err))
  }

  /** Neither the error of PercentInErrorText nor its formatting holds a
      line break, so Logf keeps both. */
  lemma PercentInErrorTextLogged()
    ensures Logf("a%40b.de") == "a%40b.de"
    ensures Logf("a%!b(MISSING).de") == "a%!b(MISSING).de"
  {
    var good: string := "a%40b.de";
    var bad: string := "a%!b(MISSING).de";
    forall k | 0 <= k < |good|
      ensures !IsBreak(good[k])
    {
    }
    forall k | 0 <= k < |bad|
      ensures !IsBreak(bad[k])
    {
    }
  }

  /** The error of PercentInErrorText is logged, and mailed, mangled as
      written, and as it is once it is logged verbatim. */
  lemma ErrorAsFormatFinding(t: Trace, cfg: Config, now: string, stack: string)
    requires cfg.criticalMailTo != ""
    ensures LogeNoMailAsWritten("a%40b.de") == "a%!b(MISSING).de"
    ensures LogeNoMail("a%40b.de") == "a%40b.de"
    ensures LogeAsWritten(t, cfg, "a%40b.de", now, stack)[|t|].body != Loge(t, cfg, "a%40b.de", now, stack)[|t|].body
  {
    PercentInErrorText();
    PercentInErrorTextLogged();
    var bad: string := "a%!b(MISSING).de";
    var good: string := "a%40b.de";
    var b1 := LogeAsWritten(t, cfg, good, now, stack)[|t|].body;
    var b2 := Loge(t, cfg, good, now, stack)[|t|].body;
    assert b1 == bad + TracebackMark + stack;
    assert b2 == good + TracebackMark + stack;
    assert |b1| != |b2|;
  }

  /** Loge: the error is logged verbatim; when a critical-error address is
      configured it is also mailed there, with the time and the stack trace
      passed in, after the logged line and "Traceback:". */
  function Loge(t: Trace, cfg: Config, err: string, now: string, stack: string): (r: Trace)
    ensures cfg.criticalMailTo == "" <==> r == t
    ensures r != t ==> |r| == |t| + 1 && t <= r
    ensures r != t ==> var c := r[|t|];
                       && c.MailSend? && c.to.address == cfg.criticalMailTo
                       && c.from == Some(Address("", cfg.criticalMailFrom))
                       && c.subject == CriticalSubject + now
                       && c.body == Logf(err) + TracebackMark + stack
  {
    CriticalMail(t, cfg, Logf(err), now, stack)
  }

  /** LogeNoMail: the error logged verbatim as one line, and no mail. */
  function LogeNoMail(err: string): (r: string)
    ensures NoBreak(r)
    ensures NoBreak(err) ==> r == err
  {
    Logf(err)
  }
}

=== FILE: mail_parse.dfy ===
/** Turning the form SendGrid posts into an Email (email/parse.go). The
    multipart, address, JSON, float, MIME, file-type and malware libraries
    are not modelled: the parser receives what each of them answers, and
    the model states what the parser makes of those answers. */
module MailParse {
  import opened Wrappers
  import opened Text
  import opened Model

  /** The SendGrid form fields the parser reads, each the first value of
      its field. */
  datatype Form = Form(
    email: string,
    subject: string,
    to: string,
    from: string,
    senderIp: string,
    spamScore: string,
    envelope: string)

  /** The JSON envelope SendGrid adds: the SMTP recipients and sender. */
  datatype SmtpEnvelope = SmtpEnvelope(to: seq<string>, from: string)

  /** One MIME part with its file name, Content-ID and Content-Type. */
  datatype Part = Part(fileName: string, contentId: string, contentType: string, content: seq<Byte>)

  /** What the MIME library reports for an address header: not there, there
      but unparsable, or the addresses it lists. */
  datatype HeaderList = Absent | Malformed(err: string) | Listed(addrs: seq<Address>)

  /** The MIME library's view of the raw mail. `header` is its GetHeader:
      the first value of a header, "" when there is none. */
  datatype Envelope = Envelope(
    text: string,
    inlines: seq<Part>,
    attachments: seq<Part>,
    otherParts: seq<Part>,
    header: string -> string,
    cc: HeaderList,
    bcc: HeaderList,
    replyTo: HeaderList,
    date: Result<DateText>)

  /** A file extension as the MIME type table lists it: a dot and a name. */
  type Extension = s: string | |s| > 0 && s[0] == '.' witness ['.']

  /** The answers of the libraries the parser calls. `sniff` is the file-type
      detector (an extension without the dot); `extensionsByType` the MIME
      type table (extensions with the dot); `formatScore` renders the score
      as %f does. */
  datatype Libraries = Libraries(
    parseAddress: string -> Result<Address>,
    parseAddressList: string -> Result<seq<Address>>,
    parseFloat: string -> Result<real>,
    formatScore: real -> string,
    parseEnvelope: string -> Result<SmtpEnvelope>,
    readEnvelope: string -> Result<Envelope>,
    sniff: seq<Byte> -> Result<string>,
    extensionsByType: string -> Result<seq<Extension>>,
    containsMalware: seq<File> -> Result<bool>)

  /** The longest text body kept, in characters. */
  const MaxBody: nat := 32767

  /** Go panics (index out of range) on an envelope without recipients; the
      model reports it as this error. */
  const NoRecipient: string := ['n', 'o', ' ', 't', 'o']

  const UnnamedFile: string := "unnamed_file"

  const UnknownExt: string := ['.', 'u', 'n', 'k', 'n', 'o', 'w', 'n']

  /** An automatic reply announces itself by Auto-Submitted (any value but
      "no"), X-Autoreply or X-Autorespond (any value), or
      Precedence: auto_reply. */
  function IsAutoReply(header: string -> string): (r: bool)
    ensures header("Auto-Submitted") != "" && header("Auto-Submitted") != "no" ==> r
    ensures header("X-Autoreply") != "" || header("X-Autorespond") != "" ==> r
    ensures header("Precedence") == "auto_reply" ==> r
    ensures r ==> (header("Auto-Submitted") != "" && header("Auto-Submitted") != "no")
                  || header("X-Autoreply") != "" || header("X-Autorespond") != ""
                  || header("Precedence") == "auto_reply"
  {
    var submitted := header("Auto-Submitted");
    if submitted != "" && submitted != "no" then true
    else if header("X-Autoreply") != "" then true
    else if header("X-Autorespond") != "" then true
    else header("Precedence") == "auto_reply"
  }

  /** The extension guessed for a part without a name: the sniffed one, else
      the first the MIME type table lists, else ".unknown". */
  function GuessExtension(lib: Libraries, p: Part): (ext: string)
    ensures ext != ""
    ensures lib.sniff(p.content).Ok? ==> ext == ['.'] + lib.sniff(p.content).value
    ensures lib.sniff(p.content).Err? && lib.extensionsByType(p.contentType).Ok?
            && |lib.extensionsByType(p.contentType).value| > 0
            ==> ext == lib.extensionsByType(p.contentType).value[0]
    ensures lib.sniff(p.content).Err?
            && (lib.extensionsByType(p.contentType).Err? || lib.extensionsByType(p.contentType).value == [])
            ==> ext == UnknownExt
  {
    match lib.sniff(p.content)
    case Ok(found) => ['.'] + found
    case Err(_) =>
      match lib.extensionsByType(p.contentType)
      case Ok(exts) => if |exts| != 0 then exts[0] else UnknownExt
      case Err(_) => UnknownExt
  }

  /** The name a part is uploaded under: its own when it has one that is not
      blank, else its Content-ID or "unnamed_file" plus a guessed
      extension. The result is never empty. */
  function ConstructFilename(lib: Libraries, p: Part): (r: string)
    ensures r != ""
    ensures TrimSpace(p.fileName) != "" ==> r == p.fileName
    ensures TrimSpace(p.fileName) == "" ==>
              exists stem :: stem in {p.contentId, UnnamedFile} && r == stem + GuessExtension(lib, p)
    ensures TrimSpace(p.fileName) == "" && TrimSpace(p.contentId) != "" ==> r == p.contentId + GuessExtension(lib, p)
    ensures TrimSpace(p.fileName) == "" && TrimSpace(p.contentId) == "" ==> r == UnnamedFile + GuessExtension(lib, p)
  {
    if TrimSpace(p.fileName) != "" then p.fileName
    else
      var stem := if TrimSpace(p.contentId) != "" then p.contentId else UnnamedFile;
      stem + GuessExtension(lib, p)
  }

  /** An inline image with a blank file name and a Content-ID is uploaded
      under the Content-ID and the sniffed extension, not as "unnamed_file". */
  lemma ContentIdNamesFile(lib: Libraries, content: seq<Byte>)
    requires lib.sniff(content) == Ok("png")
    ensures ConstructFilename(lib, Part(" ", "img1", "image/png", content)) == "img1.png"
  {
    assert TrimSpace(" ") == "";
    assert TrimSpace("img1") == "img1";
  }

  /** The file a part becomes. */
  function FileOf(lib: Libraries, p: Part): File {
    File(ConstructFilename(lib, p), p.content)
  }

  /** The files of a list of parts, in order. */
  function PartFiles(lib: Libraries, parts: seq<Part>): (r: seq<File>)
    ensures |r| == |parts|
    ensures forall k :: 0 <= k < |r| ==> r[k] == FileOf(lib, parts[k])
  {
    if parts == [] then [] else [FileOf(lib, parts[0])] + PartFiles(lib, parts[1..])
  }

  /** The parts that become files: inline parts, then attachments, then the
      other parts (embedded images of an HTML mail, mostly). */
  function AllParts(env: Envelope): seq<Part> {
    env.inlines + env.attachments + env.otherParts
  }

  /** One file per part of AllParts, in the same order, each with the part's
      content and a non-empty name. */
  function GetFiles(lib: Libraries, env: Envelope): (r: seq<File>)
    ensures |r| == |AllParts(env)|
    ensures forall k :: 0 <= k < |r| ==> r[k] == FileOf(lib, AllParts(env)[k])
    ensures forall k :: 0 <= k < |r| ==> r[k].name != "" && r[k].bytes == AllParts(env)[k].content
  {
    PartFiles(lib, AllParts(env))
  }

  /** The text body: at most MaxBody characters of the MIME text, trimmed. */
  function Body(text: string): (r: string)
    ensures |r| <= MaxBody
    ensures r == "" || (!IsSpace(r[0]) && !IsSpace(r[|r| - 1]))
    ensures TrimStart(text[..Min(|text|, MaxBody)]) + |r| <= |text|
    ensures forall k :: 0 <= k < |r| ==> r[k] == text[TrimStart(text[..Min(|text|, MaxBody)]) + k]
  {
    var cut := text[..Min(|text|, MaxBody)];
    TrimSpaceInfix(cut);
    TrimSpace(cut)
  }

  /** The sender shown and answered: each part of the header From, filled
      from the envelope sender where it is empty. */
  function MergeFrom(header: Address, envelope: Address): (r: Address)
    ensures header.address != "" ==> r.address == header.address
    ensures header.address == "" ==> r.address == envelope.address
    ensures header.name != "" ==> r.name == header.name
    ensures header.name == "" ==> r.name == envelope.name
  {
    Address(if header.name == "" then envelope.name else header.name,
            if header.address == "" then envelope.address else header.address)
  }

  /** The addresses of an optional header; an absent one lists nobody. */
  function HeaderAddresses(h: HeaderList): Result<seq<Address>> {
    match h
    case Absent => Ok([])
    case Malformed(err) => Err(err)
    case Listed(addrs) => Ok(addrs)
  }

  /** What the form alone determines: the two From addresses, the envelope
      recipient and the spam score. */
  datatype Senders = Senders(
    headerFrom: Address,
    envelopeFrom: Address,
    envelopeTo: Address,
    spamScore: real)

  const NoAddress: Address := Address("", "")

  /** The form half of GetParsedEmail: the header From and the envelope From fall back to the
      empty address; the spam score, the envelope and its first recipient
      must parse. */
  function FormSenders(f: Form, lib: Libraries): (r: Result<Senders>)
    ensures r.Ok? ==> lib.parseFloat(f.spamScore) == Ok(r.value.spamScore)
    ensures r.Ok? ==> lib.parseEnvelope(f.envelope).Ok?
                      && |lib.parseEnvelope(f.envelope).value.to| > 0
                      && lib.parseAddress(lib.parseEnvelope(f.envelope).value.to[0]) == Ok(r.value.envelopeTo)
    ensures r.Ok? && lib.parseAddress(f.from).Err? ==> r.value.headerFrom == NoAddress
  {
    var headerFrom := match lib.parseAddress(f.from) case Ok(a) => a case Err(_) => NoAddress;
    var score :- lib.parseFloat(f.spamScore);
    var smtp :- lib.parseEnvelope(f.envelope);
    if |smtp.to| == 0 then Err(NoRecipient)
    else
      var envelopeTo :- lib.parseAddress(smtp.to[0]);
      var envelopeFrom := match lib.parseAddress(smtp.from) case Ok(a) => a case Err(_) => NoAddress;
      Ok(Senders(headerFrom, envelopeFrom, envelopeTo, score))
  }

  /** The part of GetParsedEmail after the MIME library has read the mail:
      the optional address headers, the files, the malware check and the
      Email itself. */
  function FromEnvelope(f: Form, to: seq<Address>, s: Senders, env: Envelope,
                        lib: Libraries, now: DateText): (r: Result<Email>)
    ensures r.Ok? ==> r.value.to == to + [s.envelopeTo]
    ensures r.Ok? ==> && r.value.from == MergeFrom(s.headerFrom, s.envelopeFrom)
                      && r.value.origHeaderFrom == s.headerFrom
                      && r.value.origEnvelopeFrom == s.envelopeFrom
    ensures r.Ok? ==> r.value.files == GetFiles(lib, env)
                      && r.value.textBody == Body(env.text)
                      && r.value.isAutoReply == IsAutoReply(env.header)
    ensures r.Ok? ==> && (env.replyTo.Listed? && |env.replyTo.addrs| > 0 ==> r.value.replyTo == Some(env.replyTo.addrs[0]))
                      && (!env.replyTo.Listed? || env.replyTo.addrs == [] ==> r.value.replyTo == None)
                      && (env.date.Err? ==> r.value.date == now)
                      && (env.date.Ok? ==> r.value.date == env.date.value)
    ensures r.Ok? ==> && r.value.cc == (if env.cc.Listed? then env.cc.addrs else [])
                      && r.value.bcc == (if env.bcc.Listed? then env.bcc.addrs else [])
                      && r.value.subject == f.subject && r.value.senderIp == f.senderIp
                      && r.value.spamScore == s.spamScore
                      && lib.containsMalware(GetFiles(lib, env)) == Ok(r.value.isMalware)
  {
    var cc :- HeaderAddresses(env.cc);
    var bcc :- HeaderAddresses(env.bcc);
    var allReplyTo :- HeaderAddresses(env.replyTo);
    var files := GetFiles(lib, env);
    var isMalware :- lib.containsMalware(files);
    Ok(Email(
      date := match env.date case Ok(d) => d case Err(_) => now,
      from := MergeFrom(s.headerFrom, s.envelopeFrom),
      origHeaderFrom := s.headerFrom,
      origEnvelopeFrom := s.envelopeFrom,
      to := to + [s.envelopeTo],
      replyTo := if |allReplyTo| != 0 then Some(allReplyTo[0]) else None,
      cc := cc,
      bcc := bcc,
      subject := f.subject,
      senderIp := f.senderIp,
      spamScore := s.spamScore,
      spamText := lib.formatScore(s.spamScore),
      textBody := Body(env.text),
      files := files,
      isAutoReply := IsAutoReply(env.header),
      isMalware := isMalware))
  }

  /** The To field's addresses; none when it does not parse. */
  function ToList(f: Form, lib: Libraries): seq<Address> {
    match lib.parseAddressList(f.to) case Ok(l) => l case Err(_) => []
  }

  /** GetParsedEmail: the Email built from a posted form, or the first
      error among the ones the parser does not tolerate. `form` is the
      result of reading the multipart body; `now` renders the time used when
      the mail's Date header does not parse. */
  function GetParsedEmail(form: Result<Form>, lib: Libraries, now: DateText): (r: Result<Email>)
    ensures r.Ok? ==> |r.value.textBody| <= MaxBody && |r.value.to| >= 1
    ensures r.Ok? ==> form.Ok? && lib.readEnvelope(form.value.email).Ok?
    ensures r.Ok? ==> var env := lib.readEnvelope(form.value.email).value;
                      && r.value.files == GetFiles(lib, env)
                      && r.value.textBody == Body(env.text)
                      && r.value.isAutoReply == IsAutoReply(env.header)
    ensures r.Ok? ==> var env := lib.readEnvelope(form.value.email).value;
                      && (env.replyTo.Listed? && |env.replyTo.addrs| > 0 ==> r.value.replyTo == Some(env.replyTo.addrs[0]))
                      && (!env.replyTo.Listed? || env.replyTo.addrs == [] ==> r.value.replyTo == None)
                      && (env.date.Err? ==> r.value.date == now)
                      && (env.date.Ok? ==> r.value.date == env.date.value)
    ensures r.Ok? ==> var env := lib.readEnvelope(form.value.email).value;
                      && r.value.cc == (if env.cc.Listed? then env.cc.addrs else [])
                      && r.value.bcc == (if env.bcc.Listed? then env.bcc.addrs else [])
                      && r.value.subject == form.value.subject && r.value.senderIp == form.value.senderIp
                      && lib.parseFloat(form.value.spamScore) == Ok(r.value.spamScore)
                      && lib.containsMalware(GetFiles(lib, env)) == Ok(r.value.isMalware)
  {
    if form.Err? then Err(form.msg)
    else
      var senders := FormSenders(form.value, lib);
      if senders.Err? then Err(senders.msg)
      else
        var read := lib.readEnvelope(form.value.email);
        if read.Err? then Err(read.msg)
        else FromEnvelope(form.value, ToList(form.value, lib), senders.value, read.value, lib, now)
  }

  /** The parse steps whose failure rejects the mail, in the order the
      parser meets them. The To list, the header From, the envelope From and
      the Date header are not among them. */
  predicate HardFailure(form: Result<Form>, lib: Libraries) {
    form.Err?
    || lib.parseFloat(form.value.spamScore).Err?
    || lib.parseEnvelope(form.value.envelope).Err?
    || |lib.parseEnvelope(form.value.envelope).value.to| == 0
    || lib.parseAddress(lib.parseEnvelope(form.value.envelope).value.to[0]).Err?
    || lib.readEnvelope(form.value.email).Err?
    || lib.readEnvelope(form.value.email).value.cc.Malformed?
    || lib.readEnvelope(form.value.email).value.bcc.Malformed?
    || lib.readEnvelope(form.value.email).value.replyTo.Malformed?
    || lib.containsMalware(GetFiles(lib, lib.readEnvelope(form.value.email).value)).Err?
  }

  /** The parse fails exactly on a hard failure: the tolerated errors never
      reject a mail, whatever the current time. */
  lemma ParseFailsIffHard(form: Result<Form>, lib: Libraries, now: DateText)
    ensures GetParsedEmail(form, lib, now).Err? <==> HardFailure(form, lib)
  {
    if form.Ok? {
      SendersFailIff(form.value, lib);
      var read := lib.readEnvelope(form.value.email);
      if FormSenders(form.value, lib).Ok? && read.Ok? {
        EnvelopeFailIff(form.value, ToList(form.value, lib), FormSenders(form.value, lib).value, read.value, lib, now);
      }
    }
  }

  /** The form-level parse fails exactly when the spam score, the envelope
      or its first recipient does not parse, or the envelope names nobody. */
  lemma SendersFailIff(f: Form, lib: Libraries)
    ensures FormSenders(f, lib).Err? <==>
              || lib.parseFloat(f.spamScore).Err?
              || lib.parseEnvelope(f.envelope).Err?
              || |lib.parseEnvelope(f.envelope).value.to| == 0
              || lib.parseAddress(lib.parseEnvelope(f.envelope).value.to[0]).Err?
  {
  }

  /** After the MIME read, only a malformed Cc, Bcc or Reply-To header or a
      failed malware scan rejects the mail. */
  lemma EnvelopeFailIff(f: Form, to: seq<Address>, s: Senders, env: Envelope, lib: Libraries, now: DateText)
    ensures FromEnvelope(f, to, s, env, lib, now).Err? <==>
              || env.cc.Malformed? || env.bcc.Malformed? || env.replyTo.Malformed?
              || lib.containsMalware(GetFiles(lib, env)).Err?
  {
    assert env.cc.Malformed? <==> HeaderAddresses(env.cc).Err?;
    assert env.bcc.Malformed? <==> HeaderAddresses(env.bcc).Err?;
    assert env.replyTo.Malformed? <==> HeaderAddresses(env.replyTo).Err?;
  }

  /** The recipients are the To field's (none when it does not parse) and,
      last, the envelope recipient: the desk a Bcc'd mail went to is found
      there. */
  lemma ParsedRecipients(form: Result<Form>, lib: Libraries, now: DateText)
    requires GetParsedEmail(form, lib, now).Ok?
    ensures var e := GetParsedEmail(form, lib, now).value;
            var smtp := lib.parseEnvelope(form.value.envelope).value;
            && e.to[|e.to| - 1] == lib.parseAddress(smtp.to[0]).value
            && (lib.parseAddressList(form.value.to).Err? ==> |e.to| == 1)
            && (lib.parseAddressList(form.value.to).Ok? ==>
                  e.to[..|e.to| - 1] == lib.parseAddressList(form.value.to).value)
  {
    var e := GetParsedEmail(form, lib, now).value;
    var s := FormSenders(form.value, lib).value;
    var to := ToList(form.value, lib);
    assert e.to == to + [s.envelopeTo];
    assert e.to[..|e.to| - 1] == to;
  }

  /** The sender is the header From when it parses with a name and an
      address; when it does not parse, the envelope sender stands in and
      the header From is recorded as empty. */
  lemma ParsedSender(form: Result<Form>, lib: Libraries, now: DateText)
    requires GetParsedEmail(form, lib, now).Ok?
    ensures var e := GetParsedEmail(form, lib, now).value;
            var h := lib.parseAddress(form.value.from);
            && (h.Ok? && h.value.name != "" && h.value.address != "" ==> e.from == h.value)
            && (h.Err? ==> e.origHeaderFrom == NoAddress && e.from == e.origEnvelopeFrom)
  {
  }
}

=== FILE: mail_text.dfy ===
/** The text the parser builds from a mail (email/helper.go): an address as
    "Name <address>", the quoted body of a reply, and the statistics block
    that heads every request description and log entry. */
module MailText {
  import opened Wrappers
  import opened Text
  import opened Model

  /** FormatAddr: the display name, a space, then the address in angle
      brackets. */
  function FormatAddr(a: Address): (r: string)
    ensures |r| == |a.name| + |a.address| + 3
    ensures r[|r| - 1] == '>'
  {
    a.name + [' ', '<'] + a.address + ['>']
  }

  /** The position of the last c in s. */
  function LastIndexOf(s: string, c: char): (r: Option<nat>)
    ensures r.Some? ==> r.value < |s| && s[r.value] == c
    ensures r.Some? ==> forall k :: r.value < k < |s| ==> s[k] != c
    ensures r.None? ==> forall k :: 0 <= k < |s| ==> s[k] != c
    decreases |s|
  {
    if s == "" then None
    else if s[|s| - 1] == c then Some(|s| - 1)
    else LastIndexOf(s[..|s| - 1], c)
  }

  /** Reads "Name <address>" back, splitting at the last '<'. */
  function ParseAddr(s: string): (r: Option<Address>)
  {
    match LastIndexOf(s, '<')
    case None => None
    case Some(p) =>
      if 1 <= p && s[p - 1] == ' ' && s[|s| - 1] == '>' && p < |s| - 1
      then Some(Address(s[..p - 1], s[p + 1..|s| - 1]))
      else None
  }

  /** Every address without a '<' in it is read back from its rendering. */
  lemma FormatAddrRoundTrip(a: Address)
    requires forall k :: 0 <= k < |a.address| ==> a.address[k] != '<'
    ensures ParseAddr(FormatAddr(a)) == Some(a)
  {
    var s := FormatAddr(a);
    var p := |a.name| + 1;
    assert s[p] == '<';
    assert forall k :: p < k < |s| ==> s[k] != '<' by {
      forall k | p < k < |s|
        ensures s[k] != '<'
      {
        if k < |s| - 1 {
          assert s[k] == a.address[k - p - 1];
        }
      }
    }
    assert s[..p - 1] == a.name;
    assert s[p + 1..|s| - 1] == a.address;
  }

  /** And whatever is read back renders to the text it was read from. */
  lemma ParseAddrRenders(s: string)
    requires ParseAddr(s).Some?
    ensures FormatAddr(ParseAddr(s).value) == s
  {
    var p := LastIndexOf(s, '<').value;
    assert s == s[..p - 1] + [s[p - 1], s[p]] + s[p + 1..|s| - 1] + [s[|s| - 1]];
  }

  predicate NoNewline(s: string) {
    forall j :: 0 <= j < |s| ==> s[j] != '\n'
  }

  /** strings.Split(s, "\n"): the pieces between line feeds, at least one. */
  function SplitLines(s: string): (r: seq<string>)
    ensures |r| >= 1
    ensures forall k :: 0 <= k < |r| ==> NoNewline(r[k])
    decreases |s|
  {
    if s == "" then [""]
    else if s[0] == '\n' then [""] + SplitLines(s[1..])
    else
      var rest := SplitLines(s[1..]);
      [[s[0]] + rest[0]] + rest[1..]
  }

  /** Splitting loses nothing: joining the pieces with line feeds gives the
      text back. */
  lemma {:induction false} SplitLinesJoin(s: string)
    ensures Join(SplitLines(s), "\n") == s
    decreases |s|
  {
    if s == "" {
    } else if s[0] == '\n' {
      SplitLinesJoin(s[1..]);
      assert s == "" + "\n" + s[1..];
    } else {
      SplitLinesJoin(s[1..]);
      var rest := SplitLines(s[1..]);
      if |rest| == 1 {
        assert s == [s[0]] + s[1..];
      } else {
        assert Join(rest, "\n") == rest[0] + "\n" + Join(rest[1..], "\n");
        assert s == [s[0]] + s[1..];
      }
    }
  }

  /** The quoting loop of getQuotedTextBody: "> ", the line, a line feed,
      for each line in order. */
  function QuoteLines(lines: seq<string>): (r: string)
    ensures |lines| > 0 ==> |r| > 0 && r[0] == '>'
  {
    if lines == [] then "" else ['>', ' '] + lines[0] + ['\n'] + QuoteLines(lines[1..])
  }

  /** The length of the first line of s: the index of its first line feed,
      or |s| when it has none. */
  function LineLength(s: string): (n: nat)
    ensures n <= |s|
    ensures forall k :: 0 <= k < n ==> s[k] != '\n'
    ensures n < |s| ==> s[n] == '\n'
    decreases |s|
  {
    if s == "" || s[0] == '\n' then 0 else 1 + LineLength(s[1..])
  }

  lemma LineLengthOf(a: string, b: string)
    requires NoNewline(a)
    ensures LineLength(a + ['\n'] + b) == |a|
  {
    var s := a + ['\n'] + b;
    var n := LineLength(s);
    assert s[|a|] == '\n';
  }

  /** Reads a quoted block back into its lines; None when a line does not
      start with "> " or lacks its line feed. */
  function Unquote(q: string): (r: Option<seq<string>>)
    decreases |q|
  {
    if q == "" then Some([])
    else if |q| < 2 || q[0] != '>' || q[1] != ' ' then None
    else
      var body := q[2..];
      var n := LineLength(body);
      if n == |body| then None
      else match Unquote(body[n + 1..])
        case None => None
        case Some(rest) => Some([body[..n]] + rest)
  }

  /** Unquoting reads one quoted line and goes on with the rest. */
  lemma UnquoteStep(line: string, tail: string)
    requires NoNewline(line)
    ensures Unquote(['>', ' '] + line + ['\n'] + tail)
            == if Unquote(tail).Some? then Some([line] + Unquote(tail).value) else None
  {
    var q := ['>', ' '] + line + ['\n'] + tail;
    var body := q[2..];
    assert body == line + ['\n'] + tail;
    LineLengthOf(line, tail);
    assert body[..|line|] == line;
    assert body[|line| + 1..] == tail;
  }

  /** Quoting is reversible for lines without line feeds, which is what
      SplitLines produces. */
  lemma {:induction false} UnquoteQuoteLines(lines: seq<string>)
    requires forall k :: 0 <= k < |lines| ==> NoNewline(lines[k])
    ensures Unquote(QuoteLines(lines)) == Some(lines)
    decreases |lines|
  {
    if lines != [] {
      UnquoteStep(lines[0], QuoteLines(lines[1..]));
      UnquoteQuoteLines(lines[1..]);
      assert lines == [lines[0]] + lines[1..];
    }
  }

  /** getQuotedTextBody: a header line with the date and the sender, a
      blank line, then every line of the body quoted. */
  function QuotedBody(e: Email): string {
    e.date.long + e.from.address + ['\n', '\n'] + QuoteLines(SplitLines(e.textBody))
  }

  /** The body can be read back out of the quoted text. */
  lemma QuotedBodyRecoversText(e: Email)
    ensures var header := e.date.long + e.from.address + ['\n', '\n'];
            && QuotedBody(e)[..|header|] == header
            && Unquote(QuotedBody(e)[|header|..]).Some?
            && Join(Unquote(QuotedBody(e)[|header|..]).value, "\n") == e.textBody
  {
    var header := e.date.long + e.from.address + ['\n', '\n'];
    assert QuotedBody(e)[|header|..] == QuoteLines(SplitLines(e.textBody));
    UnquoteQuoteLines(SplitLines(e.textBody));
    SplitLinesJoin(e.textBody);
  }

  const ListSep: string := [',', ' ']

  /** Every part followed by the separator, as the loops of
      GetEmailStatsStr append them. */
  function Terminated(parts: seq<string>, sep: string): string {
    if parts == [] then "" else parts[0] + sep + Terminated(parts[1..], sep)
  }

  lemma {:induction false} TerminatedIsJoinPlusSep(parts: seq<string>, sep: string)
    requires parts != []
    ensures Terminated(parts, sep) == Join(parts, sep) + sep
    decreases |parts|
  {
    if |parts| > 1 {
      TerminatedIsJoinPlusSep(parts[1..], sep);
    }
  }

  function FormatAll(addrs: seq<Address>): (r: seq<string>)
    ensures |r| == |addrs|
    ensures forall k :: 0 <= k < |r| ==> r[k] == FormatAddr(addrs[k])
  {
    seq(|addrs|, k requires 0 <= k < |addrs| => FormatAddr(addrs[k]))
  }

  /** One address-list line as GetEmailStatsStr writes it: the tag, every
      rendered address followed by ", ", then strings.TrimSuffix of ", " on
      the text so far, then a line feed. */
  function ListLine(prefix: string, tag: string, addrs: seq<Address>): string {
    TrimSuffix(prefix + tag + Terminated(FormatAll(addrs), ListSep), ListSep) + ['\n']
  }

  /** A labelled address list on one line, the addresses joined by ", ". */
  function Section(tag: string, addrs: seq<Address>): string {
    tag + Join(FormatAll(addrs), ListSep) + ['\n']
  }

  /** Because a tag ends in ": ", the trimming removes exactly the
      separator after the last address, and nothing when the list is empty:
      the line is the addresses joined with ", ". */
  lemma ListLineJoins(prefix: string, tag: string, addrs: seq<Address>)
    requires |tag| >= 2 && tag[|tag| - 2..] == [':', ' ']
    ensures ListLine(prefix, tag, addrs) == prefix + Section(tag, addrs)
  {
    var pre := prefix + tag;
    var j := Join(FormatAll(addrs), ListSep);
    assert pre[|pre| - 2..] == tag[|tag| - 2..];
    if addrs == [] {
      assert Terminated(FormatAll(addrs), ListSep) == "";
      assert pre + "" == pre;
    } else {
      TerminatedIsJoinPlusSep(FormatAll(addrs), ListSep);
      var x := pre + j;
      assert pre + Terminated(FormatAll(addrs), ListSep) == x + ListSep;
      assert (x + ListSep)[|x + ListSep| - |ListSep|..] == ListSep;
      assert (x + ListSep)[..|x + ListSep| - |ListSep|] == x;
    }
    assert pre + j + ['\n'] == prefix + (tag + j + ['\n']);
  }

  const AtLabel: string := ['A', 't', ':', ' ']
  const ToLabel: string := ['T', 'o', ':', ' ']
  const FromLabel: string := ['F', 'r', 'o', 'm', ':', ' ']
  const ReplyToLabel: string := ['R', 'e', 'p', 'l', 'y', ' ', 'T', 'o', ':', ' ']
  const CcLabel: string := ['C', 'c', ':', ' ']
  const BccLabel: string := ['B', 'c', 'c', ':', ' ']
  const SubjectLabel: string := ['S', 'u', 'b', 'j', 'e', 'c', 't', ':', ' ']
  const SpamLabel: string := ['S', 'p', 'a', 'm', ' ', 'S', 'c', 'o', 'r', 'e', ':', ' ']
  const EnvelopeLabel: string := ['E', 'n', 'v', 'e', 'l', 'o', 'p', 'e', ' ', 'F', 'r', 'o', 'm', ':', ' ']
  const HeaderLabel: string := ['H', 'e', 'a', 'd', 'e', 'r', ' ', 'F', 'r', 'o', 'm', ':', ' ']

  function AtLine(e: Email): string {
    AtLabel + e.date.numeric + [' ', '('] + e.date.zone + [')', '\n']
  }

  function AddrLine(tag: string, a: Address): string {
    tag + FormatAddr(a) + ['\n']
  }

  function TextLine(tag: string, text: string): string {
    tag + text + ['\n']
  }

  /** GetEmailStatsStr as written, up to the From line. */
  function SenderText(e: Email): string {
    ListLine(AtLine(e), ToLabel, e.to) + AddrLine(FromLabel, e.from)
  }

  /** GetEmailStatsStr as written, up to the Bcc line: one accumulating
      string, trimmed after each address list. */
  function StatsHeadText(e: Email): string {
    var from := SenderText(e);
    var reply := if e.replyTo.Some? then from + AddrLine(ReplyToLabel, e.replyTo.value) else from;
    var cc := if |e.cc| > 0 then ListLine(reply, CcLabel, e.cc) else reply;
    if |e.bcc| > 0 then ListLine(cc, BccLabel, e.bcc) else cc
  }

  /** GetEmailStatsStr: the head, then subject, spam score and the two
      original sender addresses. */
  function StatsText(e: Email): string {
    StatsHeadText(e) + TextLine(SubjectLabel, e.subject) + TextLine(SpamLabel, e.spamText)
    + AddrLine(EnvelopeLabel, e.origEnvelopeFrom) + AddrLine(HeaderLabel, e.origHeaderFrom)
  }

  /** The head of the statistics block section by section: the Reply To
      line only when there is a Reply-To address, the Cc and Bcc lines only
      when those lists are non-empty, the To line always. */
  function StatsHeadSections(e: Email): seq<string> {
    var head := SenderSections(e);
    var reply := if e.replyTo.Some? then head + [AddrLine(ReplyToLabel, e.replyTo.value)] else head;
    var cc := if |e.cc| > 0 then reply + [Section(CcLabel, e.cc)] else reply;
    if |e.bcc| > 0 then cc + [Section(BccLabel, e.bcc)] else cc
  }

  function SenderSections(e: Email): seq<string> {
    [AtLine(e), Section(ToLabel, e.to), AddrLine(FromLabel, e.from)]
  }

  function StatsSections(e: Email): seq<string> {
    StatsHeadSections(e) + [TextLine(SubjectLabel, e.subject)] + [TextLine(SpamLabel, e.spamText)]
    + [AddrLine(EnvelopeLabel, e.origEnvelopeFrom)] + [AddrLine(HeaderLabel, e.origHeaderFrom)]
  }

  function Concat(parts: seq<string>): string {
    if parts == [] then "" else parts[0] + Concat(parts[1..])
  }

  lemma {:induction false} ConcatSnoc(a: seq<string>, y: string)
    ensures Concat(a + [y]) == Concat(a) + y
    decreases |a|
  {
    if a == [] {
      assert a + [y] == [y];
      assert Concat([y]) == y + Concat([]);
    } else {
      assert (a + [y])[0] == a[0];
      assert (a + [y])[1..] == a[1..] + [y];
      ConcatSnoc(a[1..], y);
    }
  }

  /** An optional line added to both sides keeps them in step. */
  lemma ConcatSnocIf(parts: seq<string>, text: string, present: bool, line: string)
    requires Concat(parts) == text
    ensures Concat(if present then parts + [line] else parts) == if present then text + line else text
  {
    if present {
      ConcatSnoc(parts, line);
    }
  }

  lemma SenderIsSections(e: Email)
    ensures SenderText(e) == Concat(SenderSections(e))
  {
    ListLineJoins(AtLine(e), ToLabel, e.to);
    var s0: seq<string> := [AtLine(e)];
    assert Concat(s0) == AtLine(e) by {
      assert s0[1..] == [];
    }
    ConcatSnoc(s0, Section(ToLabel, e.to));
    var s1 := s0 + [Section(ToLabel, e.to)];
    ConcatSnoc(s1, AddrLine(FromLabel, e.from));
    assert s1 + [AddrLine(FromLabel, e.from)] == SenderSections(e);
  }

  lemma StatsHeadIsSections(e: Email)
    ensures StatsHeadText(e) == Concat(StatsHeadSections(e))
    ensures |StatsHeadSections(e)| == 3 + (if e.replyTo.Some? then 1 else 0)
                                        + (if |e.cc| > 0 then 1 else 0) + (if |e.bcc| > 0 then 1 else 0)
  {
    SenderIsSections(e);
    var from := SenderText(e);
    var reply := if e.replyTo.Some? then from + AddrLine(ReplyToLabel, e.replyTo.value) else from;
    ListLineJoins(reply, CcLabel, e.cc);
    var cc := if |e.cc| > 0 then ListLine(reply, CcLabel, e.cc) else reply;
    ListLineJoins(cc, BccLabel, e.bcc);
    var head := SenderSections(e);
    ConcatSnocIf(head, from, e.replyTo.Some?, if e.replyTo.Some? then AddrLine(ReplyToLabel, e.replyTo.value) else "");
    var sr := if e.replyTo.Some? then head + [AddrLine(ReplyToLabel, e.replyTo.value)] else head;
    ConcatSnocIf(sr, reply, |e.cc| > 0, Section(CcLabel, e.cc));
    var sc := if |e.cc| > 0 then sr + [Section(CcLabel, e.cc)] else sr;
    ConcatSnocIf(sc, cc, |e.bcc| > 0, Section(BccLabel, e.bcc));
  }

  /** The block as written is exactly its sections in order: no address
      list keeps a trailing ", ", and the optional sections appear exactly
      when they have something to show. */
  lemma StatsTextIsSections(e: Email)
    ensures StatsText(e) == Concat(StatsSections(e))
    ensures |StatsSections(e)| == 7 + (if e.replyTo.Some? then 1 else 0)
                                    + (if |e.cc| > 0 then 1 else 0) + (if |e.bcc| > 0 then 1 else 0)
  {
    StatsHeadIsSections(e);
    var sb := StatsHeadSections(e);
    var t1 := sb + [TextLine(SubjectLabel, e.subject)];
    ConcatSnoc(sb, TextLine(SubjectLabel, e.subject));
    var t2 := t1 + [TextLine(SpamLabel, e.spamText)];
    ConcatSnoc(t1, TextLine(SpamLabel, e.spamText));
    var t3 := t2 + [AddrLine(EnvelopeLabel, e.origEnvelopeFrom)];
    ConcatSnoc(t2, AddrLine(EnvelopeLabel, e.origEnvelopeFrom));
    ConcatSnoc(t3, AddrLine(HeaderLabel, e.origHeaderFrom));
  }
}

=== FILE: maintenance.dfy ===
/** The periodic maintenance of config/maintenance.go: dump files older than
    the retention period are deleted, the noticed auto-reply senders are
    forgotten, and the log is rotated. File names carry their creation time
    in microseconds; the clock is a parameter. */
module Maintenance {
  import opened Wrappers
  import opened Text
  import opened Model
  import opened Numbers

  /** The name without every "email_", "event_", "log_", ".json", ".dump"
      and ".log", stripped in that order. */
  function Strip(name: string): string {
    var a := ReplaceAll(name, "email_", "");
    var b := ReplaceAll(a, "event_", "");
    var c := ReplaceAll(b, "log_", "");
    var d := ReplaceAll(c, ".json", "");
    var e := ReplaceAll(d, ".dump", "");
    ReplaceAll(e, ".log", "")
  }

  /** getTimestamp: the name without every token, read as microseconds;
      a name that does not read as a number is dated now. */
  function Timestamp(name: string, now: int): (r: int)
    ensures Atoi(Strip(name)).None? ==> r == now
  {
    match Atoi(Strip(name))
    case None => now
    case Some(micros) => micros
  }

  /** The names the three writers give their files (the mail and event
      dumps, the log), for a creation time in microseconds. */
  function MailDumpName(micros: int): string {
    "email_" + Itoa(micros) + ".dump"
  }

  function EventDumpName(micros: int): string {
    "event_" + Itoa(micros) + ".json"
  }

  function LogName(micros: int): string {
    "log_" + Itoa(micros) + ".log"
  }

  /** The text of a number holds only digits and '-'. */
  predicate NumberText(d: string) {
    forall k :: 0 <= k < |d| ==> IsDigit(d[k]) || d[k] == '-'
  }

  lemma ReplaceHit(s: string, pat: string, repl: string)
    requires |pat| > 0
    ensures ReplaceAll(pat + s, pat, repl) == repl + ReplaceAll(s, pat, repl)
  {
    assert (pat + s)[..|pat|] == pat;
    assert (pat + s)[|pat|..] == s;
  }

  /** A character that does not start the pattern is passed over. */
  lemma ReplaceSkip(c: char, s: string, pat: string, repl: string)
    requires |pat| > 0 && c != pat[0]
    ensures ReplaceAll([c] + s, pat, repl) == [c] + ReplaceAll(s, pat, repl)
  {
    assert ([c] + s)[1..] == s;
    if |s| + 1 >= |pat| {
      assert ([c] + s)[..|pat|][0] == c;
    }
  }

  /** So is one followed by a character that does not go on the pattern. */
  lemma ReplaceSkipSecond(c: char, s: string, pat: string, repl: string)
    requires |pat| > 1 && |s| > 0 && s[0] != pat[1]
    ensures ReplaceAll([c] + s, pat, repl) == [c] + ReplaceAll(s, pat, repl)
  {
    assert ([c] + s)[1..] == s;
    if |s| + 1 >= |pat| {
      assert ([c] + s)[..|pat|][1] == s[0];
    }
  }

  /** A pattern whose first character does not occur is not replaced. */
  lemma ReplaceMiss(s: string, pat: string, repl: string)
    requires |pat| > 0 && pat[0] !in s
    ensures ReplaceAll(s, pat, repl) == s
  {
    forall i | 0 <= i <= |s|
      ensures !OccursAt(s, pat, i)
    {
      if i + |pat| <= |s| {
        assert s[i..i + |pat|][0] == s[i];
        assert s[i] in s;
      }
    }
  }

  /** A number's text in front of the rest is passed over by a pattern that
      starts with neither a digit nor '-'. */
  lemma {:induction false} ReplaceAfterNumber(d: string, s: string, pat: string, repl: string)
    requires NumberText(d) && |pat| > 0 && !IsDigit(pat[0]) && pat[0] != '-'
    ensures ReplaceAll(d + s, pat, repl) == d + ReplaceAll(s, pat, repl)
  {
    if d != [] {
      var r := ReplaceAll(s, pat, repl);
      assert IsDigit(d[0]) || d[0] == '-';
      assert NumberText(d[1..]) by {
        forall k | 0 <= k < |d[1..]|
          ensures IsDigit(d[1..][k]) || d[1..][k] == '-'
        {
          assert d[1..][k] == d[k + 1];
        }
      }
      ReplaceSkip(d[0], d[1..] + s, pat, repl);
      ReplaceAfterNumber(d[1..], s, pat, repl);
      ConsAssoc(d, s);
      ConsAssoc(d, r);
    } else {
      assert d + s == s;
    }
  }

  lemma ConsAssoc(d: string, s: string)
    requires d != []
    ensures d + s == [d[0]] + (d[1..] + s)
  {
  }

  lemma NumberLacks(d: string, c: char)
    requires NumberText(d) && !IsDigit(c) && c != '-'
    ensures c !in d
  {
  }

  lemma ReplaceEmpty(pat: string, repl: string)
    requires |pat| > 0
    ensures ReplaceAll("", pat, repl) == ""
  {
  }

  /** After the number only the pattern itself is left, and it goes. */
  lemma StripTail(d: string, tail: string)
    requires NumberText(d) && |tail| > 0 && !IsDigit(tail[0]) && tail[0] != '-'
    ensures ReplaceAll(d + tail, tail, "") == d
  {
    ReplaceAfterNumber(d, tail, tail, "");
    assert tail == tail + "";
    ReplaceHit("", tail, "");
    ReplaceEmpty(tail, "");
  }

  /** Strip, one token at a time. */
  lemma StripChain(name: string, a: string, b: string, c: string, j: string, e: string, r: string)
    requires ReplaceAll(name, "email_", "") == a && ReplaceAll(a, "event_", "") == b
    requires ReplaceAll(b, "log_", "") == c && ReplaceAll(c, ".json", "") == j
    requires ReplaceAll(j, ".dump", "") == e && ReplaceAll(e, ".log", "") == r
    ensures Strip(name) == r
  {
  }

  /** Stripping the tokens from a mail dump's name leaves the number. */
  lemma StripMailDump(d: string)
    requires NumberText(d)
    ensures Strip("email_" + d + ".dump") == d
  {
    var x := d + ".dump";
    var name := "email_" + d + ".dump";
    assert name == "email_" + x;
    NumberLacks(d, 'e');
    NumberLacks(d, 'l');
    NumberLacks(d, '.');
    ReplaceHit(x, "email_", "");
    ReplaceMiss(x, "email_", "");
    ReplaceMiss(x, "event_", "");
    ReplaceMiss(x, "log_", "");
    DumpKeptByJson(d);
    StripTail(d, ".dump");
    ReplaceMiss(d, ".log", "");
    StripChain(name, x, x, x, x, d, d);
  }

  lemma DumpKeptByJson(d: string)
    requires NumberText(d)
    ensures ReplaceAll(d + ".dump", ".json", "") == d + ".dump"
  {
    ReplaceAfterNumber(d, ".dump", ".json", "");
    assert ".dump" == ['.'] + "dump";
    ReplaceSkipSecond('.', "dump", ".json", "");
    ReplaceMiss("dump", ".json", "");
  }

  /** "email_" does not occur in an event dump's name. */
  lemma EventKeptByEmail(y: string)
    requires 'e' !in y
    ensures ReplaceAll("event_" + y, "email_", "") == "event_" + y
  {
    var tail := "nt_" + y;
    assert "event_" + y == ['e'] + (['v'] + (['e'] + tail));
    ReplaceMiss(tail, "email_", "");
    ReplaceSkipSecond('e', tail, "email_", "");
    ReplaceSkip('v', ['e'] + tail, "email_", "");
    ReplaceSkipSecond('e', ['v'] + (['e'] + tail), "email_", "");
  }

  /** Stripping the tokens from an event dump's name leaves the number. */
  lemma StripEventDump(d: string)
    requires NumberText(d)
    ensures Strip("event_" + d + ".json") == d
  {
    var y := d + ".json";
    var name := "event_" + d + ".json";
    assert name == "event_" + y;
    NumberLacks(d, 'e');
    NumberLacks(d, 'l');
    NumberLacks(d, '.');
    EventKeptByEmail(y);
    ReplaceHit(y, "event_", "");
    ReplaceMiss(y, "event_", "");
    ReplaceMiss(y, "log_", "");
    StripTail(d, ".json");
    ReplaceMiss(d, ".dump", "");
    ReplaceMiss(d, ".log", "");
    StripChain(name, name, y, y, d, d, d);
  }

  lemma LogKeptByOwnName(d: string)
    requires NumberText(d)
    ensures ReplaceAll(d + ".log", "log_", "") == d + ".log"
  {
    ReplaceAfterNumber(d, ".log", "log_", "");
    assert ".log" == ['.'] + "log";
    ReplaceSkip('.', "log", "log_", "");
  }

  /** Stripping the tokens from a log's name leaves the number. */
  lemma StripLog(d: string)
    requires NumberText(d)
    ensures Strip("log_" + d + ".log") == d
  {
    var z := d + ".log";
    var name := "log_" + d + ".log";
    assert name == "log_" + z;
    NumberLacks(d, 'e');
    ReplaceMiss(name, "email_", "");
    ReplaceMiss(name, "event_", "");
    ReplaceHit(z, "log_", "");
    LogKeptByOwnName(d);
    ReplaceAfterNumber(d, ".log", ".json", "");
    ReplaceAfterNumber(d, ".log", ".dump", "");
    StripTail(d, ".log");
    StripChain(name, name, name, z, z, z, d);
  }

  /** Every file the parser writes is dated by the time in its name. */
  lemma TimestampOfOwnFiles(micros: int, now: int)
    requires MinInt64 <= micros <= MaxInt64
    ensures Timestamp(MailDumpName(micros), now) == micros
    ensures Timestamp(EventDumpName(micros), now) == micros
    ensures Timestamp(LogName(micros), now) == micros
  {
    AtoiItoa(micros);
    StripMailDump(Itoa(micros));
    StripEventDump(Itoa(micros));
    StripLog(Itoa(micros));
  }

  const MicrosPerDay: int := 86_400_000_000

  /** now minus keepDays days. */
  function Cutoff(now: int, keepDays: int): int {
    now - keepDays * MicrosPerDay
  }

  /** The retention rule of deleteOldEmails: nothing when keepDays is 0,
      otherwise every file dated strictly before the cutoff. */
  predicate Expired(name: string, now: int, keepDays: int) {
    keepDays != 0 && Timestamp(name, now) < Cutoff(now, keepDays)
  }

  /** deleteOldEmails: the names of the dump directory to delete, in
      directory order. */
  function OldFiles(names: seq<string>, now: int, keepDays: int): (r: seq<string>)
    ensures forall x :: x in r <==> x in names && Expired(x, now, keepDays)
    ensures keepDays == 0 ==> r == []
    ensures |r| <= |names|
  {
    if keepDays == 0 || names == [] then []
    else
      var rest := OldFiles(names[1..], now, keepDays);
      assert forall x :: x in names <==> x == names[0] || x in names[1..];
      if Expired(names[0], now, keepDays) then [names[0]] + rest else rest
  }

  /** A name that is not a number is dated now, so a positive retention
      period never deletes it. */
  lemma UndatedKept(names: seq<string>, name: string, now: int, keepDays: int)
    requires keepDays > 0 && Atoi(Strip(name)).None?
    ensures name !in OldFiles(names, now, keepDays)
  {
  }

  /** A mail dump is deleted exactly when it is listed and was written
      before the cutoff. */
  lemma MailDumpRetention(names: seq<string>, micros: int, now: int, keepDays: int)
    requires MinInt64 <= micros <= MaxInt64 && keepDays != 0
    ensures MailDumpName(micros) in OldFiles(names, now, keepDays)
            <==> MailDumpName(micros) in names && micros < Cutoff(now, keepDays)
  {
    TimestampOfOwnFiles(micros, now);
  }

  /** The steps of Maintenance, in order. */
  datatype Chore = Remove(path: string) | ForgetNoticed | RotateLog(path: string)

  /** What maintenance leaves: the steps taken and the noticed set after. */
  datatype Maintained = Maintained(chores: seq<Chore>, noticed: NoticedOutOfOffice)

  function Removals(dir: string, names: seq<string>): (r: seq<Chore>)
    ensures |r| == |names|
    ensures forall k :: 0 <= k < |names| ==> r[k] == Remove(dir + "/" + names[k])
  {
    seq(|names|, k requires 0 <= k < |names| => Remove(dir + "/" + names[k]))
  }

  /** Maintenance: delete the expired files of the dump directory, then
      forget every noticed sender, then start a new log named by the
      time. */
  function Maintain(cfg: Config, names: seq<string>, now: int, noticed: NoticedOutOfOffice): (r: Maintained)
    ensures r.noticed == {}
    ensures |r.chores| >= 2
    ensures r.chores[|r.chores| - 1] == RotateLog(cfg.dumpDir + "/" + LogName(now))
    ensures r.chores[|r.chores| - 2] == ForgetNoticed
    ensures forall k :: 0 <= k < |r.chores| - 2 ==>
              r.chores[k].Remove? && exists x :: x in names && Expired(x, now, cfg.emailKeepDays) &&
                                            r.chores[k].path == cfg.dumpDir + "/" + x
    ensures forall x :: x in names && Expired(x, now, cfg.emailKeepDays) ==>
              Remove(cfg.dumpDir + "/" + x) in r.chores
  {
    var expired := OldFiles(names, now, cfg.emailKeepDays);
    var removals := Removals(cfg.dumpDir, expired);
    var chores := removals + [ForgetNoticed, RotateLog(cfg.dumpDir + "/" + LogName(now))];
    assert forall k :: 0 <= k < |removals| ==> chores[k] == removals[k] && expired[k] in expired;
    assert forall x :: x in expired ==> exists k :: 0 <= k < |expired| && expired[k] == x && chores[k] == Remove(cfg.dumpDir + "/" + x);
    Maintained(chores, {})
  }
}

=== FILE: model.dfy ===
/** The records shared by every part of the parser: the static topology of
    installations and service desks, the parsed email, the request fetched
    from Jira, and the decision context built for one email.

    References into the topology become indices: an installation is named by
    its position in Config.installs and a service desk by a DeskRef. The back
    reference from a desk to its installation (ServiceDesk.JiraInstall) is the
    DeskRef's first component, so it cannot disagree with the nesting. */
module Model {
  import opened Wrappers

  type Byte = b: int | 0 <= b < 256

  datatype Address = Address(name: string, address: string)

  datatype File = File(name: string, bytes: seq<Byte>)

  datatype Request = Request(
    issueKey: string,
    serviceDeskId: string,
    portalLink: string,
    status: string,
    reporter: string,
    assignee: string)

  /** The renderings of a mail's date that the parser prints: the numeric
      one of the statistics block ("02.01.2006 15:04:05"), its time zone, and
      the long one that heads a quoted body ("2 January 2006 15:04:05 "). */
  datatype DateText = DateText(numeric: string, zone: string, long: string)

  /** A parsed email. Date and spam score keep the text the external time and
      float formatters render for them (date, spamText), next to the numeric
      score the spam check compares. */
  datatype Email = Email(
    date: DateText,
    from: Address,
    origHeaderFrom: Address,
    origEnvelopeFrom: Address,
    to: seq<Address>,
    replyTo: Option<Address>,
    cc: seq<Address>,
    bcc: seq<Address>,
    subject: string,
    senderIp: string,
    spamScore: real,
    spamText: string,
    textBody: string,
    files: seq<File>,
    isAutoReply: bool,
    isMalware: bool)

  /** Fields read from the YAML file, plus the ones the loader derives:
      id, requestTypeId, onlyCreateEventRequests, replyAddress and
      hasCreationTemplate (the parsed request-creation template). */
  datatype ServiceDesk = ServiceDesk(
    projectKey: string,
    id: string,
    createEventRequests: bool,
    onlyCreateEventRequests: bool,
    emails: seq<string>,
    replyEmailName: string,
    replyAddress: Option<Address>,
    requestType: string,
    requestTypeId: string,
    requestPostfix: string,
    requestCreationEmailTextPlainPath: string,
    hasCreationTemplate: bool,
    dontCommentRequestStatus: seq<string>,
    replyAboveThis: string)

  /** hasRejectedTemplate and replyAddress are derived by the loader. */
  datatype JiraInstall = JiraInstall(
    url: string,
    token: string,
    adminToken: string,
    emails: seq<string>,
    rejectedMailSubject: string,
    rejectedMailPath: string,
    replyEmailName: string,
    hasRejectedTemplate: bool,
    replyAddress: Option<Address>,
    desks: seq<ServiceDesk>)

  /** handleEventsDesk is derived by the loader. */
  datatype Config = Config(
    criticalMailTo: string,
    criticalMailFrom: string,
    dumpRequests: bool,
    parseRequests: bool,
    debugParseOnly: bool,
    sendEmails: bool,
    handleEvents: bool,
    handleEventsUsername: string,
    handleEventsDesk: Option<DeskRef>,
    checkMalware: bool,
    clamAVScandir: string,
    dumpDir: string,
    emailKeepDays: int,
    maxSpamScore: real,
    port: int,
    domain: string,
    installs: seq<JiraInstall>,
    emailWhitelist: seq<string>,
    maxParticipants: nat,
    sendEmailHost: string,
    sendEmailPort: int,
    dontReplyToEmails: seq<string>)

  /** Desk `desk` of installation `install`. */
  datatype DeskRef = DeskRef(install: nat, desk: nat)

  predicate ValidInstall(cfg: Config, i: int) {
    0 <= i < |cfg.installs|
  }

  predicate ValidDesk(cfg: Config, d: DeskRef) {
    d.install < |cfg.installs| && d.desk < |cfg.installs[d.install].desks|
  }

  function DeskAt(cfg: Config, d: DeskRef): ServiceDesk
    requires ValidDesk(cfg, d)
  {
    cfg.installs[d.install].desks[d.desk]
  }

  /** Everything the decision chain needs for one email. */
  datatype HandlingParam = HandlingParam(
    email: Email,
    dontReplyTo: bool,
    whitelisted: bool,
    install: Option<nat>,
    senderUsername: string,
    desk: Option<DeskRef>,
    request: Option<Request>,
    dontComment: bool,
    requestDesk: Option<DeskRef>)

  /** The senders whose auto-reply has already been turned into a comment
      since the last maintenance run. */
  type NoticedOutOfOffice = set<string>
}

=== FILE: numbers.dfy ===
/** strconv.Itoa and strconv.Atoi on Go's 64-bit int, which name and date
    the dump and log files. */
module Numbers {
  import opened Wrappers
  import opened Text

  const MinInt64: int := -0x8000_0000_0000_0000
  const MaxInt64: int := 0x7FFF_FFFF_FFFF_FFFF

  predicate AllDigits(s: string) {
    forall k :: 0 <= k < |s| ==> IsDigit(s[k])
  }

  function DigitChar(d: nat): (c: char)
    requires d < 10
    ensures IsDigit(c) && c as int - '0' as int == d
  {
    ('0' as int + d) as char
  }

  /** The decimal digits of n, without leading zeros. */
  function Digits(n: nat): (r: string)
    ensures r != [] && AllDigits(r)
    ensures |r| > 1 ==> r[0] != '0'
    decreases n
  {
    if n < 10 then [DigitChar(n)]
    else
      var head := Digits(n / 10);
      assert (head + [DigitChar(n % 10)])[0] == head[0];
      head + [DigitChar(n % 10)]
  }

  /** The number a string of decimal digits denotes. */
  function DigitsValue(s: string): nat
    requires AllDigits(s)
  {
    if s == [] then 0
    else DigitsValue(s[..|s| - 1]) * 10 + (s[|s| - 1] as int - '0' as int)
  }

  lemma {:induction false} DigitsRoundTrip(n: nat)
    ensures DigitsValue(Digits(n)) == n
    decreases n
  {
    if n >= 10 {
      var r := Digits(n);
      assert r[..|r| - 1] == Digits(n / 10);
      DigitsRoundTrip(n / 10);
    }
  }

  /** strconv.Itoa: a '-' for negative numbers, then the digits. */
  function Itoa(n: int): (r: string)
    ensures r != []
    ensures forall k :: 0 <= k < |r| ==> IsDigit(r[k]) || r[k] == '-'
  {
    if n < 0 then "-" + Digits(-n) else Digits(n)
  }

  /** strconv.Atoi: an optional sign, then at least one decimal digit, the
      value within 64 bits; anything else is an error. */
  function Atoi(s: string): (r: Option<int>)
    ensures r.Some? ==> MinInt64 <= r.value <= MaxInt64
  {
    if s == [] then None
    else
      var body := if s[0] == '-' || s[0] == '+' then s[1..] else s;
      if body == [] || !AllDigits(body) then None
      else
        var magnitude: int := DigitsValue(body);
        var v := if s[0] == '-' then -magnitude else magnitude;
        if MinInt64 <= v <= MaxInt64 then Some(v) else None
  }

  /** Atoi reads back what Itoa writes, for every 64-bit int. */
  lemma AtoiItoa(n: int)
    requires MinInt64 <= n <= MaxInt64
    ensures Atoi(Itoa(n)) == Some(n)
  {
    if n < 0 {
      DigitsRoundTrip(-n);
      assert Itoa(n)[1..] == Digits(-n);
    } else {
      DigitsRoundTrip(n);
    }
  }

  /** Atoi rejects every text holding a character that is neither a digit
      nor a leading sign. */
  lemma AtoiRejectsLetters(s: string, k: nat)
    requires 0 < k < |s| && !IsDigit(s[k])
    ensures Atoi(s) == None
  {
    if s[0] == '-' || s[0] == '+' {
      assert s[1..][k - 1] == s[k];
    }
  }
}

=== FILE: prepare.dfy ===
/** Everything the handler needs to know about one mail before it decides
    (handler/prepare_handler.go): the sender's standing on the two address
    lists, the desk or installation the mail was sent to, the sender's Jira
    user, the request the subject refers to, and whether that request may be
    commented on. */
module Prepare {
  import opened Wrappers
  import opened Model
  import opened Topology
  import opened Effects
  import opened JiraActor
  import opened AddressLists
  import opened SubjectKeys
  import opened EmailToJira

  /** The recipients as the resolution scans them: To, then Cc, then Bcc. */
  function ScanOrder(e: Email): seq<Address> {
    e.to + e.cc + e.bcc
  }

  /** The position of the first recipient some desk owns, or |rs|. */
  function FirstDeskIndex(cfg: Config, rs: seq<Address>): (k: nat)
    ensures k <= |rs|
    ensures k < |rs| ==> DeskFromMail(cfg, rs[k].address).Some?
    ensures forall n :: 0 <= n < k ==> DeskFromMail(cfg, rs[n].address).None?
  {
    if rs == [] then 0
    else if DeskFromMail(cfg, rs[0].address).Some? then 0
    else 1 + FirstDeskIndex(cfg, rs[1..])
  }

  /** The position of the first recipient some installation owns, or |rs|. */
  function FirstInstallIndex(cfg: Config, rs: seq<Address>): (k: nat)
    ensures k <= |rs|
    ensures k < |rs| ==> InstallFromMail(cfg, rs[k].address).Some?
    ensures forall n :: 0 <= n < k ==> InstallFromMail(cfg, rs[n].address).None?
  {
    if rs == [] then 0
    else if InstallFromMail(cfg, rs[0].address).Some? then 0
    else 1 + FirstInstallIndex(cfg, rs[1..])
  }

  /** Where a mail goes: a desk and its installation, an installation
      alone, or nowhere. */
  datatype Addressed = Addressed(desk: Option<DeskRef>, install: Option<nat>)

  /** The recipient scan of prepareEmailHandling: the desk of the first
      recipient a desk owns, with that desk's installation; failing that,
      the installation of the first recipient an installation owns. A desk
      anywhere in the list beats an installation anywhere. */
  function Recipients(cfg: Config, e: Email): (r: Addressed)
    ensures r.desk.Some? ==> ValidDesk(cfg, r.desk.value) && r.install == Some(r.desk.value.install)
    ensures r.install.Some? ==> ValidInstall(cfg, r.install.value)
    ensures r.desk.Some? <==> exists k :: 0 <= k < |ScanOrder(e)| && DeskFromMail(cfg, ScanOrder(e)[k].address).Some?
    ensures r.desk.Some? ==> exists k :: 0 <= k < |ScanOrder(e)| && DeskFromMail(cfg, ScanOrder(e)[k].address) == r.desk
    ensures r.install.None? <==>
              forall k :: 0 <= k < |ScanOrder(e)| ==>
                DeskFromMail(cfg, ScanOrder(e)[k].address).None? && InstallFromMail(cfg, ScanOrder(e)[k].address).None?
  {
    var rs := ScanOrder(e);
    var dk := FirstDeskIndex(cfg, rs);
    if dk < |rs| then
      var d := DeskFromMail(cfg, rs[dk].address).value;
      Addressed(Some(d), Some(d.install))
    else
      var ik := FirstInstallIndex(cfg, rs);
      if ik < |rs| then Addressed(None, InstallFromMail(cfg, rs[ik].address))
      else Addressed(None, None)
  }

  /** The recipient that decides the desk is the first one a desk owns. */
  lemma RecipientDeskIsFirst(cfg: Config, e: Email, k: nat)
    requires k < |ScanOrder(e)| && DeskFromMail(cfg, ScanOrder(e)[k].address).Some?
    requires forall n :: 0 <= n < k ==> DeskFromMail(cfg, ScanOrder(e)[n].address).None?
    ensures Recipients(cfg, e).desk == DeskFromMail(cfg, ScanOrder(e)[k].address)
  {
    var dk := FirstDeskIndex(cfg, ScanOrder(e));
    assert dk == k;
  }

  /** With no desk among the recipients, the installation chosen is that of
      the first recipient, in To, Cc, Bcc order, that an installation
      owns. */
  lemma RecipientInstallIsFirst(cfg: Config, e: Email, k: nat)
    requires forall n :: 0 <= n < |ScanOrder(e)| ==> DeskFromMail(cfg, ScanOrder(e)[n].address).None?
    requires k < |ScanOrder(e)| && InstallFromMail(cfg, ScanOrder(e)[k].address).Some?
    requires forall n :: 0 <= n < k ==> InstallFromMail(cfg, ScanOrder(e)[n].address).None?
    ensures Recipients(cfg, e) == Addressed(None, InstallFromMail(cfg, ScanOrder(e)[k].address))
  {
    var rs := ScanOrder(e);
    assert FirstDeskIndex(cfg, rs) == |rs|;
    assert FirstInstallIndex(cfg, rs) == k;
  }

  /** A matched request and the registered desk it belongs to. */
  datatype Referenced = Referenced(request: Request, desk: DeskRef)

  /** The issue keys fetched in trace[from..], in order. */
  function Fetched(trace: Trace, from: nat): seq<string>
    decreases |trace|
  {
    if |trace| <= from then []
    else
      var last := trace[|trace| - 1];
      Fetched(trace[..|trace| - 1], from) + (if last.IssueGet? then [last.key] else [])
  }

  lemma {:induction false} FetchedSplit(t: Trace, u: Trace, v: Trace)
    requires t <= u <= v
    ensures Fetched(v, |t|) == Fetched(u, |t|) + Fetched(v, |u|)
    decreases |v|
  {
    if |v| > |u| {
      var w := v[..|v| - 1];
      var last := if v[|v| - 1].IssueGet? then [v[|v| - 1].key] else [];
      assert u <= w;
      FetchedSplit(t, u, w);
      assert Fetched(v, |t|) == Fetched(w, |t|) + last;
      assert Fetched(v, |u|) == Fetched(w, |u|) + last;
      assert (Fetched(u, |t|) + Fetched(w, |u|)) + last == Fetched(u, |t|) + (Fetched(w, |u|) + last);
    } else {
      assert v == u && Fetched(v, |u|) == [];
      assert Fetched(u, |t|) + [] == Fetched(u, |t|);
    }
  }

  /** The fetches of one key. */
  lemma FetchCalls(t: Trace, i: nat, key: string, u: Trace)
    requires u == t + [IssueGet(i, key)] || u == t + [IssueGet(i, key), RequestGet(i, key)]
    ensures Fetched(u, |t|) == [key] && Quiet(t, u)
  {
    var v := t + [IssueGet(i, key)];
    assert v[..|t|] == t;
    assert Fetched(v, |t|) == [key];
    if u != v {
      assert u[..|v|] == v;
    }
  }

  /** GetRequest fetches exactly its key, and does nothing visible. */
  lemma FetchOne(t: Trace, srv: Server, i: nat, key: string)
    ensures var s := GetRequest(t, srv, i, key);
            Fetched(s.trace, |t|) == [key] && Quiet(t, s.trace)
  {
    FetchCalls(t, i, key, GetRequest(t, srv, i, key).trace);
  }

  /** A fetched request the scan passes over: none, or one whose desk id is
      not registered. */
  predicate Unregistered(cfg: Config, got: Option<Request>) {
    got.None? || DeskFromId(cfg, got.value.serviceDeskId).None?
  }

  /** Fetching keys one after another from t passes over each of them and
      ends at trace u. */
  predicate PassedOver(t: Trace, srv: Server, cfg: Config, i: nat, keys: seq<string>, u: Trace)
    decreases |keys|
  {
    if keys == [] then u == t
    else
      var got := GetRequest(t, srv, i, keys[0]);
      Unregistered(cfg, got.res.value) && PassedOver(got.trace, srv, cfg, i, keys[1..], u)
  }

  /** Passing over the first key and then scanning the rest passes over
      the first key and whatever the rest passed over. */
  lemma PassOverStep(t: Trace, srv: Server, cfg: Config, i: nat, keys: seq<string>,
                     got: Step<Option<Request>>, rest: Step<Option<Referenced>>)
    requires keys != [] && got == GetRequest(t, srv, i, keys[0]) && Unregistered(cfg, got.res.value)
    requires Quiet(got.trace, rest.trace) && Fetched(rest.trace, |got.trace|) <= keys[1..]
    requires rest.res == Ok(None) ==>
               Fetched(rest.trace, |got.trace|) == keys[1..] && PassedOver(got.trace, srv, cfg, i, keys[1..], rest.trace)
    ensures Quiet(t, rest.trace) && Fetched(rest.trace, |t|) <= keys
    ensures rest.res == Ok(None) ==> Fetched(rest.trace, |t|) == keys && PassedOver(t, srv, cfg, i, keys, rest.trace)
  {
    FetchOne(t, srv, i, keys[0]);
    FetchedSplit(t, got.trace, rest.trace);
    assert keys == [keys[0]] + keys[1..];
    forall k | |t| <= k < |rest.trace|
      ensures !IsAction(rest.trace[k])
    {
      if k < |got.trace| {
        assert rest.trace[k] == got.trace[k];
      }
    }
  }

  /** The subject scan of getRequestFromEmail over the remaining keys: the
      first key that fetches to a request whose desk id is registered (on
      any installation, never an event-only desk) wins; a key that does not
      fetch, or whose desk is unknown, is passed over. */
  function RequestFromKeys(t: Trace, srv: Server, cfg: Config, i: nat, keys: seq<string>): (s: Step<Option<Referenced>>)
    ensures s.res.Ok? && Quiet(t, s.trace)
    ensures Fetched(s.trace, |t|) <= keys
    ensures s.res == Ok(None) ==> Fetched(s.trace, |t|) == keys
    ensures s.res.Ok? && s.res.value.Some? ==>
              var f := s.res.value.value;
              && DeskFromId(cfg, f.request.serviceDeskId) == Some(f.desk)
              && ValidDesk(cfg, f.desk) && !DeskAt(cfg, f.desk).onlyCreateEventRequests
    ensures s.res == Ok(None) ==> PassedOver(t, srv, cfg, i, keys, s.trace)
    decreases |keys|
  {
    if keys == [] then Step(Ok(None), t)
    else
      var got := GetRequest(t, srv, i, keys[0]);
      FetchOne(t, srv, i, keys[0]);
      if Unregistered(cfg, got.res.value) then
        var rest := RequestFromKeys(got.trace, srv, cfg, i, keys[1..]);
        PassOverStep(t, srv, cfg, i, keys, got, rest);
        rest
      else
        var request := got.res.value.value;
        Step(Ok(Some(Referenced(request, DeskFromId(cfg, request.serviceDeskId).value))), got.trace)
  }

  /** getRequestFromEmail: the scan over the candidate keys of the subject. */
  function RequestFromSubject(t: Trace, srv: Server, cfg: Config, i: nat, subject: string): (s: Step<Option<Referenced>>)
    ensures s.res.Ok? && Quiet(t, s.trace)
    ensures Fetched(s.trace, |t|) <= Keys(subject)
    ensures s.res == Ok(None) ==> Fetched(s.trace, |t|) == Keys(subject)
    ensures s.res.Ok? && s.res.value.Some? ==>
              var f := s.res.value.value;
              && DeskFromId(cfg, f.request.serviceDeskId) == Some(f.desk)
              && ValidDesk(cfg, f.desk) && !DeskAt(cfg, f.desk).onlyCreateEventRequests
  {
    RequestFromKeys(t, srv, cfg, i, Keys(subject))
  }

  /** Key n is where the scan from t stops with step s: the keys before it
      were passed over, ending at trace u, and its fetch from u found a
      request with a registered desk, which s reports. */
  predicate FoundAt(t: Trace, srv: Server, cfg: Config, i: nat, keys: seq<string>, n: nat, u: Trace,
                    s: Step<Option<Referenced>>)
  {
    && n < |keys| && PassedOver(t, srv, cfg, i, keys[..n], u)
    && var got := GetRequest(u, srv, i, keys[n]);
       && got.res.value.Some? && !Unregistered(cfg, got.res.value)
       && s.trace == got.trace && s.res.Ok? && s.res.value.Some? && s.res.value.value.request == got.res.value.value
  }

  /** Passing over one more key in front. */
  lemma PassedOverCons(t: Trace, srv: Server, cfg: Config, i: nat, keys: seq<string>, n: nat, u: Trace)
    requires keys != [] && n < |keys|
    requires Unregistered(cfg, GetRequest(t, srv, i, keys[0]).res.value)
    requires PassedOver(GetRequest(t, srv, i, keys[0]).trace, srv, cfg, i, keys[1..][..n], u)
    ensures PassedOver(t, srv, cfg, i, keys[..n + 1], u)
  {
    assert keys[..n + 1][1..] == keys[1..][..n];
  }

  /** The scan's answer is the first key whose request has a registered
      desk: every key before it was passed over, and the request found is
      that key's fetch, after which nothing more is fetched. */
  lemma {:induction false} FirstRegisteredWins(t: Trace, srv: Server, cfg: Config, i: nat, keys: seq<string>)
    requires RequestFromKeys(t, srv, cfg, i, keys).res.value.Some?
    ensures exists n: nat, u :: FoundAt(t, srv, cfg, i, keys, n, u, RequestFromKeys(t, srv, cfg, i, keys))
    decreases |keys|
  {
    var s := RequestFromKeys(t, srv, cfg, i, keys);
    var got := GetRequest(t, srv, i, keys[0]);
    if Unregistered(cfg, got.res.value) {
      assert s == RequestFromKeys(got.trace, srv, cfg, i, keys[1..]);
      FirstRegisteredWins(got.trace, srv, cfg, i, keys[1..]);
      var n: nat, u :| FoundAt(got.trace, srv, cfg, i, keys[1..], n, u, s);
      PassedOverCons(t, srv, cfg, i, keys, n, u);
      assert keys[n + 1] == keys[1..][n];
      assert FoundAt(t, srv, cfg, i, keys, n + 1, u, s);
    } else {
      assert keys[..0] == [];
      assert FoundAt(t, srv, cfg, i, keys, 0, t, s);
    }
  }

  /** getRequestFromEmail finds the first request of the subject, in the
      order the keys appear, whose desk is registered; finding none, it has
      passed over every key. */
  lemma SubjectFirstRegisteredWins(t: Trace, srv: Server, cfg: Config, i: nat, subject: string)
    ensures var s := RequestFromSubject(t, srv, cfg, i, subject);
            && (s.res.value.None? ==> PassedOver(t, srv, cfg, i, Keys(subject), s.trace))
            && (s.res.value.Some? ==> exists n: nat, u :: FoundAt(t, srv, cfg, i, Keys(subject), n, u, s))
  {
    if RequestFromSubject(t, srv, cfg, i, subject).res.value.Some? {
      FirstRegisteredWins(t, srv, cfg, i, Keys(subject));
    }
  }

  /** A subject without candidate keys makes no call and finds nothing. */
  lemma NoKeysNoFetch(t: Trace, srv: Server, cfg: Config, i: nat, subject: string)
    requires Keys(subject) == []
    ensures RequestFromSubject(t, srv, cfg, i, subject) == Step(Ok(None), t)
  {
  }

  /** The request is one whose status its own desk does not want
      commented. */
  predicate Suppressed(cfg: Config, f: Option<Referenced>)
    requires f.Some? ==> ValidDesk(cfg, f.value.desk)
  {
    f.Some? && f.value.request.status in DeskAt(cfg, f.value.desk).dontCommentRequestStatus
  }

  /** The handling parameters of a mail sent nowhere the parser knows. */
  function Unaddressed(e: Email, dontReplyTo: bool, whitelisted: bool): HandlingParam {
    HandlingParam(e, dontReplyTo, whitelisted, None, "", None, None, false, None)
  }

  /** The part of prepareEmailHandling after the recipient scan found
      installation i: the sender's user, then the subject's request and
      whether it may be commented on. */
  function Addressees(t: Trace, srv: Server, cfg: Config, e: Email, to: Addressed,
                      dontReplyTo: bool, whitelisted: bool): (s: Step<HandlingParam>)
    requires to.install.Some? && ValidInstall(cfg, to.install.value)
    ensures Quiet(t, s.trace)
    ensures t < s.trace && s.trace[|t|] == UserSearch(to.install.value, e.from.address)
    ensures s.res.Ok? ==>
              var hp := s.res.value;
              && hp.email == e && hp.dontReplyTo == dontReplyTo && hp.whitelisted == whitelisted
              && hp.install == to.install && hp.desk == to.desk
              && (hp.request.Some? <==> hp.requestDesk.Some?)
              && (hp.requestDesk.Some? ==>
                    && DeskFromId(cfg, hp.request.value.serviceDeskId) == hp.requestDesk
                    && ValidDesk(cfg, hp.requestDesk.value)
                    && (hp.dontComment <==> hp.request.value.status in DeskAt(cfg, hp.requestDesk.value).dontCommentRequestStatus))
              && (hp.request.None? ==> !hp.dontComment)
    ensures var user := ResolveUser(t, srv, cfg, to.install.value, e.from);
            && (user.res.Err? ==> s == Step(Err(user.res.msg), user.trace))
            && (user.res.Ok? ==>
                  var found := RequestFromSubject(user.trace, srv, cfg, to.install.value, e.subject).res.value;
                  && s.res.Ok? && s.res.value.senderUsername == user.res.value
                  && s.res.value.request == (if found.Some? then Some(found.value.request) else None)
                  && s.res.value.requestDesk == (if found.Some? then Some(found.value.desk) else None))
  {
    var i := to.install.value;
    var user := ResolveUser(t, srv, cfg, i, e.from);
    UserCallsQuiet(t, user.trace, cfg, i, e.from);
    if user.res.Err? then Step(Err(user.res.msg), user.trace)
    else
      // The subject scan never fails: GetRequest reports a failed fetch as
      // no request.
      var found := RequestFromSubject(user.trace, srv, cfg, i, e.subject);
      var f := found.res.value;
      var request := if f.Some? then Some(f.value.request) else None;
      var requestDesk := if f.Some? then Some(f.value.desk) else None;
      Step(Ok(HandlingParam(e, dontReplyTo, whitelisted, to.install, user.res.value, to.desk,
                            request, Suppressed(cfg, f), requestDesk)), found.trace)
  }

  /** prepareEmailHandling, given the outcome of parsing the mail: a parse
      failure is returned as it is; a mail to no known address comes back
      without user, request or desk and without any call; otherwise the
      sender is resolved before the subject is scanned. Preparation makes
      searches, fetches and customer creations only: nothing visible. */
  function PrepareHandling(t: Trace, srv: Server, cfg: Config, parsed: Result<Email>): (s: Step<HandlingParam>)
    ensures Quiet(t, s.trace)
    ensures parsed.Err? ==> s == Step(Err(parsed.msg), t)
    ensures s.res.Ok? ==> parsed.Ok? && s.res.value.email == parsed.value
    ensures s.res.Ok? ==>
              && s.res.value.dontReplyTo == NotToReplyTo(cfg, parsed.value.from.address)
              && s.res.value.whitelisted == Whitelisted(cfg, parsed.value.from.address)
    ensures parsed.Ok? ==>
              var to := Recipients(cfg, parsed.value);
              && (to.install.None? ==> s.trace == t && s.res.Ok? && s.res.value.install.None?
                                       && s.res.value.senderUsername == "" && s.res.value.request.None?
                                       && s.res.value.desk.None?)
              && (to.install.Some? ==> t < s.trace && s.trace[|t|] == UserSearch(to.install.value, parsed.value.from.address))
              && (s.res.Ok? ==> s.res.value.install == to.install && s.res.value.desk == to.desk)
    ensures s.res.Ok? ==>
              var hp := s.res.value;
              && (hp.desk.Some? ==> ValidDesk(cfg, hp.desk.value) && hp.install == Some(hp.desk.value.install))
              && (hp.install.Some? ==> ValidInstall(cfg, hp.install.value))
              && (hp.request.Some? <==> hp.requestDesk.Some?)
              && (hp.requestDesk.Some? ==>
                    && DeskFromId(cfg, hp.request.value.serviceDeskId) == hp.requestDesk
                    && ValidDesk(cfg, hp.requestDesk.value)
                    && (hp.dontComment <==> hp.request.value.status in DeskAt(cfg, hp.requestDesk.value).dontCommentRequestStatus))
              && (hp.request.None? ==> !hp.dontComment)
  {
    if parsed.Err? then Step(Err(parsed.msg), t)
    else
      var e := parsed.value;
      var dontReplyTo := NotToReplyTo(cfg, e.from.address);
      var whitelisted := Whitelisted(cfg, e.from.address);
      var to := Recipients(cfg, e);
      if to.install.None? then Step(Ok(Unaddressed(e, dontReplyTo, whitelisted)), t)
      else Addressees(t, srv, cfg, e, to, dontReplyTo, whitelisted)
  }

  /** For a mail addressed to an installation, preparing fails exactly when
      the sender cannot be resolved to a Jira user, and otherwise carries the
      resolved username and the request the subject names. */
  lemma PreparedLookups(t: Trace, srv: Server, cfg: Config, parsed: Result<Email>)
    requires parsed.Ok? && Recipients(cfg, parsed.value).install.Some?
    ensures var i := Recipients(cfg, parsed.value).install.value;
            var user := ResolveUser(t, srv, cfg, i, parsed.value.from);
            var s := PrepareHandling(t, srv, cfg, parsed);
            && (s.res.Err? <==> user.res.Err?)
            && (user.res.Err? ==> s == Step(Err(user.res.msg), user.trace))
            && (user.res.Ok? ==>
                  var found := RequestFromSubject(user.trace, srv, cfg, i, parsed.value.subject).res.value;
                  && s.res.value.senderUsername == user.res.value
                  && s.res.value.request == (if found.Some? then Some(found.value.request) else None))
  {
    var e := parsed.value;
    var s := Addressees(t, srv, cfg, e, Recipients(cfg, e), NotToReplyTo(cfg, e.from.address), Whitelisted(cfg, e.from.address));
    assert PrepareHandling(t, srv, cfg, parsed) == s;
  }
}

=== FILE: replay.dfy ===
/** Replaying dumped mails and events (email_loader/dump_loader.go). Every
    received mail or event is first written to the dump directory and
    recorded unhandled; replay hands the unhandled ones to the handlers
    again and records those that now succeed. Reading a dump and the two
    handlers are parameters: the handlers themselves are Handler.HandleEmail
    and Events.HandleEvent. */
module Replay {
  import opened Wrappers
  import opened Text
  import opened Model

  /** What became of one dump. */
  datatype Outcome = Unreadable | Failed | Done

  datatype Visit = MailVisit(name: string, outcome: Outcome) | EventVisit(name: string, outcome: Outcome)

  /** A mail handler's answer: its result and the noticed set after it. */
  datatype MailOutcome = MailOutcome(res: Result<()>, noticed: NoticedOutOfOffice)

  datatype Env = Env(
    read: string -> Result<string>,
    handleMail: (string, NoticedOutOfOffice) -> MailOutcome,
    handleEvent: string -> Result<()>)

  /** The two tables of handled flags, the noticed set, and the dumps
      visited so far. */
  datatype State = State(
    mails: map<string, bool>,
    events: map<string, bool>,
    noticed: NoticedOutOfOffice,
    visits: seq<Visit>)

  predicate Marked(table: map<string, bool>, name: string) {
    name in table && table[name]
  }

  /** Replay never clears a handled flag and never drops a record. */
  ghost predicate NoDowngrade(before: map<string, bool>, after: map<string, bool>) {
    forall x :: x in before ==> x in after && (before[x] ==> after[x])
  }

  function VisitOf(isMail: bool, name: string, outcome: Outcome): Visit {
    if isMail then MailVisit(name, outcome) else EventVisit(name, outcome)
  }

  /** An event dump that can be read and whose handling succeeds. */
  predicate EventSucceeds(env: Env, name: string) {
    env.read(name).Ok? && env.handleEvent(env.read(name).value).Ok?
  }

  /** vs visits the first |vs| of names, in order, each of the given kind; a
      dump counts as unreadable exactly when reading it fails, and an event
      as done exactly when its handling succeeds. */
  predicate Visited(env: Env, vs: seq<Visit>, names: seq<string>, isMail: bool) {
    && |vs| <= |names|
    && forall k :: 0 <= k < |vs| ==>
         && vs[k] == VisitOf(isMail, names[k], vs[k].outcome)
         && (vs[k].outcome == Unreadable <==> env.read(names[k]).Err?)
         && (!isMail ==> (vs[k].outcome == Done <==> EventSucceeds(env, names[k])))
  }

  /** Only the last of vs may have failed, and vs stops short of names only
      after a failure. */
  predicate StopsAtFailure(vs: seq<Visit>, names: seq<string>) {
    && (forall k :: 0 <= k < |vs| - 1 ==> vs[k].outcome != Failed)
    && (|vs| < |names| ==> |vs| > 0 && vs[|vs| - 1].outcome == Failed)
  }

  /** Every dump handled during vs is marked in the table. */
  predicate DoneMarked(table: map<string, bool>, vs: seq<Visit>) {
    forall k :: 0 <= k < |vs| && vs[k].outcome == Done ==> Marked(table, vs[k].name)
  }

  /** The flags after `before` changed only for names whose handling
      succeeded during the visits vs. */
  ghost predicate MarkedOnlyDone(before: map<string, bool>, after: map<string, bool>, vs: seq<Visit>, isMail: bool) {
    forall x :: Marked(after, x) && !Marked(before, x) ==>
      exists k :: 0 <= k < |vs| && vs[k] == VisitOf(isMail, x, Done)
  }

  /** One unhandled mail: read it, handle it, and mark it handled only when
      both succeed. The noticed set is the handler's, whatever its result. */
  function MailStep(env: Env, st: State, name: string): (r: State)
    ensures r.events == st.events
    ensures |r.visits| == |st.visits| + 1 && st.visits <= r.visits
    ensures r.visits[|st.visits|] == MailVisit(name, r.visits[|st.visits|].outcome)
    ensures r.visits[|st.visits|].outcome == Unreadable <==> env.read(name).Err?
    ensures r.visits[|st.visits|].outcome == Done <==>
              env.read(name).Ok? && env.handleMail(env.read(name).value, st.noticed).res.Ok?
    ensures r.mails == if r.visits[|st.visits|].outcome == Done then st.mails[name := true] else st.mails
  {
    match env.read(name)
    case Err(_) => st.(visits := st.visits + [MailVisit(name, Unreadable)])
    case Ok(body) =>
      var out := env.handleMail(body, st.noticed);
      if out.res.Err? then st.(noticed := out.noticed, visits := st.visits + [MailVisit(name, Failed)])
      else State(st.mails[name := true], st.events, out.noticed, st.visits + [MailVisit(name, Done)])
  }

  /** The mail loop of LoadUnhandledDumps: every listed mail is visited, in
      order, whatever became of the ones before. */
  function ReplayMails(env: Env, st: State, names: seq<string>): (r: State)
    ensures r.events == st.events
    ensures st.visits <= r.visits && |r.visits| == |st.visits| + |names|
    ensures Visited(env, r.visits[|st.visits|..], names, true)
    ensures NoDowngrade(st.mails, r.mails)
    ensures DoneMarked(r.mails, r.visits[|st.visits|..])
    ensures MarkedOnlyDone(st.mails, r.mails, r.visits[|st.visits|..], true)
    decreases |names|
  {
    if names == [] then
      assert st.visits[|st.visits|..] == [];
      st
    else
      var one := MailStep(env, st, names[0]);
      var r := ReplayMails(env, one, names[1..]);
      StepJoin(env, st.visits, one.visits, r.visits, names, true);
      MarksJoin(st.mails, one.mails, r.mails, st.visits, one.visits, r.visits, true);
      r
  }

  /** The visits of one step followed by those of the rest of the loop. */
  lemma StepJoin(env: Env, v0: seq<Visit>, v1: seq<Visit>, v2: seq<Visit>, names: seq<string>, isMail: bool)
    requires names != [] && v0 <= v1 && |v1| == |v0| + 1 && v1 <= v2
    requires v1[|v0|] == VisitOf(isMail, names[0], v1[|v0|].outcome)
    requires v1[|v0|].outcome == Unreadable <==> env.read(names[0]).Err?
    requires !isMail ==> (v1[|v0|].outcome == Done <==> EventSucceeds(env, names[0]))
    requires Visited(env, v2[|v1|..], names[1..], isMail)
    ensures v2[|v0|..] == [v1[|v0|]] + v2[|v1|..]
    ensures Visited(env, v2[|v0|..], names, isMail)
  {
    var n := |v0|;
    assert v2[n..] == [v1[n]] + v2[|v1|..];
    forall k | 0 < k < |v2[n..]|
      ensures v2[n..][k] == VisitOf(isMail, names[k], v2[n..][k].outcome)
      ensures v2[n..][k].outcome == Unreadable <==> env.read(names[k]).Err?
      ensures !isMail ==> (v2[n..][k].outcome == Done <==> EventSucceeds(env, names[k]))
    {
      assert v2[n..][k] == v2[|v1|..][k - 1];
      assert names[1..][k - 1] == names[k];
    }
  }

  /** The marks of one step followed by those of the rest of the loop. */
  lemma MarksJoin(t0: map<string, bool>, t1: map<string, bool>, t2: map<string, bool>,
                  v0: seq<Visit>, v1: seq<Visit>, v2: seq<Visit>, isMail: bool)
    requires v0 <= v1 && |v1| == |v0| + 1 && v1 <= v2
    requires v1[|v0|] == VisitOf(isMail, v1[|v0|].name, v1[|v0|].outcome)
    requires t1 == if v1[|v0|].outcome == Done then t0[v1[|v0|].name := true] else t0
    requires NoDowngrade(t1, t2)
    requires DoneMarked(t2, v2[|v1|..])
    requires MarkedOnlyDone(t1, t2, v2[|v1|..], isMail)
    ensures NoDowngrade(t0, t2)
    ensures DoneMarked(t2, v2[|v0|..])
    ensures MarkedOnlyDone(t0, t2, v2[|v0|..], isMail)
  {
    var n := |v0|;
    var v := v1[n];
    assert v2[n..] == [v] + v2[|v1|..];
    forall x | Marked(t2, x) && !Marked(t0, x)
      ensures exists k :: 0 <= k < |v2[n..]| && v2[n..][k] == VisitOf(isMail, x, Done)
    {
      if Marked(t1, x) {
        assert x == v.name && v.outcome == Done;
        assert v2[n..][0] == VisitOf(isMail, x, Done);
      } else {
        var k :| 0 <= k < |v2[|v1|..]| && v2[|v1|..][k] == VisitOf(isMail, x, Done);
        assert v2[n..][k + 1] == VisitOf(isMail, x, Done);
      }
    }
    forall k | 0 <= k < |v2[n..]| && v2[n..][k].outcome == Done
      ensures Marked(t2, v2[n..][k].name)
    {
      if k == 0 {
        assert Marked(t1, v.name);
      } else {
        assert v2[n..][k] == v2[|v1|..][k - 1];
      }
    }
  }

  /** One unhandled event: read it, handle it, and mark it handled when both
      succeed. */
  function EventStep(env: Env, st: State, name: string): (r: State)
    ensures r.mails == st.mails && r.noticed == st.noticed
    ensures |r.visits| == |st.visits| + 1 && st.visits <= r.visits
    ensures r.visits[|st.visits|] == EventVisit(name, r.visits[|st.visits|].outcome)
    ensures r.visits[|st.visits|].outcome == Unreadable <==> env.read(name).Err?
    ensures r.visits[|st.visits|].outcome == Done <==> EventSucceeds(env, name)
    ensures r.events == if r.visits[|st.visits|].outcome == Done then st.events[name := true] else st.events
  {
    match env.read(name)
    case Err(_) => st.(visits := st.visits + [EventVisit(name, Unreadable)])
    case Ok(body) =>
      if env.handleEvent(body).Err? then st.(visits := st.visits + [EventVisit(name, Failed)])
      else st.(events := st.events[name := true], visits := st.visits + [EventVisit(name, Done)])
  }

  /** The event loop of LoadUnhandledDumps: events are visited in order; an
      unreadable one is passed over, but the first one whose handling fails
      ends the replay, and the events after it stay unhandled. */
  function ReplayEvents(env: Env, st: State, names: seq<string>): (r: State)
    ensures r.mails == st.mails && r.noticed == st.noticed
    ensures st.visits <= r.visits
    ensures Visited(env, r.visits[|st.visits|..], names, false)
    ensures StopsAtFailure(r.visits[|st.visits|..], names)
    ensures NoDowngrade(st.events, r.events)
    ensures DoneMarked(r.events, r.visits[|st.visits|..])
    ensures MarkedOnlyDone(st.events, r.events, r.visits[|st.visits|..], false)
    decreases |names|
  {
    if names == [] then
      assert st.visits[|st.visits|..] == [];
      st
    else
      var one := EventStep(env, st, names[0]);
      if one.visits[|st.visits|].outcome == Failed then
        assert one.visits[|st.visits|..] == [one.visits[|st.visits|]];
        MarksJoin(st.events, one.events, one.events, st.visits, one.visits, one.visits, false);
        one
      else
        var r := ReplayEvents(env, one, names[1..]);
        StepJoin(env, st.visits, one.visits, r.visits, names, false);
        MarksJoin(st.events, one.events, r.events, st.visits, one.visits, r.visits, false);
        r
  }

  /** The rows of the query for unhandled dumps (handled = 0): each name
      once, and exactly the names the table records unhandled. */
  ghost predicate UnhandledRows(table: map<string, bool>, rows: seq<string>) {
    && (forall k :: 0 <= k < |rows| ==> rows[k] in table && !table[rows[k]])
    && (forall x :: x in table && !table[x] ==> exists k :: 0 <= k < |rows| && rows[k] == x)
    && (forall j, k :: 0 <= j < k < |rows| ==> rows[j] != rows[k])
  }

  /** The names a query answered, and none when it failed. */
  function Rows(rows: Result<seq<string>>): seq<string> {
    if rows.Ok? then rows.value else []
  }

  /** LoadUnhandledDumps: all unhandled mails, then the unhandled events up
      to the first that fails. A failed query is reported and leaves its loop
      without work. The rows are the database's answers to the two queries. */
  function LoadUnhandledDumps(env: Env, mails: map<string, bool>, events: map<string, bool>,
                              noticed: NoticedOutOfOffice,
                              mailRows: Result<seq<string>>, eventRows: Result<seq<string>>): (r: State)
    requires mailRows.Ok? ==> UnhandledRows(mails, mailRows.value)
    requires eventRows.Ok? ==> UnhandledRows(events, eventRows.value)
    ensures |Rows(mailRows)| <= |r.visits|
    ensures Visited(env, r.visits[..|Rows(mailRows)|], Rows(mailRows), true)
    ensures Visited(env, r.visits[|Rows(mailRows)|..], Rows(eventRows), false)
    ensures StopsAtFailure(r.visits[|Rows(mailRows)|..], Rows(eventRows))
    ensures NoDowngrade(mails, r.mails) && NoDowngrade(events, r.events)
    ensures MarkedOnlyDone(mails, r.mails, r.visits, true)
    ensures MarkedOnlyDone(events, r.events, r.visits, false)
    ensures DoneMarked(r.mails, r.visits[..|Rows(mailRows)|]) && DoneMarked(r.events, r.visits[|Rows(mailRows)|..])
  {
    var afterMails := ReplayMails(env, State(mails, events, noticed, []), Rows(mailRows));
    var r := ReplayEvents(env, afterMails, Rows(eventRows));
    UnhandledJoin(env, mails, events, afterMails, r, Rows(mailRows), Rows(eventRows));
    r
  }

  /** Each of the mail dumps can be read, and handling it succeeds whatever
      the noticed set. */
  ghost predicate MailsSucceed(env: Env, names: seq<string>) {
    forall k :: 0 <= k < |names| ==>
      && env.read(names[k]).Ok?
      && forall n :: env.handleMail(env.read(names[k]).value, n).res.Ok?
  }

  /** When every mail succeeds, the mail loop handles each of them and
      marks it handled. */
  lemma {:induction false} ReplayMailsCooperative(env: Env, st: State, names: seq<string>)
    requires MailsSucceed(env, names)
    ensures var r := ReplayMails(env, st, names);
            && (forall k :: |st.visits| <= k < |r.visits| ==> r.visits[k].outcome == Done)
            && (forall k :: 0 <= k < |names| ==> Marked(r.mails, names[k]))
    decreases |names|
  {
    var r := ReplayMails(env, st, names);
    if names != [] {
      var one := MailStep(env, st, names[0]);
      assert one.visits[|st.visits|].outcome == Done;
      assert MailsSucceed(env, names[1..]) by {
        forall k | 0 <= k < |names[1..]|
          ensures env.read(names[1..][k]).Ok?
          ensures forall n :: env.handleMail(env.read(names[1..][k]).value, n).res.Ok?
        {
          assert names[1..][k] == names[k + 1];
        }
      }
      ReplayMailsCooperative(env, one, names[1..]);
      assert r == ReplayMails(env, one, names[1..]);
      forall k | 0 <= k < |names|
        ensures Marked(r.mails, names[k])
      {
        var vs := r.visits[|st.visits|..];
        assert vs[k] == r.visits[|st.visits| + k];
        assert vs[k] == MailVisit(names[k], Done);
      }
    }
  }

  /** When every event succeeds, the event loop handles each of them and
      marks it handled: no failure cuts it short. */
  lemma ReplayEventsCooperative(env: Env, st: State, names: seq<string>)
    requires forall k :: 0 <= k < |names| ==> EventSucceeds(env, names[k])
    ensures var r := ReplayEvents(env, st, names);
            && |r.visits| == |st.visits| + |names|
            && (forall k :: |st.visits| <= k < |r.visits| ==> r.visits[k].outcome == Done)
            && (forall k :: 0 <= k < |names| ==> Marked(r.events, names[k]))
  {
    var r := ReplayEvents(env, st, names);
    var vs := r.visits[|st.visits|..];
    forall k | 0 <= k < |vs|
      ensures vs[k].outcome == Done
    {
      assert EventSucceeds(env, names[k]);
    }
    forall k | 0 <= k < |names|
      ensures Marked(r.events, names[k])
    {
      assert vs[k] == EventVisit(names[k], Done);
    }
    forall k | |st.visits| <= k < |r.visits|
      ensures r.visits[k].outcome == Done
    {
      assert r.visits[k] == vs[k - |st.visits|];
    }
  }

  /** When both queries answer and every dump they name can be read and
      handled, the replay leaves every mail and every event of the two
      tables marked handled. */
  lemma LoadUnhandledCooperative(env: Env, mails: map<string, bool>, events: map<string, bool>,
                                 noticed: NoticedOutOfOffice, mailRows: seq<string>, eventRows: seq<string>)
    requires UnhandledRows(mails, mailRows) && UnhandledRows(events, eventRows)
    requires MailsSucceed(env, mailRows)
    requires forall k :: 0 <= k < |eventRows| ==> EventSucceeds(env, eventRows[k])
    ensures var r := LoadUnhandledDumps(env, mails, events, noticed, Ok(mailRows), Ok(eventRows));
            && (forall x :: x in mails ==> Marked(r.mails, x))
            && (forall x :: x in events ==> Marked(r.events, x))
  {
    var a := ReplayMails(env, State(mails, events, noticed, []), mailRows);
    var r := LoadUnhandledDumps(env, mails, events, noticed, Ok(mailRows), Ok(eventRows));
    assert r == ReplayEvents(env, a, eventRows);
    assert forall x :: x in mails ==> Marked(r.mails, x) by {
      ReplayMailsCooperative(env, State(mails, events, noticed, []), mailRows);
      forall x | x in mails
        ensures Marked(r.mails, x)
      {
        if !mails[x] {
          var k :| 0 <= k < |mailRows| && mailRows[k] == x;
        }
      }
    }
    ReplayEventsCooperative(env, a, eventRows);
    forall x | x in events
      ensures Marked(r.events, x)
    {
      if !events[x] {
        var k :| 0 <= k < |eventRows| && eventRows[k] == x;
      }
    }
  }

  /** Every mail the table records unhandled is visited by the replay. */
  lemma UnhandledMailVisited(env: Env, mails: map<string, bool>, events: map<string, bool>,
                             noticed: NoticedOutOfOffice,
                             mailRows: Result<seq<string>>, eventRows: Result<seq<string>>, x: string)
    requires mailRows.Ok? && UnhandledRows(mails, mailRows.value)
    requires eventRows.Ok? ==> UnhandledRows(events, eventRows.value)
    requires x in mails && !mails[x]
    ensures var r := LoadUnhandledDumps(env, mails, events, noticed, mailRows, eventRows);
            exists k :: 0 <= k < |mailRows.value| <= |r.visits| && r.visits[k] == MailVisit(x, r.visits[k].outcome)
  {
    var r := LoadUnhandledDumps(env, mails, events, noticed, mailRows, eventRows);
    var k :| 0 <= k < |mailRows.value| && mailRows.value[k] == x;
    assert r.visits[..|mailRows.value|][k] == r.visits[k];
  }

  /** Every event the table records unhandled is visited, unless the event
      loop ended earlier at a failed handling. */
  lemma UnhandledEventVisited(env: Env, mails: map<string, bool>, events: map<string, bool>,
                              noticed: NoticedOutOfOffice,
                              mailRows: Result<seq<string>>, eventRows: Result<seq<string>>, x: string)
    requires mailRows.Ok? ==> UnhandledRows(mails, mailRows.value)
    requires eventRows.Ok? && UnhandledRows(events, eventRows.value)
    requires x in events && !events[x]
    ensures var r := LoadUnhandledDumps(env, mails, events, noticed, mailRows, eventRows);
            var vs := r.visits[|Rows(mailRows)|..];
            || (exists k :: 0 <= k < |vs| && vs[k] == EventVisit(x, vs[k].outcome))
            || (0 < |vs| && vs[|vs| - 1].outcome == Failed)
  {
    var r := LoadUnhandledDumps(env, mails, events, noticed, mailRows, eventRows);
    var vs := r.visits[|Rows(mailRows)|..];
    var k :| 0 <= k < |eventRows.value| && eventRows.value[k] == x;
    if k < |vs| {
      assert vs[k] == EventVisit(x, vs[k].outcome);
    }
  }

  /** The mail loop's visits and marks, then the event loop's. */
  lemma UnhandledJoin(env: Env, mails: map<string, bool>, events: map<string, bool>,
                      a: State, r: State, m: seq<string>, e: seq<string>)
    requires a.events == events && |a.visits| == |m|
    requires Visited(env, a.visits[0..], m, true)
    requires NoDowngrade(mails, a.mails) && MarkedOnlyDone(mails, a.mails, a.visits[0..], true)
    requires r.mails == a.mails && a.visits <= r.visits
    requires Visited(env, r.visits[|a.visits|..], e, false) && StopsAtFailure(r.visits[|a.visits|..], e)
    requires NoDowngrade(a.events, r.events) && MarkedOnlyDone(a.events, r.events, r.visits[|a.visits|..], false)
    requires DoneMarked(a.mails, a.visits[0..]) && DoneMarked(r.events, r.visits[|a.visits|..])
    ensures |m| <= |r.visits|
    ensures DoneMarked(r.mails, r.visits[..|m|]) && DoneMarked(r.events, r.visits[|m|..])
    ensures Visited(env, r.visits[..|m|], m, true)
    ensures Visited(env, r.visits[|m|..], e, false) && StopsAtFailure(r.visits[|m|..], e)
    ensures NoDowngrade(mails, r.mails) && NoDowngrade(events, r.events)
    ensures MarkedOnlyDone(mails, r.mails, r.visits, true)
    ensures MarkedOnlyDone(events, r.events, r.visits, false)
  {
    assert a.visits[0..] == a.visits == r.visits[..|m|] == r.visits[0..|m|];
    assert r.visits[|m|..] == r.visits[|m|..|r.visits|];
    MarksWiden(mails, r.mails, r.visits, 0, |m|, true);
    MarksWiden(events, r.events, r.visits, |m|, |r.visits|, false);
  }

  /** A mark explained by a slice of the visits is explained by all of them. */
  lemma MarksWiden(before: map<string, bool>, after: map<string, bool>, vs: seq<Visit>, from: nat, to: nat, isMail: bool)
    requires from <= to <= |vs| && MarkedOnlyDone(before, after, vs[from..to], isMail)
    ensures MarkedOnlyDone(before, after, vs, isMail)
  {
    forall x | Marked(after, x) && !Marked(before, x)
      ensures exists k :: 0 <= k < |vs| && vs[k] == VisitOf(isMail, x, Done)
    {
      var k :| 0 <= k < |vs[from..to]| && vs[from..to][k] == VisitOf(isMail, x, Done);
      assert vs[from + k] == VisitOf(isMail, x, Done);
    }
  }

  /** The dumps of received mails, in directory order. */
  function MailDumps(names: seq<string>): (r: seq<string>)
    ensures forall x :: x in r <==> x in names && HasSuffix(x, ".dump")
  {
    if names == [] then []
    else
      var rest := MailDumps(names[1..]);
      assert forall x :: x in names <==> x == names[0] || x in names[1..];
      if HasSuffix(names[0], ".dump") then [names[0]] + rest else rest
  }

  /** What a full reload leaves: its result, the noticed set and the mails
      visited. */
  datatype Reloaded = Reloaded(res: Result<()>, noticed: NoticedOutOfOffice, visits: seq<Visit>)

  /** vs handles the dumps in order: all of them when ok, else a prefix
      whose last dump could not be read or handled and whose others were. */
  predicate Reloads(vs: seq<Visit>, dumps: seq<string>, ok: bool) {
    && |vs| <= |dumps|
    && (forall k :: 0 <= k < |vs| ==> vs[k] == MailVisit(dumps[k], vs[k].outcome))
    && (ok <==> |vs| == |dumps| && forall k :: 0 <= k < |vs| ==> vs[k].outcome == Done)
    && (!ok ==> && |vs| > 0 && vs[|vs| - 1].outcome != Done
                && forall k :: 0 <= k < |vs| - 1 ==> vs[k].outcome == Done)
  }

  /** The loop of LoadAllRequestDumps over the mail dumps: each is handled
      in order, and the first that cannot be read or handled ends the
      program. */
  function ReloadAll(env: Env, dumps: seq<string>, noticed: NoticedOutOfOffice): (r: Reloaded)
    ensures Reloads(r.visits, dumps, r.res.Ok?)
    ensures r.res.Err? ==> var last := |r.visits| - 1;
              r.visits[last].outcome == Unreadable <==> env.read(dumps[last]).Err?
    decreases |dumps|
  {
    if dumps == [] then Reloaded(Ok(()), noticed, [])
    else
      match env.read(dumps[0])
      case Err(msg) => Reloaded(Err(msg), noticed, [MailVisit(dumps[0], Unreadable)])
      case Ok(body) =>
        var out := env.handleMail(body, noticed);
        if out.res.Err? then Reloaded(Err(out.res.msg), out.noticed, [MailVisit(dumps[0], Failed)])
        else
          var rest := ReloadAll(env, dumps[1..], out.noticed);
          ReloadCons(dumps, rest.visits, rest.res.Ok?);
          Reloaded(rest.res, rest.noticed, [MailVisit(dumps[0], Done)] + rest.visits)
  }

  lemma ReloadCons(dumps: seq<string>, rest: seq<Visit>, ok: bool)
    requires dumps != [] && Reloads(rest, dumps[1..], ok)
    ensures Reloads([MailVisit(dumps[0], Done)] + rest, dumps, ok)
    ensures |rest| > 0 ==> rest[|rest| - 1] == ([MailVisit(dumps[0], Done)] + rest)[|rest|]
  {
    var vs := [MailVisit(dumps[0], Done)] + rest;
    forall k | 0 < k < |vs|
      ensures vs[k] == rest[k - 1] && dumps[k] == dumps[1..][k - 1]
    {
    }
  }

  /** LoadAllRequestDumps: a failed directory listing ends the program; so
      does the first mail dump that fails. Only ".dump" files are mails. */
  function LoadAllRequestDumps(env: Env, listing: Result<seq<string>>, noticed: NoticedOutOfOffice): (r: Reloaded)
    ensures listing.Err? ==> r.res.Err? && r.visits == []
    ensures listing.Ok? ==> forall k :: 0 <= k < |r.visits| ==> HasSuffix(r.visits[k].name, ".dump")
    ensures listing.Ok? && r.res.Ok? ==> |r.visits| == |MailDumps(listing.value)|
  {
    match listing
    case Err(msg) => Reloaded(Err(msg), noticed, [])
    case Ok(names) =>
      var r := ReloadAll(env, MailDumps(names), noticed);
      assert forall k :: 0 <= k < |r.visits| ==> MailDumps(names)[k] in MailDumps(names);
      r
  }

  /** When every mail dump can be read and handled, the reload handles them
      all and succeeds. */
  lemma {:induction false} ReloadAllCooperative(env: Env, dumps: seq<string>, noticed: NoticedOutOfOffice)
    requires MailsSucceed(env, dumps)
    ensures ReloadAll(env, dumps, noticed).res.Ok?
    decreases |dumps|
  {
    if dumps != [] {
      var out := env.handleMail(env.read(dumps[0]).value, noticed);
      assert out.res.Ok?;
      assert MailsSucceed(env, dumps[1..]) by {
        forall k | 0 <= k < |dumps[1..]|
          ensures env.read(dumps[1..][k]).Ok?
          ensures forall n :: env.handleMail(env.read(dumps[1..][k]).value, n).res.Ok?
        {
          assert dumps[1..][k] == dumps[k + 1];
        }
      }
      ReloadAllCooperative(env, dumps[1..], out.noticed);
    }
  }
}

=== FILE: seqs.dfy ===
/** Searches over sequences that return the first hit, the shape of every Go
    `for ... range` loop in the parser that returns as soon as an element
    matches. */
module Seqs {
  import opened Wrappers

  function FirstIndexFrom<T>(xs: seq<T>, p: T -> bool, i: nat): (r: Option<nat>)
    requires i <= |xs|
    ensures r.Some? ==> i <= r.value < |xs| && p(xs[r.value])
    ensures r.Some? ==> forall k :: i <= k < r.value ==> !p(xs[k])
    ensures r.None? <==> forall k :: i <= k < |xs| ==> !p(xs[k])
    decreases |xs| - i
  {
    if i == |xs| then None
    else if p(xs[i]) then Some(i)
    else FirstIndexFrom(xs, p, i + 1)
  }

  /** The position of the first element satisfying p. */
  function FirstIndex<T>(xs: seq<T>, p: T -> bool): (r: Option<nat>)
    ensures r.Some? ==> r.value < |xs| && p(xs[r.value])
    ensures r.Some? ==> forall k :: 0 <= k < r.value ==> !p(xs[k])
    ensures r.None? <==> forall k :: 0 <= k < |xs| ==> !p(xs[k])
  {
    FirstIndexFrom(xs, p, 0)
  }
}

=== FILE: subject_keys.dfy ===
/** The issue keys a subject refers to: Go's
    regexp.MustCompile(`[A-Z]+-\d+`).FindAllString(subject, -1) in
    getRequestFromEmail (handler/prepare_handler.go), written out. Both
    classes are ASCII: `\d` in Go's regexp syntax is [0-9]. */
module SubjectKeys {
  import opened Wrappers
  import opened Text

  /** The end of the run of capitals that starts at i. */
  function UpperEnd(s: string, i: nat): (r: nat)
    requires i <= |s|
    ensures i <= r <= |s|
    ensures forall k :: i <= k < r ==> IsUpper(s[k])
    ensures r < |s| ==> !IsUpper(s[r])
    decreases |s| - i
  {
    if i < |s| && IsUpper(s[i]) then UpperEnd(s, i + 1) else i
  }

  /** The end of the run of digits that starts at i. */
  function DigitEnd(s: string, i: nat): (r: nat)
    requires i <= |s|
    ensures i <= r <= |s|
    ensures forall k :: i <= k < r ==> IsDigit(s[k])
    ensures r < |s| ==> !IsDigit(s[r])
    decreases |s| - i
  {
    if i < |s| && IsDigit(s[i]) then DigitEnd(s, i + 1) else i
  }

  /** A dash followed by a digit at j. */
  predicate DashDigit(s: string, j: nat) {
    j + 1 < |s| && s[j] == '-' && IsDigit(s[j + 1])
  }

  /** The end of the match that starts at i, if one does. Repetition is
      greedy and a run of capitals can only be followed by '-' at its end, so
      the match at i, when there is one, is unique: the whole run of
      capitals, the dash, the whole run of digits. */
  function MatchAt(s: string, i: nat): (r: Option<nat>)
    requires i <= |s|
    ensures r.Some? ==> i < r.value <= |s|
  {
    if i == |s| || !IsUpper(s[i]) then None
    else
      var j := UpperEnd(s, i);
      if DashDigit(s, j) then Some(DigitEnd(s, j + 1))
      else None
  }

  /** A text of the key's form: capitals, a dash, digits. */
  predicate IsKey(k: string) {
    exists d :: 0 < d < |k| - 1 && k[d] == '-'
                && (forall m :: 0 <= m < d ==> IsUpper(k[m]))
                && (forall m :: d < m < |k| ==> IsDigit(k[m]))
  }

  lemma MatchIsKey(s: string, i: nat)
    requires i <= |s| && MatchAt(s, i).Some?
    ensures IsKey(s[i..MatchAt(s, i).value])
  {
    var j := UpperEnd(s, i);
    var k := s[i..MatchAt(s, i).value];
    assert k[j - i] == '-';
    assert forall m :: 0 <= m < j - i ==> k[m] == s[i + m];
  }

  /** FindAllString as the regexp package defines it: the leftmost match
      at or after `from`, then the leftmost match after its end, and so on.
      Trying the positions one by one finds the leftmost match first. */
  function FindAllFrom(s: string, from: nat): (r: seq<string>)
    requires from <= |s|
    decreases |s| - from
  {
    if from == |s| then []
    else
      match MatchAt(s, from)
      case None => FindAllFrom(s, from + 1)
      case Some(e) => [s[from..e]] + FindAllFrom(s, e)
  }

  /** The candidate issue keys of a subject, in order. */
  function Keys(subject: string): seq<string> {
    FindAllFrom(subject, 0)
  }

  /** Every candidate has the key's form and is a piece of the text. */
  lemma {:induction false} FindAllAreKeys(s: string, from: nat)
    requires from <= |s|
    ensures forall k :: 0 <= k < |FindAllFrom(s, from)| ==> IsKey(FindAllFrom(s, from)[k])
    ensures forall k :: 0 <= k < |FindAllFrom(s, from)| ==> Contains(s, FindAllFrom(s, from)[k])
    decreases |s| - from
  {
    if from < |s| {
      match MatchAt(s, from)
      case None =>
        FindAllAreKeys(s, from + 1);
      case Some(e) =>
        MatchIsKey(s, from);
        assert OccursAt(s, s[from..e], from);
        FindAllAreKeys(s, e);
    }
  }

  lemma KeysAreKeys(subject: string)
    ensures forall k :: 0 <= k < |Keys(subject)| ==> IsKey(Keys(subject)[k])
    ensures forall k :: 0 <= k < |Keys(subject)| ==> Contains(subject, Keys(subject)[k])
  {
    FindAllAreKeys(subject, 0);
  }

  /** A position where no match starts does not change what is found. */
  lemma SkipNoMatch(s: string, i: nat)
    requires i < |s| && MatchAt(s, i).None?
    ensures FindAllFrom(s, i) == FindAllFrom(s, i + 1)
  {
  }

  /** No match starts inside a run of capitals that is not followed by a
      dash and a digit. */
  lemma {:induction false} SkipRun(s: string, i: nat, j: nat)
    requires i <= j <= |s| && j == UpperEnd(s, i)
    requires !DashDigit(s, j)
    ensures FindAllFrom(s, i) == FindAllFrom(s, j)
    decreases j - i
  {
    if i < j {
      assert UpperEnd(s, i) == UpperEnd(s, i + 1);
      SkipNoMatch(s, i);
      SkipRun(s, i + 1, j);
    }
  }

  /** A match at i contributes its text and scanning resumes at its end. */
  lemma TakeMatch(s: string, i: nat, j: nat, k: nat)
    requires i < |s| && IsUpper(s[i]) && j == UpperEnd(s, i)
    requires DashDigit(s, j) && k == DigitEnd(s, j + 1)
    ensures FindAllFrom(s, i) == [s[i..k]] + FindAllFrom(s, k)
  {
    assert MatchAt(s, i) == Some(k);
  }

  /** The scanner's inner loops: walk to the end of a run. */
  method ScanUpper(s: string, i: nat) returns (j: nat)
    requires i <= |s|
    ensures j == UpperEnd(s, i)
  {
    j := i;
    while j < |s| && IsUpper(s[j])
      invariant i <= j <= |s|
      invariant UpperEnd(s, i) == UpperEnd(s, j)
    {
      j := j + 1;
    }
  }

  method ScanDigits(s: string, i: nat) returns (j: nat)
    requires i <= |s|
    ensures j == DigitEnd(s, i)
  {
    j := i;
    while j < |s| && IsDigit(s[j])
      invariant i <= j <= |s|
      invariant DigitEnd(s, i) == DigitEnd(s, j)
    {
      j := j + 1;
    }
  }

  /** The scanner the regexp engine amounts to: one pass that skips whole
      runs of capitals. */
  method ScanKeys(s: string) returns (keys: seq<string>)
    ensures keys == Keys(s)
  {
    var i := 0;
    keys := [];
    while i < |s|
      invariant 0 <= i <= |s|
      invariant keys + FindAllFrom(s, i) == Keys(s)
      decreases |s| - i
    {
      if !IsUpper(s[i]) {
        SkipNoMatch(s, i);
        i := i + 1;
      } else {
        var j := ScanUpper(s, i);
        if DashDigit(s, j) {
          var k := ScanDigits(s, j + 1);
          TakeMatch(s, i, j, k);
          assert keys + FindAllFrom(s, i) == (keys + [s[i..k]]) + FindAllFrom(s, k);
          keys := keys + [s[i..k]];
          i := k;
        } else {
          SkipRun(s, i, j);
          i := j;
        }
      }
    }
  }

  /** A lower-case letter before the capitals does not stop a match, and a
      match may start right where the previous one ended. */
  lemma KeysExample()
    ensures Keys(['a', 'B', '-', '1', 'C', '-', '2']) == [['B', '-', '1'], ['C', '-', '2']]
  {
    var s := ['a', 'B', '-', '1', 'C', '-', '2'];
    assert UpperEnd(s, 1) == 2;
    assert DigitEnd(s, 3) == 4;
    SkipNoMatch(s, 0);
    TakeMatch(s, 1, 2, 4);
    assert UpperEnd(s, 4) == 5;
    assert DigitEnd(s, 6) == 7;
    TakeMatch(s, 4, 5, 7);
    assert s[1..4] == ['B', '-', '1'] && s[4..7] == ['C', '-', '2'];
  }

  /** A dash without digits after it makes no key. */
  lemma NoDigitsExample()
    ensures Keys(['A', 'B', '-', 'x']) == []
  {
    var s := ['A', 'B', '-', 'x'];
    assert UpperEnd(s, 0) == 2;
    SkipRun(s, 0, 2);
    assert MatchAt(s, 2).None? && MatchAt(s, 3).None?;
  }
}

=== FILE: text.dfy ===
/** The handful of Go `strings`/`unicode` routines the parser relies on,
    written out over `seq<char>` (one char per rune). */
module Text {

  /** Go's unicode.IsSpace: the ASCII white space, NEL, NBSP and the
      Unicode space separators. */
  predicate IsSpace(c: char) {
    c == '\t' || c == '\n' || c == '\U{000B}' || c == '\U{000C}' || c == '\r' || c == ' '
    || c == '\U{0085}' || c == '\U{00A0}' || c == '\U{1680}'
    || ('\U{2000}' <= c <= '\U{200A}') || c == '\U{2028}' || c == '\U{2029}'
    || c == '\U{202F}' || c == '\U{205F}' || c == '\U{3000}'
  }

  predicate IsDigit(c: char) {
    '0' <= c <= '9'
  }

  predicate IsUpper(c: char) {
    'A' <= c <= 'Z'
  }

  function Min(a: int, b: int): int {
    if a <= b then a else b
  }

  /** The number of white-space characters s starts with. */
  function LeadingSpaces(s: string): (n: nat)
    ensures n <= |s|
    ensures forall k :: 0 <= k < n ==> IsSpace(s[k])
    ensures n < |s| ==> !IsSpace(s[n])
    decreases |s|
  {
    if |s| > 0 && IsSpace(s[0]) then 1 + LeadingSpaces(s[1..]) else 0
  }

  /** The number of white-space characters s ends with. */
  function TrailingSpaces(s: string): (n: nat)
    ensures n <= |s|
    ensures forall k :: |s| - n <= k < |s| ==> IsSpace(s[k])
    ensures n < |s| ==> !IsSpace(s[|s| - 1 - n])
    decreases |s|
  {
    if |s| > 0 && IsSpace(s[|s| - 1]) then 1 + TrailingSpaces(s[..|s| - 1]) else 0
  }

  /** Where TrimSpace's result starts in its input. */
  function TrimStart(s: string): nat {
    LeadingSpaces(s)
  }

  /** strings.TrimSpace: drop the white space on both sides. */
  function TrimSpace(s: string): (r: string)
    ensures TrimStart(s) + |r| <= |s|
    ensures r == "" || (!IsSpace(r[0]) && !IsSpace(r[|r| - 1]))
    ensures |s| > 0 && !IsSpace(s[0]) && !IsSpace(s[|s| - 1]) ==> r == s
  {
    var lo := LeadingSpaces(s);
    var rest := s[lo..];
    rest[..|rest| - TrailingSpaces(rest)]
  }

  /** What TrimSpace keeps is the infix of its input between two runs of
      white space. */
  lemma TrimSpaceInfix(s: string)
    ensures forall k :: 0 <= k < |TrimSpace(s)| ==> TrimSpace(s)[k] == s[TrimStart(s) + k]
    ensures forall k :: 0 <= k < TrimStart(s) ==> IsSpace(s[k])
    ensures forall k :: TrimStart(s) + |TrimSpace(s)| <= k < |s| ==> IsSpace(s[k])
  {
    var lo := LeadingSpaces(s);
    var rest := s[lo..];
    var n := TrailingSpaces(rest);
    forall k | lo + |TrimSpace(s)| <= k < |s|
      ensures IsSpace(s[k])
    {
      assert s[k] == rest[k - lo];
    }
  }

  /** Trimming only removes: a property every character of the input has,
      every character of the output has. */
  lemma TrimSpaceKeeps(s: string, p: char -> bool)
    requires forall k :: 0 <= k < |s| ==> p(s[k])
    ensures forall k :: 0 <= k < |TrimSpace(s)| ==> p(TrimSpace(s)[k])
  {
    TrimSpaceInfix(s);
  }

  /** The capitals lowered here: ASCII, Latin-1 (but the multiplication
      sign), basic Greek (but the unassigned U+03A2) and basic Cyrillic. */
  predicate Upper(c: char) {
    || 'A' <= c <= 'Z'
    || ('\U{C0}' <= c <= '\U{DE}' && c != '\U{D7}')
    || ('\U{391}' <= c <= '\U{3A9}' && c != '\U{3A2}')
    || '\U{400}' <= c <= '\U{42F}'
  }

  /** unicode.ToLower on those capitals: each goes to its lower-case
      partner, and every other character is kept. */
  function LowerChar(c: char): (r: char)
    ensures !Upper(r)
    ensures !Upper(c) ==> r == c
    ensures Upper(c) ==> r != c
    ensures Upper(c) ==> r as int == c as int + (if '\U{400}' <= c <= '\U{40F}' then 80 else 32)
  {
    if '\U{400}' <= c <= '\U{40F}' then (c as int + 80) as char
    else if Upper(c) then (c as int + 32) as char
    else c
  }

  /** The partners in each block: A and a, Ä and ä, Ω and ω, Ѐ and ѐ, Я
      and я. */
  lemma LowerCharPairs()
    ensures LowerChar('A') == 'a' && LowerChar('\U{C4}') == '\U{E4}' && LowerChar('\U{3A9}') == '\U{3C9}'
    ensures LowerChar('\U{400}') == '\U{450}' && LowerChar('\U{42F}') == '\U{44F}'
  {
  }

  function Lower(s: string): (r: string)
    ensures |r| == |s|
    ensures forall i :: 0 <= i < |s| ==> r[i] == LowerChar(s[i])
  {
    if s == "" then "" else [LowerChar(s[0])] + Lower(s[1..])
  }

  lemma LowerIdempotent(s: string)
    ensures Lower(Lower(s)) == Lower(s)
  {
  }

  predicate OccursAt(s: string, sub: string, i: int) {
    0 <= i && i + |sub| <= |s| && s[i..i + |sub|] == sub
  }

  predicate Contains(s: string, sub: string) {
    exists i :: 0 <= i <= |s| && OccursAt(s, sub, i)
  }

  lemma OccursInTail(s: string, sub: string, i: int)
    requires |s| > 0 && OccursAt(s[1..], sub, i)
    ensures OccursAt(s, sub, i + 1)
  {
    assert s[1..][i..i + |sub|] == s[i + 1..i + 1 + |sub|];
  }

  lemma OccursInCons(c: char, s: string, sub: string, i: int)
    requires i >= 1
    ensures OccursAt([c] + s, sub, i) == OccursAt(s, sub, i - 1)
  {
    if i + |sub| <= |s| + 1 {
      assert ([c] + s)[i..i + |sub|] == s[i - 1..i - 1 + |sub|];
    }
  }

  /** A character that does not occur is no one-character substring. */
  lemma AbsentCharNotContained(s: string, c: char)
    requires c !in s
    ensures !Contains(s, [c])
  {
    forall i | 0 <= i <= |s|
      ensures !OccursAt(s, [c], i)
    {
      if i < |s| {
        assert s[i] in s;
        assert s[i..i + 1] == [s[i]];
      }
    }
  }

  /** strings.ReplaceAll for a non-empty pattern: occurrences are replaced
      left to right without overlapping. */
  function ReplaceAll(s: string, pat: string, repl: string): (r: string)
    requires |pat| > 0
    ensures !Contains(s, pat) ==> r == s
    decreases |s|
  {
    if |s| < |pat| then s
    else if s[..|pat|] == pat then
      assert OccursAt(s, pat, 0);
      repl + ReplaceAll(s[|pat|..], pat, repl)
    else
      var rest := ReplaceAll(s[1..], pat, repl);
      assert !Contains(s, pat) ==> !Contains(s[1..], pat) by {
        if Contains(s[1..], pat) {
          var i :| OccursAt(s[1..], pat, i);
          OccursInTail(s, pat, i);
        }
      }
      [s[0]] + rest
  }

  /** Every character of the result comes from the text or the
      replacement, so a replaced single character is gone unless the
      replacement brings it back. */
  lemma {:induction false} ReplaceAllChars(s: string, pat: string, repl: string)
    requires |pat| > 0
    ensures forall k :: 0 <= k < |ReplaceAll(s, pat, repl)| ==>
              ReplaceAll(s, pat, repl)[k] in s || ReplaceAll(s, pat, repl)[k] in repl
    ensures |pat| == 1 && pat[0] !in repl ==>
              forall k :: 0 <= k < |ReplaceAll(s, pat, repl)| ==> ReplaceAll(s, pat, repl)[k] != pat[0]
    decreases |s|
  {
    if |s| < |pat| {
    } else if s[..|pat|] == pat {
      var tail := s[|pat|..];
      ReplaceAllChars(tail, pat, repl);
      var rest := ReplaceAll(tail, pat, repl);
      assert forall c :: c in tail ==> c in s;
      assert ReplaceAll(s, pat, repl) == repl + rest;
    } else {
      var tail := s[1..];
      ReplaceAllChars(tail, pat, repl);
      var rest := ReplaceAll(tail, pat, repl);
      assert forall c :: c in tail ==> c in s;
      assert ReplaceAll(s, pat, repl) == [s[0]] + rest;
      assert |pat| == 1 ==> s[0] != pat[0] by {
        if |pat| == 1 {
          assert s[..1] == [s[0]];
        }
      }
    }
  }

  /** strings.Split(s, sep)[0] for a non-empty separator: everything before
      the first occurrence of sep, or all of s when sep does not occur. */
  function CutBefore(s: string, sep: string): (r: string)
    requires |sep| > 0
    ensures r <= s
    ensures !Contains(r, sep)
    ensures r == s || OccursAt(s, sep, |r|)
    decreases |s|
  {
    if |s| < |sep| then
      assert !Contains(s, sep);
      s
    else if s[..|sep|] == sep then
      assert !Contains("", sep);
      ""
    else
      var rest := CutBefore(s[1..], sep);
      var r := [s[0]] + rest;
      assert !Contains(r, sep) by {
        forall i | 1 <= i <= |r|
          ensures OccursAt(r, sep, i) == OccursAt(rest, sep, i - 1)
        {
          OccursInCons(s[0], rest, sep, i);
        }
      }
      assert r == s || OccursAt(s, sep, |r|) by {
        if rest != s[1..] {
          OccursInTail(s, sep, |rest|);
        }
      }
      r
  }

  /** strings.Join. */
  function Join(parts: seq<string>, sep: string): string {
    if |parts| == 0 then ""
    else if |parts| == 1 then parts[0]
    else parts[0] + sep + Join(parts[1..], sep)
  }

  /** strings.HasSuffix. */
  predicate HasSuffix(s: string, suffix: string) {
    |suffix| <= |s| && s[|s| - |suffix|..] == suffix
  }

  /** strings.TrimSuffix: the suffix is cut off exactly when the text ends
      with it. */
  function TrimSuffix(s: string, suffix: string): (r: string)
    ensures r <= s
    ensures HasSuffix(s, suffix) ==> r + suffix == s
    ensures !HasSuffix(s, suffix) ==> r == s
  {
    if |suffix| <= |s| && s[|s| - |suffix|..] == suffix then s[..|s| - |suffix|] else s
  }
}

=== FILE: topology.dfy ===
/** Lookups into the static topology (config/helper.go): which service desk
    or installation owns an address, and which registered desk has a given
    Jira service-desk id. All three scan installations in order, and within an
    installation its desks in order, and return the first hit. Addresses are
    compared as exact strings. */
module Topology {
  import opened Wrappers
  import opened Model

  predicate DeskOwns(cfg: Config, i: int, j: int, addr: string) {
    0 <= i < |cfg.installs| && 0 <= j < |cfg.installs[i].desks|
    && addr in cfg.installs[i].desks[j].emails
  }

  predicate InstallOwns(cfg: Config, i: int, addr: string) {
    0 <= i < |cfg.installs| && addr in cfg.installs[i].emails
  }

  /** Desk (i, j) has Jira id `id` and takes email traffic. */
  predicate DeskHasId(cfg: Config, i: int, j: int, id: string) {
    0 <= i < |cfg.installs| && 0 <= j < |cfg.installs[i].desks|
    && cfg.installs[i].desks[j].id == id
    && !cfg.installs[i].desks[j].onlyCreateEventRequests
  }

  /** Position (i, j) comes before d in installation-then-desk order. */
  predicate Before(i: int, j: int, d: DeskRef) {
    i < d.install || (i == d.install && j < d.desk)
  }

  function FirstOwningDesk(cfg: Config, i: nat, j: nat, addr: string): (r: Option<nat>)
    requires i < |cfg.installs| && j <= |cfg.installs[i].desks|
    ensures r.Some? ==> j <= r.value && DeskOwns(cfg, i, r.value, addr)
    ensures r.Some? ==> forall k :: j <= k < r.value ==> !DeskOwns(cfg, i, k, addr)
    ensures r.None? ==> forall k :: j <= k ==> !DeskOwns(cfg, i, k, addr)
    decreases |cfg.installs[i].desks| - j
  {
    if j == |cfg.installs[i].desks| then None
    else if addr in cfg.installs[i].desks[j].emails then Some(j)
    else FirstOwningDesk(cfg, i, j + 1, addr)
  }

  function DeskFromMailFrom(cfg: Config, addr: string, i: nat): (r: Option<DeskRef>)
    requires i <= |cfg.installs|
    ensures r.Some? ==> i <= r.value.install && DeskOwns(cfg, r.value.install, r.value.desk, addr)
    ensures r.Some? ==> forall a, b :: i <= a && Before(a, b, r.value) ==> !DeskOwns(cfg, a, b, addr)
    ensures r.None? ==> forall a, b :: i <= a ==> !DeskOwns(cfg, a, b, addr)
    decreases |cfg.installs| - i
  {
    if i == |cfg.installs| then None
    else match FirstOwningDesk(cfg, i, 0, addr)
      case Some(j) => Some(DeskRef(i, j))
      case None => DeskFromMailFrom(cfg, addr, i + 1)
  }

  /** GetServiceDeskFromMail: the first desk listing addr, or None when no
      desk does. */
  function DeskFromMail(cfg: Config, addr: string): (r: Option<DeskRef>)
    ensures r.Some? ==> DeskOwns(cfg, r.value.install, r.value.desk, addr)
    ensures r.Some? ==> forall a, b :: Before(a, b, r.value) ==> !DeskOwns(cfg, a, b, addr)
    ensures r.None? <==> forall a, b :: !DeskOwns(cfg, a, b, addr)
  {
    DeskFromMailFrom(cfg, addr, 0)
  }

  function FirstDeskWithId(cfg: Config, i: nat, j: nat, id: string): (r: Option<nat>)
    requires i < |cfg.installs| && j <= |cfg.installs[i].desks|
    ensures r.Some? ==> j <= r.value && DeskHasId(cfg, i, r.value, id)
    ensures r.Some? ==> forall k :: j <= k < r.value ==> !DeskHasId(cfg, i, k, id)
    ensures r.None? ==> forall k :: j <= k ==> !DeskHasId(cfg, i, k, id)
    decreases |cfg.installs[i].desks| - j
  {
    if j == |cfg.installs[i].desks| then None
    else if cfg.installs[i].desks[j].id == id && !cfg.installs[i].desks[j].onlyCreateEventRequests then Some(j)
    else FirstDeskWithId(cfg, i, j + 1, id)
  }

  function DeskFromIdFrom(cfg: Config, id: string, i: nat): (r: Option<DeskRef>)
    requires i <= |cfg.installs|
    ensures r.Some? ==> i <= r.value.install && DeskHasId(cfg, r.value.install, r.value.desk, id)
    ensures r.Some? ==> forall a, b :: i <= a && Before(a, b, r.value) ==> !DeskHasId(cfg, a, b, id)
    ensures r.None? ==> forall a, b :: i <= a ==> !DeskHasId(cfg, a, b, id)
    decreases |cfg.installs| - i
  {
    if i == |cfg.installs| then None
    else match FirstDeskWithId(cfg, i, 0, id)
      case Some(j) => Some(DeskRef(i, j))
      case None => DeskFromIdFrom(cfg, id, i + 1)
  }

  /** GetServiceDeskFromId: the first desk with that id that is not reserved
      for event requests. */
  function DeskFromId(cfg: Config, id: string): (r: Option<DeskRef>)
    ensures r.Some? ==> DeskHasId(cfg, r.value.install, r.value.desk, id)
    ensures r.Some? ==> !DeskAt(cfg, r.value).onlyCreateEventRequests
    ensures r.Some? ==> forall a, b :: Before(a, b, r.value) ==> !DeskHasId(cfg, a, b, id)
    ensures r.None? <==> forall a, b :: !DeskHasId(cfg, a, b, id)
  {
    DeskFromIdFrom(cfg, id, 0)
  }

  function InstallFromMailFrom(cfg: Config, addr: string, i: nat): (r: Option<nat>)
    requires i <= |cfg.installs|
    ensures r.Some? ==> i <= r.value && InstallOwns(cfg, r.value, addr)
    ensures r.Some? ==> forall a :: i <= a < r.value ==> !InstallOwns(cfg, a, addr)
    ensures r.None? ==> forall a :: i <= a ==> !InstallOwns(cfg, a, addr)
    decreases |cfg.installs| - i
  {
    if i == |cfg.installs| then None
    else if addr in cfg.installs[i].emails then Some(i)
    else InstallFromMailFrom(cfg, addr, i + 1)
  }

  /** GetJiraInstallFromMail: the first installation listing addr. */
  function InstallFromMail(cfg: Config, addr: string): (r: Option<nat>)
    ensures r.Some? ==> InstallOwns(cfg, r.value, addr)
    ensures r.Some? ==> forall a :: a < r.value ==> !InstallOwns(cfg, a, addr)
    ensures r.None? <==> forall a :: !InstallOwns(cfg, a, addr)
  {
    InstallFromMailFrom(cfg, addr, 0)
  }

  /** Two configurations whose installations and desks list the same
      addresses, position by position. */
  predicate SameAddressing(c1: Config, c2: Config) {
    && |c1.installs| == |c2.installs|
    && (forall i :: 0 <= i < |c1.installs| ==>
          && c1.installs[i].emails == c2.installs[i].emails
          && |c1.installs[i].desks| == |c2.installs[i].desks|
          && (forall j :: 0 <= j < |c1.installs[i].desks| ==>
                c1.installs[i].desks[j].emails == c2.installs[i].desks[j].emails))
  }

  /** The address lookups read nothing but the addresses, so the fields the
      loader derives cannot change their answers. */
  lemma AddressLookupsAgree(c1: Config, c2: Config, addr: string)
    requires SameAddressing(c1, c2)
    ensures DeskFromMail(c1, addr) == DeskFromMail(c2, addr)
    ensures InstallFromMail(c1, addr) == InstallFromMail(c2, addr)
  {
    assert forall a, b :: DeskOwns(c1, a, b, addr) == DeskOwns(c2, a, b, addr);
    assert forall a :: InstallOwns(c1, a, addr) == InstallOwns(c2, a, addr);
    var d1, d2 := DeskFromMail(c1, addr), DeskFromMail(c2, addr);
    if d1.Some? && d2.Some? {
      assert !Before(d1.value.install, d1.value.desk, d2.value);
      assert !Before(d2.value.install, d2.value.desk, d1.value);
    }
    var i1, i2 := InstallFromMail(c1, addr), InstallFromMail(c2, addr);
    if i1.Some? && i2.Some? {
      assert !(i1.value < i2.value) && !(i2.value < i1.value);
    }
  }
}

=== FILE: wrappers.dfy ===
/** Failure-compatible wrappers used throughout the model: an optional value
    (Go's nil) and a result that either carries a value or an error
    message (Go's `(T, error)` pair). */
module Wrappers {

  datatype Option<+T> = None | Some(value: T) {
    function GetOr(default: T): T {
      match this
      case Some(v) => v
      case None => default
    }
  }

  datatype Result<+T> = Ok(value: T) | Err(msg: string) {
    predicate IsFailure() {
      Err?
    }

    function PropagateFailure<U>(): Result<U>
      requires Err?
    {
      Err(msg)
    }

    function Extract(): T
      requires Ok?
    {
      value
    }
  }
}
